=== FILE: README.md ===
# gps-no-server core, modelled in Dafny

gps-no-server is a Go backend for a UWB positioning system. Stations, which are UWB anchors
and tags, report over MQTT and are grouped into clusters. Ranging measurements between two
stations are cached in memory and pushed to browsers as Server-Sent Events (SSE). This
project models the server's core logic as pure Dafny functions and methods:

- **Event stream** (`Broadcaster`, `EventStream`, `LegacyEventStream`, `SseFrames`,
  `RangingEventPublisher`). This covers the subscription table keyed by `type` or `type:id`,
  the buffered client channels (capacity 1024), and the drop-and-close of full subscribers.
  It also covers routing a payload by its ranging id and the SSE frames written to the wire.
  A small event-stream reader, following the HTML Living Standard's "event stream
  interpretation" section, shows how those frames are read back by a browser.
- **In-memory cache** (`MemoryCache`, `RangingCache`). This covers the TTL, the capacity bound
  with least-recently-used eviction, the expiry sweep, and the ranging cache keyed by
  `sourceMac:destinationMac`.
- **Locks** (`RWMutex`). This is a single-goroutine model of `sync.RWMutex`, used to show the
  lock sequences of the cache's `Get` and the stream's `Publish`.
- **MQTT topic registry** (`MqttRegistry`). This covers registering subscriptions, listing
  their topics, and the server's own topic matcher (`+` and the `#` suffix rule).
- **Station events and services** (`StationEvents`, `StationService`, `ClusterEventHandler`).
  This covers the in-process event bus, the cluster-membership events emitted by a station
  update, identifier classification (MAC address versus numeric id), `SaveAll`, and the MQTT
  topic built for membership events.
- **DTO mapping** (`HttpDto`, `Mappers`, `ClusterMapper`, `ControllersDto`). This covers
  parsing the `include` query parameter, and model/DTO conversion in both the current
  (`internal/core`) and the older (`internal/controllers`) layer.
- **Validation and configuration** (`Validation`, `Config`). This covers the cluster validator
  and its error texts, and loading the configuration from environment variables.

Shared building blocks are `Wrappers` (`Option`/`Result`), `Primitives` (ids, timestamps, the
GORM base model), `GoStrings` (the Go standard-library string and number functions the core
calls: `strings.Split`, `Join`, `TrimSpace`, `ToLower`, `strconv.ParseUint`, `Atoi`,
`ParseBool`), and the entity datatypes in `CoreModels`, `CoreDtos` and `LegacyModels`.

Conventions:

- Time is an explicit `now: nat` in nanoseconds.
- Go's `nil` pointers and `nil` slices are modelled with `Option`.
- Go's unordered map iteration is a nondeterministic choice (`:|`).
- JSON encoding and decoding, the float-to-uint conversion and `time.ParseDuration` are
  function-valued parameters.
- Repository calls are function-valued parameters or results passed in.

Both copies of the event-stream service share one `Broadcaster` model. The older copy is
`internal/services/event_stream_service.go`, and the `Broadcaster` rows below also name its
lines. The older `internal/services/station_service.go` has the same
`GetStationByIdentifier` and `SaveAll` as the current service, and its lines are named in the same way.

All `.dfy` files form one program and are verified together: `dafny verify *.dfy`.

## Model

| member | source | states |
|---|---|---|
| Broadcaster.NewState | internal/core/services/event_stream.go:20-25 | a new service has no subscribers and no channels, and satisfies the table invariant |
| Broadcaster.IdKey | internal/core/services/event_stream.go:31-35 | the per-id key is the event type, a colon, and the decimal id, so the type and the id can be read back from it |
| Broadcaster.SubscriptionKey | internal/core/services/event_stream.go:31-35 | a subscription with no id, or with id 0, is filed under the bare event type; a positive first id gives `type:id`; the older copy at internal/services/event_stream_service.go:36-40 behaves the same |
| Broadcaster.IdKeyIsNotType | internal/core/services/event_stream.go:31-35 | within one event type, an id-filtered key never equals the bare type key, so a type's plain and per-id subscribers never share a set |
| Broadcaster.TypeKeyCollidesWithIdKey | internal/core/services/event_stream.go:31-35 | across event types the keys do meet: a plain subscriber to type `a:1` shares the key of the id-1 subscribers of type `a`, and so receives every `a` publish with id 1 |
| Broadcaster.IdKeyInjective | internal/core/services/event_stream.go:31-35 | two id keys of one event type are equal only when the ids are equal |
| Broadcaster.Subscribe | internal/core/services/event_stream.go:27-42 | subscribing adds one fresh, empty, open channel under its key; no other key's subscriber set changes; the older copy at internal/services/event_stream_service.go:32-47 behaves the same |
| Broadcaster.SubscribeKeepsValid | internal/core/services/event_stream.go:37-42 | after a subscription, every registered channel is still open, under its own key, and within capacity |
| Broadcaster.Cancel | internal/core/services/event_stream.go:44-57 | when the context ends, the channel is removed from its key's set and closed once more; an emptied key is deleted; other keys and channels are untouched; the older copy at internal/services/event_stream_service.go:49-62 behaves the same |
| Broadcaster.CancelKeepsValid | internal/core/services/event_stream.go:44-57 | cancelling a live subscription keeps the table invariant |
| Broadcaster.Receive | internal/core/services/event_stream.go:27-60 | a reader takes the oldest queued frame, or nothing from an empty queue, and the table invariant holds afterwards |
| Broadcaster.PublishToChannels | internal/core/services/event_stream.go:115-141 | every subscriber of the key with room gets the message appended; every full one is closed and removed; an emptied key is deleted; nothing outside the key changes; the older copy at internal/services/event_stream_service.go:122-148 behaves the same; modelled as one atomic transition, which is the corrected lock order: as written the publish deadlocks at the first full subscriber (see Findings) |
| Broadcaster.PublishToChannelsKeepsValid | internal/core/services/event_stream.go:115-141 | delivering to one key keeps the table invariant |
| Broadcaster.Deliver | internal/core/services/event_stream.go:96-110 | publishing reaches the type key and, for a positive id, the `type:id` key; keys not targeted keep their subscriber sets; the older copy at internal/services/event_stream_service.go:101-119 behaves the same; modelled as one atomic transition, which is the corrected lock order: as written the publish deadlocks at the first full subscriber (see Findings) |
| Broadcaster.DeliverEffect | internal/core/services/event_stream.go:96-141 | each channel is enqueued, closed, or left unchanged, exactly according to whether it is targeted and full; modelled as one atomic transition, which is the corrected lock order: as written, once a subscriber of a targeted key is full the publish deadlocks at event_stream.go:128, before any later key or later publish is served (see Findings) |
| Broadcaster.DeliverSendsOnlyOnOpen | internal/core/services/event_stream.go:115-125 | a channel whose queue changes during a publish had never been closed, so no send goes to a closed channel |
| Broadcaster.TypeSubscriberGetsEveryId | internal/core/services/event_stream.go:99-101 | a subscriber to the bare type with room receives the frame whatever the ranging id |
| Broadcaster.FullSubscriberDropped | internal/core/services/event_stream.go:118-138 | a full subscriber of a targeted key is closed and unsubscribed instead of receiving the frame, under the corrected lock order; as written the publish deadlocks before the drop (see Findings) |
| Broadcaster.IdSubscriberGetsOnlyItsId | internal/core/services/event_stream.go:103-110 | a subscriber to `type:n` receives the frame if and only if the published id is n; modelled as one atomic transition, which is the corrected lock order: as written, once a subscriber of a targeted key is full the publish deadlocks at event_stream.go:128, before any later key or later publish is served (see Findings) |
| Broadcaster.DeliverToNobody | internal/core/services/event_stream.go:99-110 | publishing an event type nobody subscribed to, with id 0, changes nothing |
| Broadcaster.IdFromMap | internal/core/services/event_stream.go:71-78 | a map payload's routing id is its `"id"` number (float or uint); it is 0 when the key is absent or holds something else |
| Broadcaster.IdFromJsonText | internal/core/services/event_stream.go:79-87 | a JSON-text payload that does not decode, or has no `"id"`, is routed with id 0 |
| Broadcaster.PublishJson | internal/core/services/event_stream.go:90-113 | a marshalling failure is the only error and carries the Go message prefix; otherwise the frame as written, `event : T` then `data: J` and a blank line (SseFrames.DataFrame), is delivered to the type key and the id key; the older copy at internal/services/event_stream_service.go:95-120 behaves the same; modelled as one atomic transition, which is the corrected lock order: as written, once a subscriber of a targeted key is full the publish deadlocks at event_stream.go:128, before any later key or later publish is served (see Findings) |
| Broadcaster.PublishJsonEffect | internal/core/services/event_stream.go:90-110 | an open subscriber with room gets exactly the frame as written, `event : T\ndata: J\n\n` (SseFrames.DataFrame), appended when targeted, and is unchanged otherwise; modelled as one atomic transition, which is the corrected lock order: as written, once a subscriber of a targeted key is full the publish deadlocks at event_stream.go:128, before any later key or later publish is served (see Findings) |
| Broadcaster.DeliverWithoutId | internal/core/services/event_stream.go:99-103 | with id 0 only the bare type key is published to |
| Broadcaster.PublishManyFills | internal/core/services/event_stream.go:37-42 | with no reader, consecutive publishes fill a subscriber's queue one frame each, while capacity allows; modelled as one atomic transition, which is the corrected lock order: as written, once a subscriber of a targeted key is full the publish deadlocks at event_stream.go:128, before any later key or later publish is served (see Findings) |
| Broadcaster.DoubleCloseReachable | internal/core/services/event_stream.go:56 | a latent defect: as written the publish that meets a full subscriber deadlocks before the drop at event_stream.go:132; once the lock order is corrected, a subscriber dropped as full is closed again by its watcher on cancellation, and that second close would panic in Go |
| Broadcaster.PublishWithSlowClientSelfDeadlocks | internal/core/services/event_stream.go:96-97 | publishing while holding the read lock and then taking the write lock for a slow client blocks the publishing goroutine on itself; with no slow client it completes |
| Broadcaster.PublishLockTrace | internal/core/services/event_stream.go:96-97 | a publish takes the read lock first and releases it last, and requests the write lock, strictly inside that read lock, exactly when some subscriber was full |
| Broadcaster.PublishLockTraceReleasingFirst | internal/core/services/event_stream.go:128 | the corrected lock order, releasing the read lock before taking the write lock, always completes |
| EventStream.ExtractId | internal/core/services/event_stream.go:67-88 | a ranging DTO is routed by its id, a map or JSON text by its `"id"` field, and any other payload by 0 |
| EventStream.Publish | internal/core/services/event_stream.go:66-113 | publishing any payload fails exactly when marshalling fails, and then returns the error with no new subscription table, so nothing is delivered; otherwise the frame as written (SseFrames.DataFrame of the marshalled payload) goes to the type key and to the key of its extracted id; modelled as one atomic transition, which is the corrected lock order: as written, once a subscriber of a targeted key is full the publish deadlocks at event_stream.go:128, before any later key or later publish is served (see Findings) |
| EventStream.IdSubscriberSeesOnlyItsRanging | internal/core/services/event_stream.go:67-70 | a `type:n` subscriber receives a ranging event, as the frame written at event_stream.go:94, if and only if the ranging's id is n; modelled as one atomic transition, which is the corrected lock order: as written, once a subscriber of a targeted key is full the publish deadlocks at event_stream.go:128, before any later key or later publish is served (see Findings) |
| EventStream.OtherPayloadGoesToTypeOnly | internal/core/services/event_stream.go:67-88 | a payload with no recognised id is never delivered to an id subscriber |
| LegacyEventStream.ExtractId | internal/services/event_stream_service.go:72-93 | the older copy routes by the controller-layer ranging DTO's id, a map's or JSON text's `"id"` field, or 0 |
| LegacyEventStream.Publish | internal/services/event_stream_service.go:71-120 | the older publish fails exactly when marshalling fails, and otherwise delivers the frame written at event_stream_service.go:99 (SseFrames.DataFrame) to the type key and the id key; modelled as one atomic transition, which is the corrected lock order: as written, once a subscriber of a targeted key is full the publish deadlocks at event_stream_service.go:135, before any later key or later publish is served (see Findings) |
| LegacyEventStream.MappedRangingNeverRoutedById | internal/services/event_stream_service.go:72-75 | a ranging mapped by the older DTO layer has id 0, so no id subscriber ever receives it |
| LegacyEventStream.SameRoutingAsCore | internal/services/event_stream_service.go:72-93 | given codecs that decode JSON alike, the older copy and the core copy (internal/core/services/event_stream.go:67-88) pick the same routing id for every map payload, every JSON-text payload, ranging DTOs with equal ids, and any other payload |
| RangingEventPublisher.Payload | internal/core/services/ranging_event_publisher.go:21-22 | the published payload is the ranging mapped with no includes: the same id, distance and station ids, with no nested stations or metadata |
| RangingEventPublisher.PublishRangingEvent | internal/core/services/ranging_event_publisher.go:9-25 | a ranging is published under the type `update`, and fails exactly when its encoding fails |
| RangingEventPublisher.RoutedToItsId | internal/core/services/ranging_event_publisher.go:21-25 | an `update:n` subscriber with room sees a published ranging if and only if the ranging's id is n; modelled as one atomic transition, which is the corrected lock order: as written, once a subscriber of a targeted key is full the publish deadlocks at event_stream.go:128, before any later key or later publish is served (see Findings) |
| RangingEventPublisher.TypeSubscriberSeesEveryRanging | internal/core/services/ranging_event_publisher.go:21-25 | an `update` subscriber with room gets every successfully published ranging appended as the frame written at event_stream.go:94 (SseFrames.DataFrame) |
| SseFrames.IdInfo | internal/core/services/event_stream.go:165-168 | the connected message mentions an id exactly when a positive id filter was given |
| SseFrames.DataFrame | internal/core/services/event_stream.go:94 | the frame as written starts with the header line `event : T`, with a space before the colon, and ends with the blank line that dispatches it |
| SseFrames.TypedFrame | internal/core/services/event_stream.go:94 | the corrected frame starts with `event: T`, ends with the dispatching blank line, and is one character shorter than the frame as written |
| SseFrames.ConnectedFrame | internal/core/services/event_stream.go:165-169 | the greeting frame starts with the header line `event: connected` and ends with the dispatching blank line |
| SseFrames.SplitAtColon | internal/core/services/event_stream.go:94 | following section 9.2.6 of the HTML Living Standard, a line splits at its first colon into field name and value; without a colon the whole line is the field name |
| SseFrames.SplitAtColonFirst | internal/core/services/event_stream.go:94 | a name without a colon, joined by a colon to any value, splits back into that name and value |
| SseFrames.NoLineBreakConcat | internal/core/services/event_stream.go:94 | two strings without line breaks concatenate to one without line breaks |
| SseFrames.LinesFromLine | internal/core/services/event_stream.go:94 | reading a line-feed-terminated line yields the line and continues with the rest |
| SseFrames.FrameLines | internal/core/services/event_stream.go:94 | a two-line frame ending in a blank line reads as the two lines followed by the empty dispatch line |
| SseFrames.ReadFrame | internal/core/services/event_stream.go:94 | a two-line frame dispatches what its two field lines accumulated |
| SseFrames.FieldLine | internal/core/services/event_stream.go:94 | following section 9.2.6 of the HTML Living Standard, a `name: value` line sets the field `name` to `value`, dropping the single space |
| SseFrames.DispatchOneDataLine | internal/core/services/event_stream.go:94 | one data line dispatches one event whose data is that line without its trailing line feed |
| SseFrames.SpacedEventLineIgnored | internal/core/services/event_stream.go:94 | the line `event : T` names the field `event ` (with a space), so a reader ignores it |
| SseFrames.EventLine | internal/core/services/event_stream.go:169 | the line `event: T` sets the event type to T |
| SseFrames.DataLine | internal/core/services/event_stream.go:94 | the line `data: J` appends J and a line feed to the data buffer |
| SseFrames.DataFrameReadsAsMessage | internal/core/services/event_stream.go:94 | a published frame reaches the browser as an event of the default type `message`, not of the published type |
| SseFrames.TypedFrameReadsAsType | internal/core/services/event_stream.go:94 | the corrected frame `event: T` reads as an event of type T with the given data, as the greeting frame at event_stream.go:169 does |
| SseFrames.ConnectedDataHasNoLineBreak | internal/core/services/event_stream.go:165-169 | the connected JSON stays on one line, so it is a single data line |
| SseFrames.ConnectedFrameReadsAsConnected | internal/core/services/event_stream.go:165-169 | the greeting frame reads as one `connected` event carrying the status JSON; the older copy at internal/services/event_stream_service.go:172-176 behaves the same |
| RWMutex.Run | internal/cache/cache.go:42-61 | a lock sequence run by one goroutine completes, blocks at an operation inside the sequence, or misuses the lock at an operation inside the sequence |
| RWMutex.ReleaseBeforeUpgradeCompletes | internal/cache/cache.go:42-61 | read-lock, read-unlock, lock, unlock completes and leaves the mutex free |
| RWMutex.UpgradeBlocks | internal/cache/cache.go:43-52 | taking the write lock while holding a read lock blocks at that step, whatever follows |
| MemoryCache.NewCache | internal/cache/cache.go:29-40 | a new cache is empty and keeps the given TTL and capacity |
| MemoryCache.Get | internal/cache/cache.go:42-61 | a hit happens if and only if the key is present and not past its expiry, and returns the stored value; a miss changes nothing; a hit refreshes only that entry's last access; modelled as one atomic transition, which is the corrected lock order: as written a hit deadlocks at cache.go:52 (see Findings) |
| MemoryCache.Delete | internal/cache/cache.go:78-83 | the key is gone and every other entry is kept unchanged |
| MemoryCache.Clear | internal/cache/cache.go:85-90 | clearing leaves no entries and keeps the settings |
| MemoryCache.EvictLRU | internal/cache/cache.go:92-108 | an empty map is unchanged; otherwise exactly one entry with the oldest last access is removed |
| MemoryCache.Set | internal/cache/cache.go:63-76 | the key maps to the value with expiry now+TTL; the LRU entry is evicted if and only if the cache was at capacity; the size stays within a positive capacity |
| MemoryCache.Sweep | internal/cache/cache.go:115-121 | after the tick exactly the unexpired entries remain, unchanged |
| MemoryCache.GetHitSelfDeadlocks | internal/cache/cache.go:43-53 | a cache hit blocks on itself by taking the write lock under its own read lock; a miss completes |
| MemoryCache.GetLockTrace | internal/cache/cache.go:43-53 | a Get takes the read lock first and releases it last, and requests the write lock, strictly inside that read lock, exactly on a hit |
| MemoryCache.GetLockTraceReleasingFirst | internal/cache/cache.go:52-53 | the corrected lock order for Get completes on a hit and on a miss |
| MemoryCache.CapacityOneEvictsOldest | internal/cache/cache.go:63-76 | in a one-item cache, storing a second key evicts the first; read through Get as one atomic transition, which is the corrected lock order: as written a hit deadlocks at cache.go:52 (see Findings) |
| MemoryCache.ReadEntrySurvivesEviction | internal/cache/cache.go:55-60 | a recently read entry survives when a newer but unread entry is evicted; read through Get as one atomic transition, which is the corrected lock order: as written a hit deadlocks at cache.go:52 (see Findings) |
| MemoryCache.ExpiryBoundary | internal/cache/cache.go:47 | an entry is still returned at its expiry instant and missing one nanosecond later; read through Get as one atomic transition, which is the corrected lock order: as written a hit deadlocks at cache.go:52 (see Findings) |
| RangingCache.NewRangingCache | internal/infrastructure/cache/ranging_cache.go:13-17 | the ranging cache starts empty with the given TTL and capacity |
| RangingCache.NewCacheManager | internal/infrastructure/cache/cache_manager.go:9-13 | the shared ranging cache holds 60 seconds' TTL and 5000 entries |
| RangingCache.CombinedKey | internal/infrastructure/cache/ranging_cache.go:19-21 | the key is the two MAC addresses joined by a colon |
| RangingCache.CombinedKeySplits | internal/infrastructure/cache/ranging_cache.go:19-21 | splitting a key of two colon-free addresses at the colon gives back the two addresses |
| RangingCache.CombinedKeyCollides | internal/infrastructure/cache/ranging_cache.go:19-21 | addresses that contain colons can collide, for example `a:b` with `c` and `a` with `b:c` |
| RangingCache.CombinedKeyInjective | internal/infrastructure/cache/ranging_cache.go:19-21 | for colon-free addresses, equal keys mean equal source and destination |
| RangingCache.GetBySourceDestination | internal/infrastructure/cache/ranging_cache.go:23-26 | a lookup hits if and only if the pair's key is stored and unexpired, and returns that ranging; read through Get as one atomic transition, which is the corrected lock order: as written a hit deadlocks at cache.go:52 (see Findings) |
| RangingCache.RangingKey | internal/infrastructure/cache/ranging_cache.go:29-34 | a ranging has a key exactly when both stations are loaded, and the key is built from their MAC addresses |
| RangingCache.Set | internal/infrastructure/cache/ranging_cache.go:28-37 | a nil ranging, or one without both stations, leaves the cache unchanged; otherwise it is stored under its key; below capacity every other entry is kept, and at capacity exactly one least-recently-used entry is evicted and every other entry kept; the size stays within a positive capacity |
| RangingCache.Clear | internal/infrastructure/cache/ranging_cache.go:39-41 | clearing empties the cache and keeps its settings |
| RangingCache.ClearAll | internal/infrastructure/cache/cache_manager.go:15-17 | clearing all empties the shared ranging cache |
| RangingCache.SetThenGet | internal/infrastructure/cache/ranging_cache.go:23-37 | a ranging just stored is found under its own source and destination before it expires; read through Get as one atomic transition, which is the corrected lock order: as written a hit deadlocks at cache.go:52 (see Findings) |
| RangingCache.SetThenGetExpired | internal/infrastructure/cache/ranging_cache.go:23-37 | a stored ranging is not found after its TTL has passed |
| RangingCache.ClearForgets | internal/infrastructure/cache/ranging_cache.go:39-41 | after Clear no pair is found |
| MqttRegistry.NewRegistry | internal/infrastructure/mqtt/registry.go:22-24 | a new registry holds no subscriptions |
| MqttRegistry.Register | internal/infrastructure/mqtt/registry.go:22-24 | registering appends the subscription and keeps the earlier ones in order |
| MqttRegistry.MatchLoopMeansSegmentsMatch | internal/infrastructure/mqtt/registry.go:71-81 | the segment loop accepts if and only if every remaining pattern segment is `+` or equals the topic segment |
| MqttRegistry.TopicMatches | internal/infrastructure/mqtt/registry.go:50-82 | every topic matches itself; a different topic matched by a pattern without a trailing `#` has as many `/`-segments as the pattern; a `#` pattern matches a different topic only when it starts with `/` |
| MqttRegistry.MatchesReflexive | internal/infrastructure/mqtt/registry.go:50-52 | every topic matches itself |
| MqttRegistry.HashPatternMatches | internal/infrastructure/mqtt/registry.go:54-62 | a pattern ending in `#` matches exactly the topics that start with its prefix, and only when that prefix starts with `/` (or the topic equals the pattern) |
| MqttRegistry.RelativeHashMatchesOnlyItself | internal/infrastructure/mqtt/registry.go:56-59 | a `#` pattern not starting with `/` matches only itself |
| MqttRegistry.SegmentPatternMatches | internal/infrastructure/mqtt/registry.go:64-81 | a pattern without a trailing `#` matches if and only if it has as many segments as the topic and each segment is `+` or equal |
| MqttRegistry.LiteralPatternMatchesOnlyItself | internal/infrastructure/mqtt/registry.go:64-81 | a pattern with no wildcard matches only the identical topic |
| MqttRegistry.SplitPath3 | internal/infrastructure/mqtt/registry.go:64-65 | a three-segment path splits at `/` into its segments |
| MqttRegistry.SplitPath4 | internal/infrastructure/mqtt/registry.go:64-65 | a four-segment path splits at `/` into its segments |
| MqttRegistry.PlusMatchesOneSegment | internal/infrastructure/mqtt/registry.go:71-81 | `a/+/c` matches `a/b/c` |
| MqttRegistry.PlusRejectsDeeperTopic | internal/infrastructure/mqtt/registry.go:64-69 | `a/+/c` does not match a topic with more segments |
| MqttRegistry.PlusMatchesEmptySegment | internal/infrastructure/mqtt/registry.go:71-81 | `+` also matches an empty segment |
| MqttRegistry.PlusKeepsLiteralSegments | internal/infrastructure/mqtt/registry.go:71-81 | the literal segments next to `+` must still be equal |
| MqttRegistry.LiteralSegmentMismatch | internal/infrastructure/mqtt/registry.go:71-81 | a non-`#` filter with as many segments as the topic fails when any one of its literal segments differs from the topic's segment at that position |
| MqttRegistry.HashExamples | internal/infrastructure/mqtt/registry.go:54-62 | `a/#` matches neither `a/b/c` nor `x/y`; `/a/#` matches `/a/b/c`; `/a#` matches `/ab` |
| MqttRegistry.AllPatternsAppend | internal/infrastructure/mqtt/registry.go:26-32 | the topic list of an extended registry is the old list followed by the new subscription's topics |
| MqttRegistry.MatchingAppend | internal/infrastructure/mqtt/registry.go:34-47 | the handlers of an extended registry are the old handlers, plus the new one when it matches |
| MqttRegistry.GetAllTopics | internal/infrastructure/mqtt/registry.go:26-32 | returns every registered topic, subscription by subscription, in registration order |
| MqttRegistry.GetAllSubscriptions | internal/infrastructure/mqtt/registry.go:34-47 | returns, in order, exactly the subscriptions with at least one matching topic |
| MqttRegistry.AllPatternsMembership | internal/infrastructure/mqtt/registry.go:26-32 | a topic is listed if and only if some subscription registered it |
| MqttRegistry.RegisterExtendsTopics | internal/infrastructure/mqtt/registry.go:22-32 | registering adds exactly the new subscription's topics at the end of the list |
| MqttRegistry.MatchingMultiplicity | internal/infrastructure/mqtt/registry.go:34-47 | a handler appears among the matches as often as it was registered with a matching topic |
| MqttRegistry.MatchingIsSubsequence | internal/infrastructure/mqtt/registry.go:34-47 | the matching handlers are registered handlers, each with a matching topic, and there are no more of them than registrations |
| MqttRegistry.RegisterExtendsMatches | internal/infrastructure/mqtt/registry.go:22-47 | registering changes a topic's handlers only by appending the new subscription when it matches |
| StationEvents.NewBus | internal/events/station_event.go:28-32 | a new bus has no handlers |
| StationEvents.EventTypesDistinct | internal/events/station_event.go:10-14 | the three station event types are distinct strings |
| StationEvents.Subscribe | internal/events/station_event.go:34-42 | subscribing appends the handler to its event type's list and leaves every other type's list alone |
| StationEvents.Publish | internal/events/station_event.go:44-55 | publishing launches each handler of the event's type once, in order, with the event; an unknown type launches nothing |
| StationEvents.SubscribeThenPublish | internal/events/station_event.go:34-55 | a newly subscribed handler is launched last for events of its type and never for other types |
| StationEvents.LaunchMultiplicity | internal/events/station_event.go:44-55 | a handler is launched as many times as it was subscribed to the event's type |
| StationService.ClassifyIdentifier | internal/core/services/station_service.go:53-62 | an identifier containing `:` is a MAC address; otherwise it is an id exactly when it is a decimal number that fits in 64 bits, and invalid, with the German message, in every other case; the older copy at internal/services/station_service.go:49-58 behaves the same |
| StationService.InvalidIdentifierMessage | internal/core/services/station_service.go:61 | the German error text quotes the rejected identifier verbatim between a fixed prefix and suffix |
| StationService.InvalidIdentifierMessageInjective | internal/core/services/station_service.go:61 | distinct identifiers are reported with distinct messages |
| StationService.DecimalIdentifierIsId | internal/core/services/station_service.go:59-64 | the decimal text of any id is looked up as that id |
| StationService.RejectedIdentifiers | internal/core/services/station_service.go:59-62 | the empty identifier and a number above 2^64-1 are rejected |
| StationService.GetStationByIdentifier | internal/core/services/station_service.go:53-65 | a MAC identifier is looked up by MAC, a numeric one by id, both with the parsed includes; an invalid one gives the identifier error |
| StationService.InvalidIdentifierLooksNothingUp | internal/core/services/station_service.go:59-62 | for an invalid identifier the result does not depend on the repository |
| StationService.ClusterEvents | internal/core/services/station_service.go:104-128 | an update emits "added" exactly when the station gains a new cluster, and "removed" exactly when it leaves its old one, in that order, with the right cluster ids and timestamp |
| StationService.MoveEmitsAddedThenRemoved | internal/core/services/station_service.go:104-128 | moving from cluster x to cluster y emits "added to y", then "removed from x" |
| StationService.UnchangedMembershipIsSilent | internal/core/services/station_service.go:104-128 | an update that keeps the cluster membership emits no event |
| StationService.Update | internal/core/services/station_service.go:88-131 | a failed lookup returns its error without updating; a failed update publishes nothing; a successful update publishes the membership events |
| StationService.UpdateLaunches | internal/core/services/station_service.go:114-127 | no published event launches nothing; one event launches that event's handlers |
| StationService.MoveLaunchesBothKinds | internal/core/services/station_service.go:104-128 | a move from cluster x to y launches every added-handler with the added-to-y event, followed by every removed-handler with the removed-from-x event, and nothing else |
| StationService.SaveAll | internal/core/services/station_service.go:67-80 | an empty list gives nil with no saves; otherwise stations are saved in order until the first failure, whose error is returned; on success the list itself is returned; the older copy at internal/services/station_service.go:63-76 behaves the same |
| ClusterEventHandler.SplitPath5 | internal/infrastructure/mqtt/handlers/cluster_event_handler.go:47-56 | a five-segment path splits at `/` into its segments |
| ClusterEventHandler.BuildTopic | internal/infrastructure/mqtt/handlers/cluster_event_handler.go:47-56 | every topic lies under `gpsno/clusters/`, and an event of an unknown type goes to `gpsno/clusters/events` |
| ClusterEventHandler.MembershipTopicShape | internal/infrastructure/mqtt/handlers/cluster_event_handler.go:47-56 | the membership topic is the five segments `gpsno`, `clusters`, the cluster id, `stations` and the station id |
| ClusterEventHandler.MembershipTopicSegments | internal/infrastructure/mqtt/handlers/cluster_event_handler.go:47-56 | the membership topic splits into exactly those five segments |
| ClusterEventHandler.MembershipTopicIdentifiesIds | internal/infrastructure/mqtt/handlers/cluster_event_handler.go:47-56 | two membership events get the same topic if and only if they have the same cluster and station ids |
| ClusterEventHandler.OtherTopics | internal/infrastructure/mqtt/handlers/cluster_event_handler.go:47-56 | a cluster update goes to the cluster's topic; any other event type goes to the fallback topic |
| ClusterEventHandler.MembershipTopicMatchesWildcard | internal/infrastructure/mqtt/handlers/cluster_event_handler.go:47-56 | every membership topic matches `gpsno/clusters/+/stations/+` under the registry's matcher |
| ClusterEventHandler.HandleEvent | internal/infrastructure/mqtt/handlers/cluster_event_handler.go:24-45 | the handler publishes nothing to MQTT; it logs the topic and payload exactly when marshalling succeeds |
| HttpDto.IncludeMap | internal/infrastructure/http/dto/shared.go:18-21 | the include map's keys are exactly the lower-cased, trimmed segments, each mapped to true |
| HttpDto.NormalizedSegmentsLast | internal/infrastructure/http/dto/shared.go:18-21 | the key set of a list of segments is that of all but the last, plus the normalised last segment |
| HttpDto.ParseIncludes | internal/infrastructure/http/dto/shared.go:5-24 | a nil or empty parameter gives an empty map; otherwise the keys are the normalised comma-separated segments, all true |
| HttpDto.OnlyNormalizedKeysMatter | internal/infrastructure/http/dto/shared.go:5-24 | parameters with the same normalised segments give the same map |
| HttpDto.AllTrueMapsEqual | internal/infrastructure/http/dto/shared.go:18-21 | two include maps with the same keys, all true, are equal |
| HttpDto.SplitToLower | internal/infrastructure/http/dto/shared.go:18-19 | lower-casing before splitting gives the same segments as lower-casing each segment |
| HttpDto.CaseInsensitive | internal/infrastructure/http/dto/shared.go:18-19 | the parameter is read case-insensitively |
| HttpDto.EmptySegmentGivesEmptyKey | internal/infrastructure/http/dto/shared.go:18-21 | an empty segment, as in `a,,b` or a trailing comma, adds the empty key |
| HttpDto.TwoSegments | internal/infrastructure/http/dto/shared.go:18-21 | `a,b` gives exactly the keys for normalised `a` and `b` |
| HttpDto.NormalizedPair | internal/infrastructure/http/dto/shared.go:18-21 | the key set of two segments is their two normalised forms |
| Mappers.FromCluster | internal/core/models/mappers/cluster.go:9-25 | the DTO copies id, name and description, never nests stations, and has timestamps exactly when `meta` is included |
| Mappers.ToCluster | internal/core/models/mappers/cluster.go:27-32 | the model takes name and description, with a zero base model and no stations |
| Mappers.FromClusterList | internal/core/models/mappers/cluster.go:34-42 | an empty list maps to nil; otherwise each element is mapped, in order |
| Mappers.ClusterRoundTrip | internal/core/models/mappers/cluster.go:9-32 | mapping a cluster to its DTO and back keeps its name and description |
| Mappers.FromStation | internal/core/models/mappers/station.go:9-32 | the DTO copies id, MAC and name; it nests the cluster exactly when `cluster` is included and loaded, and then drops the cluster id; it has timestamps exactly with `meta` |
| Mappers.ToStation | internal/core/models/mappers/station.go:34-40 | the model takes MAC, name and cluster id, and resets everything else |
| Mappers.FromStationList | internal/core/models/mappers/station.go:42-50 | an empty list maps to nil; otherwise each element is mapped, in order |
| Mappers.StationRoundTrip | internal/core/models/mappers/station.go:9-40 | with no includes, MAC, name and cluster id survive the round trip |
| Mappers.NestedClusterDropsClusterId | internal/core/models/mappers/station.go:18-22 | with a nested cluster, the round trip loses the station's cluster id |
| Mappers.FromRanging | internal/core/models/mappers/ranging_mapper.go:9-37 | the DTO keeps id and distance; it nests both stations only with `stations`, and has timestamps only with `meta` |
| Mappers.FromRangingList | internal/core/models/mappers/ranging_mapper.go:39-47 | an empty list maps to nil; otherwise each element is mapped, in order |
| Mappers.FromStationConfig | internal/core/models/mappers/station_config.go:9-26 | the DTO copies id, station id, UWB mode and channel, with timestamps exactly when `meta` is included |
| Mappers.ToStationConfig | internal/core/models/mappers/station_config.go:28-34 | the model takes station id, UWB mode and channel; preamble fields and the base model are zero |
| Mappers.FromStationConfigList | internal/core/models/mappers/station_config.go:36-43 | every configuration is mapped, in order; an empty list stays empty |
| Mappers.StationConfigRoundTrip | internal/core/models/mappers/station_config.go:9-34 | station id, mode and channel survive the round trip; the id is reset to 0 |
| ClusterMapper.FromCluster | internal/core/models/mappers/cluster_mapper.go:9-35 | this variant nests the cluster's stations when `stations` is included, and timestamps when `meta` is |
| ClusterMapper.ToCluster | internal/core/models/mappers/cluster_mapper.go:37-42 | the model takes name and description only |
| ClusterMapper.FromClusterList | internal/core/models/mappers/cluster_mapper.go:44-52 | an empty list maps to nil; otherwise each element is mapped, in order |
| ClusterMapper.ClusterVariantsAgree | internal/core/models/mappers/cluster_mapper.go:9-35 | without `stations` in the includes, the two FromCluster variants give the same DTO |
| ClusterMapper.ClusterVariantsDifferOnStations | internal/core/models/mappers/cluster_mapper.go:18-25 | with `stations` included and a cluster that has stations, the two variants differ |
| ControllersDto.ParseIncludes | internal/controllers/dto/shared.go:5-18 | an empty string gives an empty map; otherwise the keys are the normalised comma-separated segments, all true |
| ControllersDto.ParseIncludesVersionsAgree | internal/controllers/dto/shared.go:5-18 | the older parser agrees with the current one on every non-nil parameter |
| ControllersDto.IncludesOrEmpty | internal/controllers/dto/station_dto.go:22-47 | a nil includes map reads as empty |
| ControllersDto.FromStation | internal/controllers/dto/station_dto.go:22-47 | the older DTO copies id, MAC and name; it nests the cluster exactly when requested and loaded, dropping the cluster id; it has timestamps with `meta` |
| ControllersDto.ToStation | internal/controllers/dto/station_dto.go:49-55 | the model takes MAC, name and cluster id only |
| ControllersDto.FromStationList | internal/controllers/dto/station_dto.go:57-65 | an empty list maps to nil; otherwise each element is mapped, in order |
| ControllersDto.FromCluster | internal/controllers/dto/cluster_dto.go:20-48 | the older DTO copies id, name and description, nests stations with `stations`, and has timestamps with `meta` |
| ControllersDto.ToCluster | internal/controllers/dto/cluster_dto.go:50-55 | the model takes name and description only |
| ControllersDto.FromClusterList | internal/controllers/dto/cluster_dto.go:57-65 | an empty list maps to nil; otherwise each element is mapped, in order |
| ControllersDto.NilIncludesAreEmpty | internal/controllers/dto/station_dto.go:22-47 | passing nil includes is the same as passing an empty map, for stations, clusters and rangings |
| ControllersDto.StationRoundTrip | internal/controllers/dto/station_dto.go:22-55 | with no includes, MAC, name and cluster id survive the round trip |
| ControllersDto.FromRanging | internal/controllers/dto/ranging_dto.go:21-50 | the older ranging DTO keeps the distance but always has id 0; stations and timestamps follow the includes |
| ControllersDto.FromRangingList | internal/controllers/dto/ranging_dto.go:52-60 | an empty list maps to nil; otherwise each element is mapped, in order |
| ControllersDto.FromRangingLosesId | internal/controllers/dto/ranging_dto.go:26-28 | a ranging with a nonzero id loses it in the older DTO |
| Validation.ErrorAsWritten | internal/core/validation/validator.go:14-16 | `ValidationError.Error` as written calls itself and never produces a text, for any recursion depth |
| Validation.ErrorsTextWith | internal/core/validation/validator.go:20-31 | the list's Error gives "" for no errors, and a text exactly when every element's rendering returns, namely those texts joined with `; ` |
| Validation.ErrorsTextAsWritten | internal/core/validation/validator.go:20-31 | the list's Error as written returns "" for no errors and never returns once there is one |
| Validation.Error | internal/core/validation/validator.go:14-16 | the corrected text is the field, `: `, and the message; its length is their total |
| Validation.ErrorReadsBack | internal/core/validation/validator.go:14-16 | the field and the message can be read back from the corrected text |
| Validation.ErrorsText | internal/core/validation/validator.go:20-31 | with the corrected element text, the rendering is empty exactly when there are no errors, and one error renders as its own text |
| Validation.CorrectedRenderingIsErrorsText | internal/core/validation/validator.go:14-31 | the list rendering over the corrected element text always returns, and returns ErrorsText |
| Validation.JoinSnoc | internal/core/validation/validator.go:30 | joining one more part appends the separator and the part |
| Validation.ErrorsTextShape | internal/core/validation/validator.go:20-31 | no errors give "", one gives its own text, and each further error is appended after `; ` |
| Validation.ValidateCluster | internal/core/validation/cluster_validator.go:23-53 | an empty name is the only error checked without a query; a new cluster's name is rejected if and only if some existing cluster has it; a failed query or an update yields no error |
| Validation.ValidateCreate | internal/core/validation/cluster_validator.go:19-53 | create validation gives exactly the empty-name error, without a query, for an empty name; exactly the duplicate-name error when an existing cluster has the name; and no error when none has it or the query failed |
| Config.GetEnv | internal/common/config/config.go:107-113 | a set variable wins, even when empty; an unset one gives the fallback |
| Config.GetEnvAsInt | internal/common/config/config.go:115-122 | the variable's `Atoi` value when it is set and parses, and the fallback when it is unset, empty or does not parse |
| Config.DecimalIntIsRead | internal/common/config/config.go:115-122 | a variable holding the decimal text of n is read as n |
| Config.GetEnvAsBool | internal/common/config/config.go:133-140 | the variable's `ParseBool` value when it parses, and the fallback otherwise |
| Config.GetEnvAsDuration | internal/common/config/config.go:124-131 | an unset, empty or unparsable variable gives the fallback; otherwise the parsed duration |
| Config.CleanItems | internal/common/config/config.go:97-102 | cleaning never yields more items than there were pieces |
| Config.CleanItemsConcat | internal/common/config/config.go:97-102 | cleaning two piece lists one after the other gives the concatenation of their cleanings |
| Config.CleanItemsIsCleanFront | internal/common/config/config.go:97-102 | the cleaning equals the head-first filter that keeps each non-blank piece's trim in order and drops blank pieces |
| Config.CleanItemsComplete | internal/common/config/config.go:97-102 | no non-blank piece is lost: its trimmed form is among the items |
| Config.CleanItemsTrimmed | internal/common/config/config.go:97-102 | every kept item is non-empty and has no surrounding white space |
| Config.CleanItemsFromPieces | internal/common/config/config.go:97-102 | every kept item is the trimmed form of one of the comma-separated pieces |
| Config.GetEnvAsStringArray | internal/common/config/config.go:90-105 | an unset or empty variable gives the fallback; otherwise exactly the non-blank comma-separated pieces, trimmed, in their original order |
| Config.CleanItemsSnoc | internal/common/config/config.go:97-102 | appending a trimmed item appends it to the cleaned list |
| Config.CleanItemsOfClean | internal/common/config/config.go:97-102 | a list of trimmed items is unchanged by cleaning |
| Config.SplitJoin | internal/common/config/config.go:97 | splitting a join of separator-free items gives the items back |
| Config.StringArrayRoundTrip | internal/common/config/config.go:90-105 | a non-empty list of trimmed, comma-free items, written comma-joined into a variable, is read back unchanged |
| Config.BlankItemsGiveEmptyList | internal/common/config/config.go:96-105 | a variable of only blanks and commas gives an empty list, not the fallback |
| Config.Load | internal/common/config/config.go:57-86 | every port lies in the int64 range; a set host variable is used as given; an unset password is empty |
| Config.LoadDefaults | internal/common/config/config.go:57-86 | with no variables set, every setting takes its documented default |
| Config.LoadServerPort | internal/common/config/config.go:57-86 | setting SERVER_PORT to a number changes only the server port |
| Config.LoadMalformedPort | internal/common/config/config.go:115-122 | a malformed DB_PORT silently falls back to 5432 |
| GoStrings.Split | internal/infrastructure/mqtt/registry.go:64-65 | `strings.Split` with a one-character separator always returns at least one piece |
| GoStrings.JoinSplit | internal/infrastructure/mqtt/registry.go:64-65 | joining the pieces of a split with the separator gives back the original string |
| GoStrings.JoinConsHead | internal/infrastructure/cache/ranging_cache.go:20 | a prefix of the first joined item is a prefix of the join |
| GoStrings.SplitPiecesAvoidSep | internal/infrastructure/mqtt/registry.go:64-65 | no piece of a split contains the separator |
| GoStrings.SplitInjective | internal/infrastructure/mqtt/registry.go:64-65 | strings with equal splits are equal |
| GoStrings.SplitWithoutSep | internal/infrastructure/mqtt/registry.go:64-65 | a string without the separator splits into itself alone |
| GoStrings.SplitHead | internal/infrastructure/mqtt/registry.go:64-65 | a leading separator starts a new piece, and any other leading character extends the first piece |
| GoStrings.SplitConcatSepStep | internal/infrastructure/mqtt/registry.go:64-65 | the inductive step of SplitConcat when the first string begins with the separator |
| GoStrings.SplitConcatCharStep | internal/infrastructure/mqtt/registry.go:64-65 | the inductive step of SplitConcat when the first string begins with another character |
| GoStrings.SplitConcat | internal/infrastructure/mqtt/registry.go:64-65 | splitting `a sep b` gives the pieces of a followed by the pieces of b |
| GoStrings.SplitSnoc | internal/infrastructure/mqtt/registry.go:64-65 | appending a separator and a separator-free tail adds the tail as one more piece |
| GoStrings.SplitTwo | internal/infrastructure/cache/ranging_cache.go:20 | two separator-free strings joined by the separator split into exactly those two |
| GoStrings.TrimLeft | internal/infrastructure/http/dto/shared.go:19 | the result is a suffix of the input; only white space was removed, and it starts with a non-space |
| GoStrings.TrimRight | internal/infrastructure/http/dto/shared.go:19 | the result is a prefix of the input; only white space was removed, and it ends with a non-space |
| GoStrings.TrimSpace | internal/infrastructure/http/dto/shared.go:19 | `strings.TrimSpace` returns a contiguous slice of the input with only white space outside it and none at either end of it; the result is empty if and only if the input was all white space |
| GoStrings.TrimSpaceOfTrimmed | internal/common/config/config.go:98 | trimming an already-trimmed string changes nothing |
| GoStrings.ToLower | internal/infrastructure/http/dto/shared.go:19 | lower-casing keeps the length and maps each character independently |
| GoStrings.ToLowerIdempotent | internal/infrastructure/http/dto/shared.go:19 | lower-casing twice is lower-casing once |
| GoStrings.DecimalString | internal/core/services/event_stream.go:33 | the `%d` text of a number is non-empty, all digits, and has no leading zero unless it is `0` |
| GoStrings.DecimalStringValue | internal/core/services/event_stream.go:33 | the `%d` text reads back as the number |
| GoStrings.DecimalStringHasNoPunctuation | internal/infrastructure/mqtt/handlers/cluster_event_handler.go:47-56 | decimal text contains no colon, slash or line feed |
| GoStrings.ParseUint64 | internal/core/services/station_service.go:59 | `strconv.ParseUint(s, 10, 64)` succeeds if and only if s is a non-empty run of digits at most 2^64-1, and returns its value |
| GoStrings.ParseUintOfDecimal | internal/core/services/station_service.go:59 | every 64-bit number's decimal text parses back to it |
| GoStrings.Atoi | internal/common/config/config.go:117 | `strconv.Atoi` accepts exactly an optional `+` or `-` sign followed by a non-empty run of digits whose signed value lies in the int64 range, and returns that value; anything else, including the empty string and a leading space or letter, is rejected |
| GoStrings.AtoiOfDecimal | internal/common/config/config.go:117 | every non-negative 64-bit number's decimal text reads back to it |
| GoStrings.ParseBool | internal/common/config/config.go:135 | `strconv.ParseBool` accepts exactly its six true spellings and six false spellings |

## Left out

- DoubleCloseReachable: shows the double close only under the corrected lock order; in the program as written the publish deadlocks at internal/core/services/event_stream.go:128 before the first close, so the panic is latent.
- StationService.ClusterEvents: both events carry one timestamp `now`; the source reads `time.Now()` separately at internal/core/services/station_service.go:111 and :124, so the two instants may differ.
- MemoryCache.Set: the expiration and the last access are both computed from one `now`; the source reads `time.Now()` separately for each at internal/cache/cache.go:73-74, so the two instants may differ by the time between the calls.
- Goroutines and channels are modelled only as atomic transitions of the subscription table and single-goroutine lock traces. Interleavings between publishers, readers and watchers are not modelled.
- `HandleSSERequest` (internal/core/services/event_stream.go:143-189 and its copy) is not modelled beyond the greeting frame. Writing to gin's response, flushing and the request-context loop are HTTP I/O.
- `mergeChannels` (internal/services/event_stream_service.go:197-231) is not modelled. It only fans goroutines into one channel and has no state of its own.
- `Unsubscribe` in both event-stream copies always returns nil and does nothing, so there is nothing to model.
- The cache's cleanup goroutine and its ticker are not modelled; only one tick's body is (`MemoryCache.Sweep`).
- JSON encoding and decoding (`json.Marshal`, `json.Unmarshal`), and the float64-to-uint conversion of a decoded `"id"`, are codec parameters. Their results are opaque.
- Broadcaster.IdFromMap: a float `"id"` gives whatever the codec's float-to-uint conversion returns; the model does not fix that value.
- Broadcaster.IdFromJsonText: when the decoded `"id"` is a number, the routing id is whatever the codec's conversion gives, because float64 rounding is not modelled.
- `time.ParseDuration` is a parameter of `Config.Load`.
- Config.Load: states the port range, host override and empty-password defaults; the full per-setting defaults are stated for the all-unset environment only (Config.LoadDefaults).
- Config.GetEnvAsDuration: assumes, as Go documents, that the duration parser rejects the empty string. An empty variable therefore falls back without consulting the parser.
- Loading `.env` files and reading the process environment are I/O. The environment is passed in as a map.
- GORM persistence and the repositories are left out. Lookups, saves and updates are parameters or results passed in.
- `GetAll`, `GetById`, `GetByMac`, `GetActive`, `Save`, `Delete` and `Create` of both station services are left out. They only forward to a repository.
- The legacy station service's `Update` (internal/services/station_service.go:84-91) only forwards to the repository and is not modelled separately.
- The gin controllers, the MQTT client and the MQTT subscriptions are context, not core.
- The MQTT publish that `HandleEvent` has commented out is modelled as publishing nothing.
- GoStrings.ToLower: maps only ASCII letters; Go's Unicode case mapping is not modelled.
- SSE `id:`/`retry:` fields, a leading byte-order mark and CR line endings are not modelled in the event-stream reader. The server never writes them.
- A nil `*models.Ranging` passed to a mapper makes Go panic. The mappers take a value, so that panic is not modelled.
- Subscribe in the event-stream service always returns a nil error, so the model returns no error.
- `internal/services/station_service.go:50` passes a `*string` to the older `dto.ParseIncludes`, which takes a `string`, so as written that copy does not compile. The model treats the legacy lookup like the current one.
- Integer widths: ids are unbounded naturals. `uint` ids are only bounded where the source parses them (`strconv.ParseUint` to 64 bits, `strconv.Atoi` to the int64 range).

## Findings

| source | as written | input that shows it | evidently intended | confidence | as-written member | corrected member |
|---|---|---|---|---|---|---|
| internal/core/validation/validator.go:14-16 | `ValidationError.Error` formats `v.Error()`, which is the method itself, so it recurses without end | any `ValidationError`, e.g. field `name`, message `Name cannot be empty`; also any non-empty `ValidationErrors` through validator.go:20-31 | `field: message`, using the `Message` field | not executed | Validation.ErrorAsWritten | Validation.CorrectedRenderingIsErrorsText |
| internal/cache/cache.go:43-53 | `Get` takes `Lock` while its own deferred `RLock` is still held | a `Get` of a present, unexpired key | release the read lock before taking the write lock, or take only the write lock | not executed | MemoryCache.GetHitSelfDeadlocks | MemoryCache.GetLockTraceReleasingFirst |
| internal/core/services/event_stream.go:96-97,128 | `Publish` holds `RLock` while `publishToChannels` takes `Lock` for slow clients | a publish that finds a subscriber's 1024-frame buffer full | drop slow clients after releasing the read lock | not executed | Broadcaster.PublishWithSlowClientSelfDeadlocks | Broadcaster.PublishLockTraceReleasingFirst |
| internal/core/services/event_stream.go:94 | the data frame's header is written `event : %s`, with a space before the colon, so a browser reads the field name `event ` and ignores it | any publish, e.g. type `update` with data `{}`, which a browser dispatches as a `message` event | `event: %s`, as the greeting frame at event_stream.go:169 writes it | not executed | SseFrames.DataFrameReadsAsMessage | SseFrames.TypedFrameReadsAsType |

=== FILE: broadcaster.dfy ===
/**
 * The bookkeeping shared by both EventStreamService copies (core/services/event_stream.go and
 * services/event_stream_service.go): subscription keys mapped to sets of buffered channels.
 * Every goroutine step is one atomic transition; a channel is a bounded queue with a count of
 * how many times it has been closed and whether its watcher has run.
 */
module Broadcaster {
  import opened Wrappers
  import opened GoStrings
  import opened Primitives
  import opened SseFrames
  import RWMutex

  type ChanId = nat

  /** make(chan []byte, 1024) */
  const Capacity: nat := 1024

  datatype Channel = Channel(key: string, queue: seq<string>, closes: nat, cancelled: bool)

  datatype State = State(clients: map<string, set<ChanId>>, channels: map<ChanId, Channel>, nextChan: ChanId)

  predicate Full(c: Channel) {
    |c.queue| >= Capacity
  }

  predicate Member(s: State, key: string, ch: ChanId) {
    key in s.clients && ch in s.clients[key]
  }

  /** Registered channels exist, carry their own key, are open, not cancelled and within
      capacity; no key has an empty set; ids below nextChan are the ones handed out; and a
      channel that is neither closed nor cancelled is still registered. */
  ghost predicate Valid(s: State) {
    RegisteredOpen(s) && NoEmptyKey(s) && IdsHandedOut(s) && LiveRegistered(s)
  }

  ghost predicate RegisteredOpen(s: State) {
    forall key, ch :: Member(s, key, ch) ==> OpenUnder(s, key, ch)
  }

  ghost predicate OpenUnder(s: State, key: string, ch: ChanId) {
    && ch in s.channels
    && s.channels[ch].key == key
    && s.channels[ch].closes == 0
    && !s.channels[ch].cancelled
    && |s.channels[ch].queue| <= Capacity
  }

  ghost predicate NoEmptyKey(s: State) {
    forall key :: key in s.clients ==> s.clients[key] != {}
  }

  ghost predicate IdsHandedOut(s: State) {
    forall ch :: ch in s.channels ==> ch < s.nextChan
  }

  ghost predicate LiveRegistered(s: State) {
    forall ch :: ch in s.channels && s.channels[ch].closes == 0 && !s.channels[ch].cancelled ==>
      Member(s, s.channels[ch].key, ch)
  }

  /** NewEventStreamService */
  function NewState(): (s: State)
    ensures Valid(s) && s.clients == map[] && s.channels == map[]
  {
    State(map[], map[], 0)
  }

  /* ---------------------------------------------------------------- keys */

  /** The per-id key "T:N". */
  function IdKey(eventType: string, id: nat): (key: string)
    ensures |key| > |eventType| + 1 && key[..|eventType|] == eventType && key[|eventType|] == ':'
    ensures key[|eventType| + 1..] == DecimalString(id)
  {
    eventType + ":" + DecimalString(id)
  }

  /** The key Subscribe files a channel under: the event type, or "T:N" for a positive first
      filter id. */
  function SubscriptionKey(eventType: string, filterId: seq<nat>): (key: string)
    ensures |filterId| == 0 || filterId[0] == 0 ==> key == eventType
    ensures |filterId| > 0 && filterId[0] > 0 ==> key == IdKey(eventType, filterId[0])
  {
    if |filterId| > 0 && filterId[0] > 0 then IdKey(eventType, filterId[0]) else eventType
  }

  lemma IdKeyIsNotType(eventType: string, id: nat)
    ensures IdKey(eventType, id) != eventType
  {
    assert |IdKey(eventType, id)| > |eventType|;
  }

  /** Within one event type the two kinds of key never meet, but across types they can: a
      plain subscriber to type "a:1" shares its key with the id-1 subscribers of type "a", so
      it receives every "a" publish carrying id 1. */
  lemma TypeKeyCollidesWithIdKey()
    ensures SubscriptionKey("a:1", []) == SubscriptionKey("a", [1])
    ensures Targeted("a", 1, SubscriptionKey("a:1", []))
  {
    assert DecimalString(1) == "1";
  }

  /** Different ids give different keys, so a per-id subscriber is reached only by its id. */
  lemma IdKeyInjective(eventType: string, a: nat, b: nat)
    requires IdKey(eventType, a) == IdKey(eventType, b)
    ensures a == b
  {
    var n := |eventType| + 1;
    assert DecimalString(a) == IdKey(eventType, a)[n..];
    assert DecimalString(b) == IdKey(eventType, b)[n..];
    DecimalStringValue(a);
    DecimalStringValue(b);
  }

  /* ---------------------------------------------------------------- Subscribe and the watcher */

  /** Subscribe: a fresh empty open channel under the subscription key, added to the key's set
      (created when absent); nothing else changes. The Go error result is always nil. */
  function Subscribe(s: State, eventType: string, filterId: seq<nat>): (r: (State, ChanId))
    ensures Valid(s) ==> r.1 !in s.channels
    ensures r.0.channels == s.channels[r.1 := Channel(SubscriptionKey(eventType, filterId), [], 0, false)]
    ensures r.0.clients.Keys == s.clients.Keys + {SubscriptionKey(eventType, filterId)}
    ensures r.0.clients[SubscriptionKey(eventType, filterId)] ==
      (if SubscriptionKey(eventType, filterId) in s.clients then s.clients[SubscriptionKey(eventType, filterId)] else {}) + {r.1}
    ensures forall key :: key in s.clients && key != SubscriptionKey(eventType, filterId) ==> r.0.clients[key] == s.clients[key]
  {
    var key := SubscriptionKey(eventType, filterId);
    var ch := s.nextChan;
    var members := if key in s.clients then s.clients[key] else {};
    (State(s.clients[key := members + {ch}], s.channels[ch := Channel(key, [], 0, false)], s.nextChan + 1), ch)
  }

  /** Subscribing keeps the bookkeeping consistent. */
  lemma SubscribeKeepsValid(s: State, eventType: string, filterId: seq<nat>)
    requires Valid(s)
    ensures Valid(Subscribe(s, eventType, filterId).0)
  {
    var (r, ch) := Subscribe(s, eventType, filterId);
    var key := SubscriptionKey(eventType, filterId);
    assert RegisteredOpen(r) by {
      forall k, c | Member(r, k, c) ensures OpenUnder(r, k, c) {
        if c != ch {
          if k == key {
            assert Member(s, k, c);
          } else {
            assert r.clients[k] == s.clients[k];
            assert Member(s, k, c);
          }
          assert OpenUnder(s, k, c);
          assert r.channels[c] == s.channels[c];
        } else {
          // the fresh channel is registered in s under no key, so only under its own
          assert ch !in s.channels;
          assert Member(s, k, ch) ==> OpenUnder(s, k, ch);
          assert k != key ==> Member(s, k, ch);
        }
      }
    }
    assert LiveRegistered(r) by {
      forall c | c in r.channels && r.channels[c].closes == 0 && !r.channels[c].cancelled
        ensures Member(r, r.channels[c].key, c)
      {
        if c != ch {
          assert Member(s, s.channels[c].key, c);
        }
      }
    }
  }

  function CloseChannel(c: Channel): Channel {
    c.(closes := c.closes + 1)
  }

  /** The watcher goroutine once the request context is done: the channel leaves its key's set,
      an emptied key is deleted, and the channel is closed. Each channel has one watcher. */
  function Cancel(s: State, ch: ChanId): (r: State)
    requires ch in s.channels && !s.channels[ch].cancelled
    ensures r.channels == s.channels[ch := s.channels[ch].(closes := s.channels[ch].closes + 1, cancelled := true)]
    ensures !Member(r, s.channels[ch].key, ch)
    ensures forall key, c :: key in s.clients && c in s.clients[key] && c != ch ==> Member(r, key, c)
    ensures forall key, c :: key in r.clients && c in r.clients[key] ==> Member(s, key, c)
    ensures s.channels[ch].key in r.clients <==>
      s.channels[ch].key in s.clients && s.clients[s.channels[ch].key] - {ch} != {}
    ensures forall key :: key != s.channels[ch].key ==> (key in r.clients <==> key in s.clients)
    ensures r.nextChan == s.nextChan
  {
    var key := s.channels[ch].key;
    var clients :=
      if key in s.clients then
        var rest := s.clients[key] - {ch};
        if |rest| == 0 then s.clients - {key} else s.clients[key := rest]
      else s.clients;
    var c := s.channels[ch];
    State(clients, s.channels[ch := c.(closes := c.closes + 1, cancelled := true)], s.nextChan)
  }

  /** The watcher keeps the bookkeeping consistent. */
  lemma CancelKeepsValid(s: State, ch: ChanId)
    requires Valid(s) && ch in s.channels && !s.channels[ch].cancelled
    ensures Valid(Cancel(s, ch))
  {
    var r := Cancel(s, ch);
    var key := s.channels[ch].key;
    forall k, c | k in r.clients && c in r.clients[k]
      ensures c in r.channels && r.channels[c].key == k && r.channels[c].closes == 0
      ensures !r.channels[c].cancelled && |r.channels[c].queue| <= Capacity
    {
      assert Member(s, k, c);
      assert c != ch;
    }
    forall k | k in r.clients
      ensures r.clients[k] != {}
    {
      if k == key {
        assert r.clients[k] == s.clients[k] - {ch};
      } else {
        assert r.clients[k] == s.clients[k];
      }
    }
    forall c | c in r.channels && r.channels[c].closes == 0 && !r.channels[c].cancelled
      ensures Member(r, r.channels[c].key, c)
    {
      assert c != ch && r.channels[c] == s.channels[c];
      assert Member(s, s.channels[c].key, c);
    }
  }

  /** The SSE write loop's receive: the oldest buffered message, if any (also after close). */
  function Receive(s: State, ch: ChanId): (r: (State, Option<string>))
    requires ch in s.channels
    ensures s.channels[ch].queue == [] ==> r.1.None? && r.0 == s
    ensures s.channels[ch].queue != [] ==>
      && r.1 == Some(s.channels[ch].queue[0])
      && r.0 == s.(channels := s.channels[ch := s.channels[ch].(queue := s.channels[ch].queue[1..])])
    ensures Valid(s) ==> Valid(r.0)
  {
    var c := s.channels[ch];
    if c.queue == [] then (s, None)
    else
      var s' := s.(channels := s.channels[ch := c.(queue := c.queue[1..])]);
      assert Valid(s) ==> RegisteredOpen(s') by {
        if Valid(s) {
          forall k, ch' | Member(s', k, ch') ensures OpenUnder(s', k, ch') {
            assert OpenUnder(s, k, ch');
          }
        }
      }
      (s', Some(c.queue[0]))
  }

  /* ---------------------------------------------------------------- publishToChannels */

  /** What one delivery does to a channel of the key: enqueue if there is room, else close. */
  function Deliver1(c: Channel, message: string): Channel {
    if Full(c) then CloseChannel(c) else c.(queue := c.queue + [message])
  }

  /** publishToChannels(key): every channel of the key with room gets the message; the full
      ones are removed from the set and closed; the key goes when its set empties. */
  function PublishToChannels(s: State, key: string, message: string): (r: State)
    ensures key !in s.clients ==> r == s
    ensures r.nextChan == s.nextChan && r.channels.Keys == s.channels.Keys
    ensures forall ch :: ch in s.channels && !Member(s, key, ch) ==> r.channels[ch] == s.channels[ch]
    ensures forall ch :: ch in s.channels && Member(s, key, ch) && !Full(s.channels[ch]) ==>
      r.channels[ch] == s.channels[ch].(queue := s.channels[ch].queue + [message]) && Member(r, key, ch)
    ensures forall ch :: ch in s.channels && Member(s, key, ch) && Full(s.channels[ch]) ==>
      r.channels[ch] == CloseChannel(s.channels[ch]) && !Member(r, key, ch)
    ensures forall k :: k != key ==> (k in r.clients <==> k in s.clients)
    ensures forall k :: k != key && k in s.clients ==> r.clients[k] == s.clients[k]
    ensures key in r.clients ==> key in s.clients && r.clients[key] <= s.clients[key]
    ensures key in r.clients ==> r.clients[key] != {}
  {
    if key !in s.clients then s
    else
      var members := s.clients[key];
      var slow := set ch | ch in members && ch in s.channels && Full(s.channels[ch]);
      var channels := map ch | ch in s.channels ::
        if ch in members then Deliver1(s.channels[ch], message) else s.channels[ch];
      var rest := members - slow;
      var clients := if |rest| == 0 then s.clients - {key} else s.clients[key := rest];
      State(clients, channels, s.nextChan)
  }

  /** publishToChannels keeps the invariant: the channels left under the key had room, so
      they stay within capacity; the dropped ones are closed and unregistered. */
  lemma PublishToChannelsKeepsValid(s: State, key: string, message: string)
    requires Valid(s)
    ensures Valid(PublishToChannels(s, key, message))
  {
    var r := PublishToChannels(s, key, message);
    if key in s.clients {
      assert RegisteredOpen(r) by {
        forall k, ch | Member(r, k, ch) ensures OpenUnder(r, k, ch) {
          PublishToChannelsKeepsMember(s, key, message, k, ch);
        }
      }
      assert LiveRegistered(r) by {
        forall ch | ch in r.channels && r.channels[ch].closes == 0 && !r.channels[ch].cancelled
          ensures Member(r, r.channels[ch].key, ch)
        {
          PublishToChannelsKeepsLive(s, key, message, ch);
        }
      }
    }
  }

  /** A channel still registered after publishToChannels is open and within capacity. */
  lemma PublishToChannelsKeepsMember(s: State, key: string, message: string, k: string, ch: ChanId)
    requires Valid(s)
    requires var r := PublishToChannels(s, key, message); k in r.clients && ch in r.clients[k]
    ensures var r := PublishToChannels(s, key, message);
      && ch in r.channels && r.channels[ch].key == k && r.channels[ch].closes == 0
      && !r.channels[ch].cancelled && |r.channels[ch].queue| <= Capacity
  {
    assert Member(s, k, ch);
    if k == key {
      assert !Full(s.channels[ch]);
    } else {
      assert !Member(s, key, ch);
    }
  }

  /** A channel left open and uncancelled by publishToChannels is still registered. */
  lemma PublishToChannelsKeepsLive(s: State, key: string, message: string, ch: ChanId)
    requires Valid(s)
    requires var r := PublishToChannels(s, key, message);
      ch in r.channels && r.channels[ch].closes == 0 && !r.channels[ch].cancelled
    ensures var r := PublishToChannels(s, key, message); Member(r, r.channels[ch].key, ch)
  {
    var r := PublishToChannels(s, key, message);
    if !Member(s, key, ch) {
      assert r.channels[ch] == s.channels[ch];
      assert Member(s, s.channels[ch].key, ch);
    }
  }

  /* ---------------------------------------------------------------- delivery of one Publish */

  /** The keys one Publish delivers to: T, and "T:N" when the extracted id N is positive. */
  predicate Targeted(eventType: string, id: nat, key: string) {
    key == eventType || (id > 0 && key == IdKey(eventType, id))
  }

  /** Publish after serialisation: deliver to T, then to "T:N" when N > 0. */
  function Deliver(s: State, eventType: string, id: nat, message: string): (r: State)
    ensures Valid(s) ==> Valid(r)
    ensures r.nextChan == s.nextChan && r.channels.Keys == s.channels.Keys
    ensures forall k :: !Targeted(eventType, id, k) ==> (k in r.clients <==> k in s.clients)
    ensures forall k :: !Targeted(eventType, id, k) && k in s.clients ==> r.clients[k] == s.clients[k]
  {
    var s1 := PublishToChannels(s, eventType, message);
    assert Valid(s) ==> Valid(s1) by {
      if Valid(s) { PublishToChannelsKeepsValid(s, eventType, message); }
    }
    if id > 0 then
      var k2 := IdKey(eventType, id);
      var s2 := PublishToChannels(s1, k2, message);
      assert Valid(s1) ==> Valid(s2) by {
        if Valid(s1) { PublishToChannelsKeepsValid(s1, k2, message); }
      }
      s2
    else s1
  }

  /** One Publish, channel by channel: a registered channel of a targeted key gets the
      message if it has room and is otherwise closed and unregistered; every other channel
      is untouched. */
  lemma DeliverEffect(s: State, eventType: string, id: nat, message: string)
    requires Valid(s)
    ensures var r := Deliver(s, eventType, id, message);
      forall ch :: ch in s.channels ==>
        var c := s.channels[ch];
        if Member(s, c.key, ch) && Targeted(eventType, id, c.key) then
          if Full(c) then r.channels[ch] == CloseChannel(c) && !Member(r, c.key, ch)
          else r.channels[ch] == c.(queue := c.queue + [message]) && Member(r, c.key, ch)
        else r.channels[ch] == c
  {
    forall ch | ch in s.channels
      ensures var r := Deliver(s, eventType, id, message);
        var c := s.channels[ch];
        if Member(s, c.key, ch) && Targeted(eventType, id, c.key) then
          if Full(c) then r.channels[ch] == CloseChannel(c) && !Member(r, c.key, ch)
          else r.channels[ch] == c.(queue := c.queue + [message]) && Member(r, c.key, ch)
        else r.channels[ch] == c
    {
      DeliverEffectOn(s, eventType, id, message, ch);
    }
  }

  /** DeliverEffect for one channel. */
  lemma DeliverEffectOn(s: State, eventType: string, id: nat, message: string, ch: ChanId)
    requires Valid(s) && ch in s.channels
    ensures var r := Deliver(s, eventType, id, message);
      var c := s.channels[ch];
      if Member(s, c.key, ch) && Targeted(eventType, id, c.key) then
        if Full(c) then r.channels[ch] == CloseChannel(c) && !Member(r, c.key, ch)
        else r.channels[ch] == c.(queue := c.queue + [message]) && Member(r, c.key, ch)
      else r.channels[ch] == c
  {
    var c := s.channels[ch];
    var s1 := PublishToChannels(s, eventType, message);
    assert s1.channels[ch] == (if Member(s, eventType, ch) then Deliver1(c, message) else c);
    assert c.key != eventType ==> (Member(s1, c.key, ch) <==> Member(s, c.key, ch));
    if id > 0 {
      var k2 := IdKey(eventType, id);
      IdKeyIsNotType(eventType, id);
      assert Member(s1, k2, ch) <==> Member(s, k2, ch);
      assert Member(s, k2, ch) ==> c.key == k2;
      assert Member(s, eventType, ch) ==> c.key == eventType;
    }
  }

  /** Delivery never sends on a closed channel (which would panic): every channel whose queue
      grows was open. */
  lemma DeliverSendsOnlyOnOpen(s: State, eventType: string, id: nat, message: string, ch: ChanId)
    requires Valid(s) && ch in s.channels
    requires Deliver(s, eventType, id, message).channels[ch].queue != s.channels[ch].queue
    ensures s.channels[ch].closes == 0
  {
    DeliverEffect(s, eventType, id, message);
  }

  /** A channel subscribed to the whole type gets every publish of that type it has room for. */
  lemma TypeSubscriberGetsEveryId(s: State, eventType: string, id: nat, message: string, ch: ChanId)
    requires Valid(s) && Member(s, eventType, ch) && !Full(s.channels[ch])
    ensures var r := Deliver(s, eventType, id, message);
      && Valid(r) && Member(r, eventType, ch)
      && r.channels[ch] == s.channels[ch].(queue := s.channels[ch].queue + [message])
  {
    DeliverEffect(s, eventType, id, message);
    assert s.channels[ch].key == eventType;
  }

  /** A full channel of a targeted key is closed and unregistered, not cancelled. */
  lemma FullSubscriberDropped(s: State, eventType: string, id: nat, message: string, ch: ChanId)
    requires Valid(s) && Member(s, eventType, ch) && Full(s.channels[ch])
    ensures var r := Deliver(s, eventType, id, message);
      && ch in r.channels && r.channels[ch] == CloseChannel(s.channels[ch])
      && !Member(r, eventType, ch)
  {
    DeliverEffect(s, eventType, id, message);
    assert s.channels[ch].key == eventType;
  }

  /** A channel subscribed to "T:N" gets a publish of T exactly when its id is N. */
  lemma IdSubscriberGetsOnlyItsId(s: State, eventType: string, n: nat, id: nat, message: string, ch: ChanId)
    requires Valid(s) && n > 0 && Member(s, IdKey(eventType, n), ch) && !Full(s.channels[ch])
    ensures Deliver(s, eventType, id, message).channels[ch].queue == s.channels[ch].queue + [message] <==> id == n
  {
    IdKeyIsNotType(eventType, n);
    DeliverEffect(s, eventType, id, message);
    var r := Deliver(s, eventType, id, message);
    if id != n {
      if id > 0 && IdKey(eventType, n) == IdKey(eventType, id) {
        IdKeyInjective(eventType, n, id);
      }
      assert r.channels[ch] == s.channels[ch];
      assert |r.channels[ch].queue| != |s.channels[ch].queue + [message]|;
    }
  }

  /** A key nobody subscribed to is a silent no-op. */
  lemma DeliverToNobody(s: State, eventType: string, message: string)
    requires eventType !in s.clients
    ensures Deliver(s, eventType, 0, message) == s
  {
  }

  /* ---------------------------------------------------------------- payloads */

  /** The dynamic type of a decoded JSON value, as far as id extraction looks at it. */
  datatype JsonValue = JFloat(f: Float64) | JUint(u: nat) | JOther

  /** The opaque conversions Publish relies on: json.Marshal of a payload, json.Unmarshal into
      map[string]interface{}, and Go's uint(float64) conversion. */
  datatype Codec<!P> = Codec(
    marshal: P -> Result<string>,
    unmarshal: string -> Option<map<string, JsonValue>>,
    floatToUint: Float64 -> nat)

  /** The "id" entry of a map[string]interface{} payload: a float64 converted to uint, a
      uint taken as is, anything else (or no entry) 0. */
  function IdFromMap<P>(fields: map<string, JsonValue>, codec: Codec<P>): (id: nat)
    ensures "id" !in fields ==> id == 0
    ensures "id" in fields && fields["id"].JOther? ==> id == 0
    ensures "id" in fields && fields["id"].JUint? ==> id == fields["id"].u
  {
    if "id" !in fields then 0
    else match fields["id"]
      case JFloat(f) => codec.floatToUint(f)
      case JUint(u) => u
      case JOther => 0
  }

  /** The numeric "id" of a JSON string payload; JSON numbers decode as float64 only, and
      text that is not a JSON object gives 0. */
  function IdFromJsonText<P>(text: string, codec: Codec<P>): (id: nat)
    ensures codec.unmarshal(text).None? ==> id == 0
    ensures codec.unmarshal(text).Some? && "id" !in codec.unmarshal(text).value ==> id == 0
  {
    match codec.unmarshal(text)
    case None => 0
    case Some(fields) =>
      if "id" in fields && fields["id"].JFloat? then codec.floatToUint(fields["id"].f) else 0
  }

  /** Publish once the payload is serialised (or failed to be): a failure is returned as an
      error and nothing is delivered; otherwise the frame goes to T and, for N > 0, to "T:N".
      The frame is the one written, `event : T` (SseFrames.TypedFrame is the intended one). */
  function PublishJson(s: State, eventType: string, id: nat, json: Result<string>): (r: Result<State>)
    ensures r.Err? <==> json.Err?
    ensures r.Err? ==> r.message == "Error marshalling event data: " + json.message
    ensures r.Ok? ==> r.value == Deliver(s, eventType, id, DataFrame(eventType, json.value))
    ensures Valid(s) && r.Ok? ==> Valid(r.value)
  {
    if json.Err? then Err("Error marshalling event data: " + json.message)
    else Ok(Deliver(s, eventType, id, DataFrame(eventType, json.value)))
  }

  /** What a registered channel sees of one successful Publish: the data frame as written,
      `event : T\ndata: J\n\n`, appended when its key is targeted and it has room. */
  lemma PublishJsonEffect(s: State, eventType: string, id: nat, json: string, ch: ChanId)
    requires Valid(s) && ch in s.channels && Member(s, s.channels[ch].key, ch) && !Full(s.channels[ch])
    ensures var r := PublishJson(s, eventType, id, Ok(json));
      && r.Ok? && ch in r.value.channels
      && (Targeted(eventType, id, s.channels[ch].key) ==>
            r.value.channels[ch].queue == s.channels[ch].queue + [DataFrame(eventType, json)])
      && (!Targeted(eventType, id, s.channels[ch].key) ==> r.value.channels[ch] == s.channels[ch])
  {
    DeliverEffect(s, eventType, id, DataFrame(eventType, json));
  }

  /* ---------------------------------------------------------------- closing twice */

  /** With no positive id, Publish delivers to the key T alone. */
  lemma DeliverWithoutId(s: State, eventType: string, message: string)
    ensures Deliver(s, eventType, 0, message) == PublishToChannels(s, eventType, message)
  {
  }

  /** Publish `count` times to T with id 0. */
  function PublishMany(s: State, eventType: string, message: string, count: nat): State
    decreases count
  {
    if count == 0 then s
    else PublishMany(PublishToChannels(s, eventType, message), eventType, message, count - 1)
  }

  /** A registered channel that is not read from fills up by one per publish. */
  lemma {:induction false} PublishManyFills(s: State, eventType: string, message: string, count: nat, ch: ChanId)
    requires Member(s, eventType, ch) && ch in s.channels && |s.channels[ch].queue| + count <= Capacity
    ensures var r := PublishMany(s, eventType, message, count);
      && Member(r, eventType, ch) && ch in r.channels
      && |r.channels[ch].queue| == |s.channels[ch].queue| + count
      && r.channels[ch].closes == s.channels[ch].closes && r.channels[ch].cancelled == s.channels[ch].cancelled
    decreases count
  {
    if count > 0 {
      var s1 := PublishToChannels(s, eventType, message);
      assert PublishMany(s, eventType, message, count) == PublishMany(s1, eventType, message, count - 1);
      assert !Full(s.channels[ch]);
      assert s1.channels[ch] == s.channels[ch].(queue := s.channels[ch].queue + [message]);
      assert Member(s1, eventType, ch) && ch in s1.channels;
      PublishManyFills(s1, eventType, message, count - 1, ch);
    }
  }

  /** A latent defect behind the deadlock: as written, the Publish that meets a full channel
      blocks on its own read lock before dropping anything. Once that lock order is corrected
      (the atomic Deliver), a client that reads nothing while 1025 messages are published is
      dropped as slow (closed once), and its watcher then closes the same channel again: in
      Go, a panic. */
  lemma DoubleCloseReachable(eventType: string, message: string)
    ensures RWMutex.Run(RWMutex.Free, PublishLockTrace(true), 0).Blocked?
    ensures RWMutex.Run(RWMutex.Free, PublishLockTraceReleasingFirst(true), 0).Done?
    ensures var (s1, ch) := Subscribe(NewState(), eventType, []);
      var s2 := PublishMany(s1, eventType, message, Capacity);
      var s3 := Deliver(s2, eventType, 0, message);
      ch in s3.channels && !s3.channels[ch].cancelled && Cancel(s3, ch).channels[ch].closes == 2
  {
    var (s1, ch) := Subscribe(NewState(), eventType, []);
    assert SubscriptionKey(eventType, []) == eventType;
    assert Member(s1, eventType, ch) && s1.channels[ch] == Channel(eventType, [], 0, false);
    PublishManyFills(s1, eventType, message, Capacity, ch);
    var s2 := PublishMany(s1, eventType, message, Capacity);
    DeliverWithoutId(s2, eventType, message);
    PublishWithSlowClientSelfDeadlocks();
  }

  /* ---------------------------------------------------------------- the lock pattern */

  /** Lock operations of one Publish on eventLock: RLock held for the whole delivery, and the
      write lock requested inside it when some channel was full. */
  function PublishLockTrace(slow: bool): (ops: seq<RWMutex.LockOp>)
    ensures |ops| >= 2 && ops[0] == RWMutex.RLock && ops[|ops| - 1] == RWMutex.RUnlock
    ensures RWMutex.Lock in ops <==> slow
    ensures forall i :: 0 <= i < |ops| && ops[i] == RWMutex.Lock ==> 0 < i < |ops| - 1
  {
    [RWMutex.RLock] + (if slow then [RWMutex.Lock, RWMutex.Unlock] else []) + [RWMutex.RUnlock]
  }

  /** As written, a Publish that meets a full channel blocks on its own read lock forever. */
  lemma PublishWithSlowClientSelfDeadlocks()
    ensures RWMutex.Run(RWMutex.Free, PublishLockTrace(true), 0) == RWMutex.Blocked(1)
    ensures RWMutex.Run(RWMutex.Free, PublishLockTrace(false), 0) == RWMutex.Done(RWMutex.Free)
  {
    assert PublishLockTrace(true) == [RWMutex.RLock, RWMutex.Lock] + [RWMutex.Unlock, RWMutex.RUnlock];
    RWMutex.UpgradeBlocks(RWMutex.Free, [RWMutex.Unlock, RWMutex.RUnlock], 0);
  }

  /** Releasing the read lock before taking the write lock, which the atomic Deliver models,
      completes. */
  function PublishLockTraceReleasingFirst(slow: bool): (ops: seq<RWMutex.LockOp>)
    ensures RWMutex.Run(RWMutex.Free, ops, 0) == RWMutex.Done(RWMutex.Free)
  {
    RWMutex.ReleaseBeforeUpgradeCompletes(0);
    if slow then [RWMutex.RLock, RWMutex.RUnlock, RWMutex.Lock, RWMutex.Unlock]
    else [RWMutex.RLock, RWMutex.RUnlock]
  }
}

=== FILE: cluster_event_handler.dfy ===
/**
 * infrastructure/mqtt/handlers/cluster_event_handler.go: the MQTT topic of a station event
 * and HandleEvent, whose publish call is commented out.
 */
module ClusterEventHandler {
  import opened Wrappers
  import opened GoStrings
  import opened StationEvents
  import MqttRegistry

  /** buildTopic */
  function BuildTopic(event: StationEvent): (topic: string)
    ensures HasPrefix(topic, "gpsno/clusters/")
    ensures !IsMembership(event.eventType) && event.eventType != ClusterUpdated ==> topic == "gpsno/clusters/events"
  {
    if IsMembership(event.eventType) then
      "gpsno/clusters/" + DecimalString(event.clusterId) + "/stations/" + DecimalString(event.stationId)
    else if event.eventType == ClusterUpdated then
      "gpsno/clusters/" + DecimalString(event.clusterId)
    else "gpsno/clusters/events"
  }

  predicate IsMembership(eventType: string) {
    eventType == StationAddedToCluster || eventType == StationRemovedFromCluster
  }

  lemma SplitPath5(a: string, b: string, c: string, d: string, e: string)
    requires '/' !in a && '/' !in b && '/' !in c && '/' !in d && '/' !in e
    ensures Split(a + "/" + b + "/" + c + "/" + d + "/" + e, '/') == [a, b, c, d, e]
  {
    MqttRegistry.SplitPath4(a, b, c, d);
    SplitSnoc(a + "/" + b + "/" + c + "/" + d, e, '/');
  }

  lemma MembershipTopicShape(c: string, s: string)
    ensures "gpsno/clusters/" + c + "/stations/" + s == "gpsno" + "/" + "clusters" + "/" + c + "/" + "stations" + "/" + s
  {
  }

  /** A membership event's topic has five segments naming the cluster and station ids. */
  lemma MembershipTopicSegments(event: StationEvent)
    requires IsMembership(event.eventType)
    ensures Split(BuildTopic(event), '/') ==
      ["gpsno", "clusters", DecimalString(event.clusterId), "stations", DecimalString(event.stationId)]
  {
    var c, s := DecimalString(event.clusterId), DecimalString(event.stationId);
    DecimalStringHasNoPunctuation(event.clusterId);
    DecimalStringHasNoPunctuation(event.stationId);
    MembershipTopicShape(c, s);
    SplitPath5("gpsno", "clusters", c, "stations", s);
  }

  /** The topic determines the ids of a membership event, and added and removed events for
      the same ids share one topic. */
  lemma MembershipTopicIdentifiesIds(e1: StationEvent, e2: StationEvent)
    requires IsMembership(e1.eventType) && IsMembership(e2.eventType)
    ensures BuildTopic(e1) == BuildTopic(e2) <==> e1.clusterId == e2.clusterId && e1.stationId == e2.stationId
  {
    if BuildTopic(e1) == BuildTopic(e2) {
      MembershipTopicSegments(e1);
      MembershipTopicSegments(e2);
      assert DecimalString(e1.clusterId) == DecimalString(e2.clusterId);
      assert DecimalString(e1.stationId) == DecimalString(e2.stationId);
      DecimalStringValue(e1.clusterId);
      DecimalStringValue(e2.clusterId);
      DecimalStringValue(e1.stationId);
      DecimalStringValue(e2.stationId);
    }
  }

  /** A cluster-updated topic is "gpsno/clusters/<id>", and any other type goes to the fixed
      events topic. */
  lemma OtherTopics(event: StationEvent)
    ensures event.eventType == ClusterUpdated ==>
      Split(BuildTopic(event), '/') == ["gpsno", "clusters", DecimalString(event.clusterId)]
    ensures !IsMembership(event.eventType) && event.eventType != ClusterUpdated ==>
      BuildTopic(event) == "gpsno/clusters/events"
  {
    EventTypesDistinct();
    if event.eventType == ClusterUpdated {
      DecimalStringHasNoPunctuation(event.clusterId);
      assert BuildTopic(event) == "gpsno" + "/" + "clusters" + "/" + DecimalString(event.clusterId);
      MqttRegistry.SplitPath3("gpsno", "clusters", DecimalString(event.clusterId));
    }
  }

  /** Membership topics are matched by the wildcard filter "gpsno/clusters/+/stations/+". */
  lemma MembershipTopicMatchesWildcard(event: StationEvent)
    requires IsMembership(event.eventType)
    ensures MqttRegistry.TopicMatches("gpsno/clusters/+/stations/+", BuildTopic(event))
  {
    MembershipTopicSegments(event);
    WildcardFilterSegments();
    FiveSegmentsMatchWildcard("gpsno/clusters/+/stations/+", BuildTopic(event),
      DecimalString(event.clusterId), DecimalString(event.stationId));
  }

  /** The wildcard filter's segments, and it has no trailing '#'. */
  lemma WildcardFilterSegments()
    ensures Split("gpsno/clusters/+/stations/+", '/') == ["gpsno", "clusters", "+", "stations", "+"]
    ensures !HasSuffix("gpsno/clusters/+/stations/+", "#")
  {
    var pattern := "gpsno/clusters/+/stations/+";
    assert pattern == "gpsno" + "/" + "clusters" + "/" + "+" + "/" + "stations" + "/" + "+";
    SplitPath5("gpsno", "clusters", "+", "stations", "+");
    assert pattern[|pattern| - 1] == '+';
  }

  /** Any topic of the shape gpsno/clusters/<c>/stations/<s> matches a filter whose segments
      are gpsno, clusters, +, stations, +. */
  lemma FiveSegmentsMatchWildcard(pattern: string, topic: string, c: string, st: string)
    requires Split(pattern, '/') == ["gpsno", "clusters", "+", "stations", "+"] && !HasSuffix(pattern, "#")
    requires Split(topic, '/') == ["gpsno", "clusters", c, "stations", st]
    ensures MqttRegistry.TopicMatches(pattern, topic)
  {
    if pattern != topic {
      MqttRegistry.SegmentPatternMatches(pattern, topic);
      var ps, ts := Split(pattern, '/'), Split(topic, '/');
      assert MqttRegistry.SegmentsMatch(ps, ts) by {
        forall i | 0 <= i < |ps| ensures MqttRegistry.SegmentMatches(ps[i], ts[i]) {
          assert ps[i] == ts[i] || ps[i] == "+";
        }
      }
    }
  }

  /** What HandleEvent does: the messages it publishes (none: the call is commented out) and
      the topic and payload it logs, absent when serialisation failed. */
  datatype Handled = Handled(published: seq<(string, string)>, logged: Option<(string, string)>)

  function HandleEvent(event: StationEvent, marshal: StationEvent -> Result<string>): (r: Handled)
    ensures r.published == []
    ensures r.logged.None? <==> marshal(event).Err?
    ensures r.logged.Some? ==> r.logged.value == (BuildTopic(event), marshal(event).value)
  {
    var topic := BuildTopic(event);
    match marshal(event)
    case Err(_) => Handled([], None)
    case Ok(payload) => Handled([], Some((topic, payload)))
  }
}

=== FILE: cluster_mapper.dfy ===
/**
 * The second FromCluster/ToCluster/FromClusterList of package core/models/mappers
 * (cluster_mapper.go). Go rejects the two declarations in one package; here they live in
 * separate modules, and ClusterVariantsAgree shows they differ only when "stations" is asked for.
 */
module ClusterMapper {
  import opened Wrappers
  import opened Primitives
  import opened CoreModels
  import opened CoreDtos
  import opened HttpDto
  import Mappers

  /** FromCluster (cluster_mapper.go): as in cluster.go, plus with "stations" one DTO per
      cluster station, in order, each mapped without includes (nil when there are none). */
  function FromCluster(cluster: Cluster, includeParam: Option<string>): (r: ClusterDto)
    ensures r.id == cluster.model.id && r.name == cluster.name && r.description == cluster.description
    ensures !Mappers.Includes(includeParam, "stations") ==> r.stations.None?
    ensures Mappers.Includes(includeParam, "stations") ==>
      && (r.stations.Some? <==> |cluster.stations| > 0)
      && (r.stations.Some? ==> |r.stations.value| == |cluster.stations|)
      && (r.stations.Some? ==> forall i :: 0 <= i < |cluster.stations| ==>
            r.stations.value[i] == Mappers.FromStation(cluster.stations[i], None))
    ensures Mappers.Includes(includeParam, "meta") ==>
      && r.createdAt == Some(cluster.model.createdAt)
      && r.updatedAt == Some(cluster.model.updatedAt)
      && r.deletedAt == Some(cluster.model.deletedAt)
    ensures !Mappers.Includes(includeParam, "meta") ==> r.createdAt.None? && r.updatedAt.None? && r.deletedAt.None?
  {
    var includes := ParseIncludes(includeParam);
    var response := ClusterDto(cluster.model.id, cluster.name, cluster.description, None, None, None, None);
    var withStations :=
      if Has(includes, "stations") then response.(stations := Mappers.FromStationList(cluster.stations, None))
      else response;
    if Has(includes, "meta") then
      withStations.(createdAt := Some(cluster.model.createdAt),
                    updatedAt := Some(cluster.model.updatedAt),
                    deletedAt := Some(cluster.model.deletedAt))
    else withStations
  }

  /** ToCluster (cluster_mapper.go): only Name and Description. */
  function ToCluster(dto: ClusterDto): (r: Cluster)
    ensures r.name == dto.name && r.description == dto.description
    ensures r.model == ZeroModel && r.stations == []
  {
    Cluster(ZeroModel, dto.name, dto.description, [])
  }

  /** FromClusterList (cluster_mapper.go): one DTO per cluster, in order; nil when empty. */
  function FromClusterList(clusters: seq<Cluster>, includeParam: Option<string>): (r: Option<seq<ClusterDto>>)
    ensures r.None? <==> |clusters| == 0
    ensures r.Some? ==> |r.value| == |clusters|
    ensures r.Some? ==> forall i :: 0 <= i < |clusters| ==> r.value[i] == FromCluster(clusters[i], includeParam)
  {
    if |clusters| == 0 then None
    else Some(seq(|clusters|, i requires 0 <= i < |clusters| => FromCluster(clusters[i], includeParam)))
  }

  /** Unless "stations" is requested the two FromCluster declarations produce the same DTO, so
      FromStation's nested cluster (always mapped with no includes) is the same whichever one
      the package would have resolved to. */
  lemma ClusterVariantsAgree(cluster: Cluster, includeParam: Option<string>)
    requires !Mappers.Includes(includeParam, "stations")
    ensures FromCluster(cluster, includeParam) == Mappers.FromCluster(cluster, includeParam)
  {
  }

  /** With "stations" and at least one station, the variants differ in the Stations field. */
  lemma ClusterVariantsDifferOnStations(cluster: Cluster, includeParam: Option<string>)
    requires Mappers.Includes(includeParam, "stations") && |cluster.stations| > 0
    ensures FromCluster(cluster, includeParam) != Mappers.FromCluster(cluster, includeParam)
  {
  }
}

=== FILE: config.dfy ===
/**
 * common/config (config.go): the server, database and MQTT settings read from the process
 * environment, each with a fallback. The environment is a map parameter; loading a `.env`
 * file and time.ParseDuration's grammar are outside the model.
 */
module Config {
  import opened Wrappers
  import opened GoStrings

  /** Nanoseconds, as time.Duration. */
  type Duration = int

  const Second: Duration := 1_000_000_000

  type Env = map<string, string>

  datatype ServerConfig = ServerConfig(
    host: string, port: int, releaseMode: string, logLevel: string,
    readTimeout: Duration, writeTimeout: Duration, shutdownTimeout: Duration)

  datatype DatabaseConfig = DatabaseConfig(
    host: string, port: int, database: string, user: string, password: string,
    sslMode: bool, timeZone: string)

  datatype MqttConfig = MqttConfig(
    host: string, port: int, clientId: string, username: string, password: string,
    baseTopic: string)

  datatype Config = Config(server: ServerConfig, database: DatabaseConfig, mqtt: MqttConfig)

  /* ---------------------------------------------------------------- single variables */

  /** getEnv: a variable that is set wins, even when it is set to "". */
  function GetEnv(env: Env, key: string, fallback: string): (r: string)
    ensures key in env ==> r == env[key]
    ensures key !in env ==> r == fallback
  {
    if key in env then env[key] else fallback
  }

  /** getEnvAsInt: the variable when Atoi accepts it, otherwise the fallback. */
  function GetEnvAsInt(env: Env, key: string, fallback: int): (r: int)
    ensures key !in env || env[key] == "" ==> r == fallback
    ensures r != fallback ==> key in env && Atoi(env[key]) == Some(r)
    ensures key in env && Atoi(env[key]).Some? ==> r == Atoi(env[key]).value
    ensures key in env && Atoi(env[key]).None? ==> r == fallback
  {
    match Atoi(GetEnv(env, key, ""))
      case Some(v) => v
      case None => fallback
  }

  /** getEnvAsBool: the variable when ParseBool accepts it, otherwise the fallback. */
  function GetEnvAsBool(env: Env, key: string, fallback: bool): (r: bool)
    ensures key !in env || ParseBool(env[key]).None? ==> r == fallback
    ensures key in env && ParseBool(env[key]).Some? ==> r == ParseBool(env[key]).value
  {
    match ParseBool(GetEnv(env, key, ""))
      case Some(v) => v
      case None => fallback
  }

  /** getEnvAsDuration, with time.ParseDuration as `parseDuration`. ParseDuration rejects the
      empty string, so an unset or empty variable falls back without consulting it. */
  function GetEnvAsDuration(env: Env, key: string, fallback: Duration,
                            parseDuration: string -> Option<Duration>): (r: Duration)
    ensures key !in env || env[key] == "" ==> r == fallback
    ensures key in env && env[key] != "" && parseDuration(env[key]).Some? ==> r == parseDuration(env[key]).value
    ensures key in env && parseDuration(env[key]).None? ==> r == fallback
  {
    var text := GetEnv(env, key, "");
    var parsed := if text == "" then None else parseDuration(text);
    match parsed
      case Some(v) => v
      case None => fallback
  }

  /** A decimal port number in the environment is the one used. */
  lemma DecimalIntIsRead(env: Env, key: string, fallback: int, n: nat)
    requires key in env && env[key] == DecimalString(n) && n <= MaxInt64
    ensures GetEnvAsInt(env, key, fallback) == n
  {
    AtoiOfDecimal(n);
  }

  /* ---------------------------------------------------------------- string lists */

  predicate Trimmed(s: string) {
    |s| > 0 && !IsSpace(s[0]) && !IsSpace(s[|s| - 1])
  }

  /** Reference definition of getEnvAsStringArray's loop: the trimmed pieces, empty ones dropped. */
  function CleanItems(pieces: seq<string>): (r: seq<string>)
    ensures |r| <= |pieces|
  {
    if |pieces| == 0 then []
    else
      var t := TrimSpace(pieces[|pieces| - 1]);
      CleanItems(pieces[..|pieces| - 1]) + (if t != "" then [t] else [])
  }

  /** Every item is non-empty and carries no surrounding white space. */
  lemma {:induction false} CleanItemsTrimmed(pieces: seq<string>)
    ensures forall i :: 0 <= i < |CleanItems(pieces)| ==> Trimmed(CleanItems(pieces)[i])
  {
    if |pieces| > 0 {
      CleanItemsTrimmed(pieces[..|pieces| - 1]);
    }
  }

  /** An independent, head-first statement of the same loop: walk the pieces from the front,
      keeping each non-blank piece's trim. */
  function CleanFront(pieces: seq<string>): seq<string> {
    if |pieces| == 0 then []
    else
      (if TrimSpace(pieces[0]) != "" then [TrimSpace(pieces[0])] else []) + CleanFront(pieces[1..])
  }

  /** Cleaning distributes over concatenation of the piece list. */
  lemma {:induction false} CleanItemsConcat(a: seq<string>, b: seq<string>)
    ensures CleanItems(a + b) == CleanItems(a) + CleanItems(b)
    decreases |b|
  {
    if |b| == 0 {
      assert a + b == a;
    } else {
      var init, last := b[..|b| - 1], b[|b| - 1];
      var t := TrimSpace(last);
      var tail := if t != "" then [t] else [];
      assert (a + b)[..|a + b| - 1] == a + init;
      assert (a + b)[|a + b| - 1] == last;
      assert CleanItems(a + b) == CleanItems(a + init) + tail;
      assert CleanItems(b) == CleanItems(init) + tail;
      CleanItemsConcat(a, init);
      SeqAssoc(CleanItems(a), CleanItems(init), tail);
    }
  }

  /** The back-first CleanItems and the head-first CleanFront agree on every list: every
      non-blank piece is kept, trimmed, in its original order, and blank ones are dropped. */
  lemma {:induction false} CleanItemsIsCleanFront(pieces: seq<string>)
    ensures CleanItems(pieces) == CleanFront(pieces)
  {
    if |pieces| > 0 {
      var head, tail := [pieces[0]], pieces[1..];
      assert head + tail == pieces;
      CleanItemsConcat(head, tail);
      CleanItemsIsCleanFront(tail);
      CleanItemsSingle(pieces[0]);
    }
  }

  lemma CleanItemsSingle(p: string)
    ensures CleanItems([p]) == (if TrimSpace(p) != "" then [TrimSpace(p)] else [])
  {
    assert [p][..0] == [];
  }

  /** No non-blank piece is lost. */
  lemma {:induction false} CleanItemsComplete(pieces: seq<string>)
    ensures forall i :: 0 <= i < |pieces| && TrimSpace(pieces[i]) != "" ==> TrimSpace(pieces[i]) in CleanItems(pieces)
  {
    if |pieces| > 0 {
      var init := pieces[..|pieces| - 1];
      CleanItemsComplete(init);
      forall i | 0 <= i < |pieces| - 1 && TrimSpace(pieces[i]) != ""
        ensures TrimSpace(pieces[i]) in CleanItems(pieces)
      {
        assert pieces[i] == init[i];
      }
    }
  }

  function TrimmedPieces(pieces: seq<string>): set<string> {
    set p | p in pieces :: TrimSpace(p)
  }

  /** Every item is the trim of some piece: nothing is invented. */
  lemma {:induction false} CleanItemsFromPieces(pieces: seq<string>)
    ensures forall i :: 0 <= i < |CleanItems(pieces)| ==> CleanItems(pieces)[i] in TrimmedPieces(pieces)
  {
    if |pieces| > 0 {
      var init, last := pieces[..|pieces| - 1], pieces[|pieces| - 1];
      CleanItemsFromPieces(init);
      assert pieces == init + [last];
      forall p | p in init ensures TrimSpace(p) in TrimmedPieces(pieces) {
        assert p in pieces;
      }
      assert last in pieces;
    }
  }

  /** getEnvAsStringArray: the fallback for an unset or empty variable, otherwise the
      comma-separated items, trimmed, with empty items dropped (possibly none at all). */
  function GetEnvAsStringArray(env: Env, key: string, fallback: seq<string>): (values: seq<string>)
    ensures key !in env || env[key] == "" ==> values == fallback
    ensures key in env && env[key] != "" ==> |values| <= |Split(env[key], ',')|
    ensures key in env && env[key] != "" ==>
      forall i :: 0 <= i < |values| ==> Trimmed(values[i]) && values[i] in TrimmedPieces(Split(env[key], ','))
    ensures key in env && env[key] != "" ==>
      forall i :: 0 <= i < |Split(env[key], ',')| && TrimSpace(Split(env[key], ',')[i]) != "" ==>
        TrimSpace(Split(env[key], ',')[i]) in values
    ensures key in env && env[key] != "" ==> values == CleanFront(Split(env[key], ','))
  {
    var text := GetEnv(env, key, "");
    if text == "" then fallback
    else
      var pieces := Split(text, ',');
      assert forall i :: 0 <= i < |CleanItems(pieces)| ==>
        Trimmed(CleanItems(pieces)[i]) && CleanItems(pieces)[i] in TrimmedPieces(pieces) by {
        CleanItemsTrimmed(pieces);
        CleanItemsFromPieces(pieces);
      }
      assert CleanItems(pieces) == CleanFront(pieces) by {
        CleanItemsIsCleanFront(pieces);
      }
      assert forall i :: 0 <= i < |pieces| && TrimSpace(pieces[i]) != "" ==> TrimSpace(pieces[i]) in CleanItems(pieces) by {
        CleanItemsComplete(pieces);
      }
      CleanItems(pieces)
  }

  lemma CleanItemsSnoc(init: seq<string>, last: string)
    requires Trimmed(last)
    ensures CleanItems(init + [last]) == CleanItems(init) + [last]
  {
    TrimSpaceOfTrimmed(last);
    assert (init + [last])[..|init|] == init;
  }

  /** Pieces that are already clean survive unchanged. */
  lemma {:induction false} CleanItemsOfClean(items: seq<string>)
    requires forall i :: 0 <= i < |items| ==> Trimmed(items[i])
    ensures CleanItems(items) == items
  {
    if |items| > 0 {
      var init, last := items[..|items| - 1], items[|items| - 1];
      assert init + [last] == items;
      CleanItemsOfClean(init);
      CleanItemsSnoc(init, last);
    }
  }

  lemma {:induction false} SplitJoin(items: seq<string>, sep: char)
    requires |items| > 0
    requires forall i :: 0 <= i < |items| ==> sep !in items[i]
    ensures Split(Join(items, [sep]), sep) == items
  {
    if |items| == 1 {
      SplitWithoutSep(items[0], sep);
    } else {
      SplitJoin(items[1..], sep);
      SplitWithoutSep(items[0], sep);
      SplitConcat(items[0], Join(items[1..], [sep]), sep);
      assert [items[0]] + items[1..] == items;
    }
  }

  /** A non-empty list of clean, comma-free items written out with "," reads back as itself. */
  lemma StringArrayRoundTrip(items: seq<string>, key: string, fallback: seq<string>)
    requires |items| > 0
    requires forall i :: 0 <= i < |items| ==> Trimmed(items[i]) && ',' !in items[i]
    ensures GetEnvAsStringArray(map[key := Join(items, [','])], key, fallback) == items
  {
    var text := Join(items, [',']);
    assert |text| >= |items[0]| > 0 by {
      if |items| > 1 {
        assert text == items[0] + [','] + Join(items[1..], [',']);
      }
    }
    SplitJoin(items, ',');
    CleanItemsOfClean(items);
  }

  /** A variable that is set but holds only blanks and commas gives an empty list, not the
      fallback. */
  lemma BlankItemsGiveEmptyList(key: string, fallback: seq<string>)
    ensures GetEnvAsStringArray(map[key := " , "], key, fallback) == []
  {
    SplitTwo(" ", " ", ',');
    assert " , " == " " + [','] + " ";
    assert IsSpace(" "[0]);
    assert TrimSpace(" ") == "";
    assert [" ", " "][..1] == [" "];
    assert [" "][..0] == [];
  }

  /* ---------------------------------------------------------------- Load */

  /** Load, after the `.env` file (if any) has been merged into `env`. */
  function Load(env: Env, parseDuration: string -> Option<Duration>): (c: Config)
    ensures MinInt64 <= c.server.port <= MaxInt64 && MinInt64 <= c.database.port <= MaxInt64
      && MinInt64 <= c.mqtt.port <= MaxInt64
    ensures "SERVER_HOST" in env ==> c.server.host == env["SERVER_HOST"]
    ensures "DB_HOST" in env ==> c.database.host == env["DB_HOST"]
    ensures "MQTT_HOST" in env ==> c.mqtt.host == env["MQTT_HOST"]
    ensures "DB_PASSWORD" !in env ==> c.database.password == ""
    ensures "MQTT_PASSWORD" !in env ==> c.mqtt.password == ""
  {
    Config(
      ServerConfig(
        GetEnv(env, "SERVER_HOST", "localhost"),
        GetEnvAsInt(env, "SERVER_PORT", 8080),
        GetEnv(env, "SERVER_RELEASE_MODE", "release"),
        GetEnv(env, "SERVER_LOG_LEVEL", "info"),
        GetEnvAsDuration(env, "SERVER_READ_TIMEOUT", 5 * Second, parseDuration),
        GetEnvAsDuration(env, "SERVER_WRITE_TIMEOUT", 5 * Second, parseDuration),
        GetEnvAsDuration(env, "SERVER_SHUTDOWN_TIMEOUT", 5 * Second, parseDuration)),
      DatabaseConfig(
        GetEnv(env, "DB_HOST", "localhost"),
        GetEnvAsInt(env, "DB_PORT", 5432),
        GetEnv(env, "DB_DATABASE", "gps_no"),
        GetEnv(env, "DB_USERNAME", ""),
        GetEnv(env, "DB_PASSWORD", ""),
        GetEnvAsBool(env, "DB_SSL_MODE", false),
        GetEnv(env, "DB_TIME_ZONE", "UTC")),
      MqttConfig(
        GetEnv(env, "MQTT_HOST", "localhost"),
        GetEnvAsInt(env, "MQTT_PORT", 1883),
        GetEnv(env, "MQTT_CLIENT_ID", "client"),
        GetEnv(env, "MQTT_USERNAME", ""),
        GetEnv(env, "MQTT_PASSWORD", ""),
        GetEnv(env, "MQTT_BASE_TOPIC", "gps_no")))
  }

  /** With nothing set, every setting takes its documented default. */
  lemma LoadDefaults(parseDuration: string -> Option<Duration>)
    ensures Load(map[], parseDuration) == Config(
      ServerConfig("localhost", 8080, "release", "info", 5 * Second, 5 * Second, 5 * Second),
      DatabaseConfig("localhost", 5432, "gps_no", "", "", false, "UTC"),
      MqttConfig("localhost", 1883, "client", "", "", "gps_no"))
  {
  }

  /** Setting one variable changes only its own setting: a decimal SERVER_PORT moves the
      server port and nothing else. */
  lemma LoadServerPort(parseDuration: string -> Option<Duration>, n: nat)
    requires n <= MaxInt64
    ensures var c := Load(map["SERVER_PORT" := DecimalString(n)], parseDuration);
      c == Load(map[], parseDuration).(server := Load(map[], parseDuration).server.(port := n))
  {
    DecimalIntIsRead(map["SERVER_PORT" := DecimalString(n)], "SERVER_PORT", 8080, n);
  }

  /** A malformed port falls back rather than failing the load. */
  lemma LoadMalformedPort(parseDuration: string -> Option<Duration>)
    ensures Load(map["DB_PORT" := "54x"], parseDuration).database.port == 5432
  {
    assert !IsDigit("54x"[2]);
  }
}

=== FILE: controllers_dto.dfy ===
/**
 * Package controllers/dto (shared.go, station_dto.go, ranging_dto.go, cluster_dto.go): the
 * older DTOs over LegacyModels. The include flags arrive already parsed as a map that may
 * be nil (`None`); a nil map is replaced by an empty one, which reads the same.
 */
module ControllersDto {
  import opened Wrappers
  import opened Primitives
  import opened GoStrings
  import opened LegacyModels
  import HttpDto

  datatype StationDto = StationDto(
    id: nat,
    macAddress: string,
    name: string,
    clusterId: Option<nat>,
    cluster: Option<ClusterDto>,
    createdAt: Option<Timestamp>,
    updatedAt: Option<Timestamp>,
    deletedAt: Option<DeletedAt>,
    lastSeen: Option<Timestamp>)

  datatype ClusterDto = ClusterDto(
    id: nat,
    name: string,
    description: string,
    stations: Option<seq<StationDto>>,
    createdAt: Option<Timestamp>,
    updatedAt: Option<Timestamp>,
    deletedAt: Option<DeletedAt>)

  datatype RangingDto = RangingDto(
    id: nat,
    sourceId: Option<nat>,
    source: Option<StationDto>,
    destinationId: Option<nat>,
    destination: Option<StationDto>,
    rawDistance: Float64,
    createdAt: Option<Timestamp>,
    updatedAt: Option<Timestamp>,
    deletedAt: Option<DeletedAt>)

  /* ---------------------------------------------------------------- shared.go */

  /** ParseIncludes(string): as the http variant, but a plain string with "" for "no flags". */
  function ParseIncludes(includesString: string): (r: map<string, bool>)
    ensures includesString == "" ==> r == map[]
    ensures includesString != "" ==> r.Keys == HttpDto.NormalizedSegments(Split(includesString, ','))
    ensures forall k :: k in r ==> r[k]
  {
    if includesString == "" then map[] else HttpDto.IncludeMap(Split(includesString, ','))
  }

  /** The two ParseIncludes versions agree once the string is present. */
  lemma ParseIncludesVersionsAgree(s: string)
    ensures ParseIncludes(s) == HttpDto.ParseIncludes(Some(s))
  {
  }

  /** `includes == nil` is replaced by an empty map. */
  function IncludesOrEmpty(includes: Option<map<string, bool>>): (m: map<string, bool>)
    ensures includes.Some? ==> m == includes.value
    ensures includes.None? ==> m == map[]
  {
    if includes.None? then map[] else includes.value
  }

  predicate Flag(includes: Option<map<string, bool>>, flag: string) {
    HttpDto.Has(IncludesOrEmpty(includes), flag)
  }

  /* ---------------------------------------------------------------- station_dto.go, cluster_dto.go */

  /** FromStation: ID, MacAddress, Name; the nested cluster (no includes) when "cluster" is on
      and loaded, the ClusterID otherwise; meta (with LastSeen) on request. */
  function FromStation(station: Station, includes: Option<map<string, bool>>): (r: StationDto)
    ensures r.id == station.model.id && r.macAddress == station.macAddress && r.name == station.name
    ensures r.cluster.Some? <==> Flag(includes, "cluster") && station.cluster.Some?
    ensures r.cluster.None? ==> r.clusterId == station.clusterId
    ensures r.cluster.Some? ==> r.clusterId.None?
    ensures Flag(includes, "meta") ==>
      && r.createdAt == Some(station.model.createdAt)
      && r.updatedAt == Some(station.model.updatedAt)
      && r.deletedAt == Some(station.model.deletedAt)
      && r.lastSeen == Some(station.lastSeen)
    ensures !Flag(includes, "meta") ==>
      r.createdAt.None? && r.updatedAt.None? && r.deletedAt.None? && r.lastSeen.None?
    decreases station
  {
    var inc := IncludesOrEmpty(includes);
    var response := StationDto(station.model.id, station.macAddress, station.name, None, None, None, None, None, None);
    var withCluster :=
      if HttpDto.Has(inc, "cluster") && station.cluster.Some? then
        response.(cluster := Some(FromCluster(station.cluster.value, None)))
      else response.(clusterId := station.clusterId);
    if HttpDto.Has(inc, "meta") then
      withCluster.(createdAt := Some(station.model.createdAt),
                   updatedAt := Some(station.model.updatedAt),
                   deletedAt := Some(station.model.deletedAt),
                   lastSeen := Some(station.lastSeen))
    else withCluster
  }

  /** ToStation: MacAddress, Name and ClusterID only. */
  function ToStation(dto: StationDto): (r: Station)
    ensures r.macAddress == dto.macAddress && r.name == dto.name && r.clusterId == dto.clusterId
    ensures r.model == ZeroModel && r.cluster.None? && r.lastSeen == ZeroTime
  {
    Station(ZeroModel, dto.macAddress, dto.name, dto.clusterId, None, ZeroTime)
  }

  /** FromStationList: one DTO per station, in order; nil when empty. */
  function FromStationList(stations: seq<Station>, includes: Option<map<string, bool>>): (r: Option<seq<StationDto>>)
    ensures r.None? <==> |stations| == 0
    ensures r.Some? ==> |r.value| == |stations|
    ensures r.Some? ==> forall i :: 0 <= i < |stations| ==> r.value[i] == FromStation(stations[i], includes)
    decreases stations
  {
    if |stations| == 0 then None
    else Some(seq(|stations|, i requires 0 <= i < |stations| => FromStation(stations[i], includes)))
  }

  /** FromCluster: ID, Name, Description; with "stations" one DTO per station, in order, mapped
      without includes (nil when there are none); meta on request. */
  function FromCluster(cluster: Cluster, includes: Option<map<string, bool>>): (r: ClusterDto)
    ensures r.id == cluster.model.id && r.name == cluster.name && r.description == cluster.description
    ensures !Flag(includes, "stations") ==> r.stations.None?
    ensures Flag(includes, "stations") ==> r.stations == FromStationList(cluster.stations, None)
    ensures Flag(includes, "meta") ==>
      && r.createdAt == Some(cluster.model.createdAt)
      && r.updatedAt == Some(cluster.model.updatedAt)
      && r.deletedAt == Some(cluster.model.deletedAt)
    ensures !Flag(includes, "meta") ==> r.createdAt.None? && r.updatedAt.None? && r.deletedAt.None?
    decreases cluster
  {
    var inc := IncludesOrEmpty(includes);
    var response := ClusterDto(cluster.model.id, cluster.name, cluster.description, None, None, None, None);
    var withStations :=
      if HttpDto.Has(inc, "stations") then response.(stations := FromStationList(cluster.stations, None))
      else response;
    if HttpDto.Has(inc, "meta") then
      withStations.(createdAt := Some(cluster.model.createdAt),
                    updatedAt := Some(cluster.model.updatedAt),
                    deletedAt := Some(cluster.model.deletedAt))
    else withStations
  }

  /** ToCluster: only Name and Description. */
  function ToCluster(dto: ClusterDto): (r: Cluster)
    ensures r.name == dto.name && r.description == dto.description
    ensures r.model == ZeroModel && r.stations == []
  {
    Cluster(ZeroModel, dto.name, dto.description, [])
  }

  /** FromClusterList: one DTO per cluster, in order; nil when empty. */
  function FromClusterList(clusters: seq<Cluster>, includes: Option<map<string, bool>>): (r: Option<seq<ClusterDto>>)
    ensures r.None? <==> |clusters| == 0
    ensures r.Some? ==> |r.value| == |clusters|
    ensures r.Some? ==> forall i :: 0 <= i < |clusters| ==> r.value[i] == FromCluster(clusters[i], includes)
  {
    if |clusters| == 0 then None
    else Some(seq(|clusters|, i requires 0 <= i < |clusters| => FromCluster(clusters[i], includes)))
  }

  /** Passing nil includes is the same as passing an empty map. */
  lemma NilIncludesAreEmpty(station: Station, cluster: Cluster, ranging: Ranging)
    ensures FromStation(station, None) == FromStation(station, Some(map[]))
    ensures FromCluster(cluster, None) == FromCluster(cluster, Some(map[]))
    ensures FromRanging(ranging, None) == FromRanging(ranging, Some(map[]))
  {
  }

  /** Without includes, a station keeps MacAddress, Name and ClusterID through FromStation/ToStation. */
  lemma StationRoundTrip(station: Station)
    ensures ToStation(FromStation(station, None)).macAddress == station.macAddress
    ensures ToStation(FromStation(station, None)).name == station.name
    ensures ToStation(FromStation(station, None)).clusterId == station.clusterId
  {
  }

  /* ---------------------------------------------------------------- ranging_dto.go */

  /** FromRanging as written: RawDistance, the endpoints or their IDs, meta on request, and the
      ID is never copied, so it stays 0. */
  function FromRanging(ranging: Ranging, includes: Option<map<string, bool>>): (r: RangingDto)
    ensures r.id == 0 && r.rawDistance == ranging.rawDistance
    ensures Flag(includes, "stations") ==>
      && r.sourceId.None? && r.destinationId.None?
      && (r.source.Some? <==> ranging.source.Some?)
      && (r.destination.Some? <==> ranging.destination.Some?)
      && (r.source.Some? ==> r.source.value == FromStation(ranging.source.value, None))
      && (r.destination.Some? ==> r.destination.value == FromStation(ranging.destination.value, None))
    ensures !Flag(includes, "stations") ==>
      && r.source.None? && r.destination.None?
      && r.sourceId == ranging.sourceId && r.destinationId == ranging.destinationId
    ensures Flag(includes, "meta") ==>
      && r.createdAt == Some(ranging.model.createdAt)
      && r.updatedAt == Some(ranging.model.updatedAt)
      && r.deletedAt == Some(ranging.model.deletedAt)
    ensures !Flag(includes, "meta") ==> r.createdAt.None? && r.updatedAt.None? && r.deletedAt.None?
  {
    var inc := IncludesOrEmpty(includes);
    var response := RangingDto(0, None, None, None, None, ranging.rawDistance, None, None, None);
    var withStations :=
      if HttpDto.Has(inc, "stations") then
        response.(source := if ranging.source.Some? then Some(FromStation(ranging.source.value, None)) else None,
                  destination := if ranging.destination.Some? then Some(FromStation(ranging.destination.value, None)) else None)
      else response.(sourceId := ranging.sourceId, destinationId := ranging.destinationId);
    if HttpDto.Has(inc, "meta") then
      withStations.(createdAt := Some(ranging.model.createdAt),
                    updatedAt := Some(ranging.model.updatedAt),
                    deletedAt := Some(ranging.model.deletedAt))
    else withStations
  }

  /** FromRangingList: one DTO per ranging, in order; nil when empty. */
  function FromRangingList(rangings: seq<Ranging>, includes: Option<map<string, bool>>): (r: Option<seq<RangingDto>>)
    ensures r.None? <==> |rangings| == 0
    ensures r.Some? ==> |r.value| == |rangings|
    ensures r.Some? ==> forall i :: 0 <= i < |rangings| ==> r.value[i] == FromRanging(rangings[i], includes)
  {
    if |rangings| == 0 then None
    else Some(seq(|rangings|, i requires 0 <= i < |rangings| => FromRanging(rangings[i], includes)))
  }

  /** A persisted ranging (ID > 0) loses its ID in the DTO. */
  lemma FromRangingLosesId(ranging: Ranging, includes: Option<map<string, bool>>)
    requires ranging.model.id > 0
    ensures FromRanging(ranging, includes).id != ranging.model.id
  {
  }
}

=== FILE: core_dtos.dfy ===
/** The response shapes of package core/models/dtos; pointer fields become `Option`, and a
    nil slice is `None` (it is omitted from JSON, unlike an empty one). */
module CoreDtos {
  import opened Wrappers
  import opened Primitives

  datatype StationDto = StationDto(
    id: nat,
    macAddress: string,
    name: string,
    clusterId: Option<nat>,
    cluster: Option<ClusterDto>,
    createdAt: Option<Timestamp>,
    updatedAt: Option<Timestamp>,
    deletedAt: Option<DeletedAt>,
    lastSeen: Option<Timestamp>)

  datatype ClusterDto = ClusterDto(
    id: nat,
    name: string,
    description: string,
    stations: Option<seq<StationDto>>,
    createdAt: Option<Timestamp>,
    updatedAt: Option<Timestamp>,
    deletedAt: Option<DeletedAt>)

  datatype RangingDto = RangingDto(
    id: nat,
    sourceId: Option<nat>,
    source: Option<StationDto>,
    destinationId: Option<nat>,
    destination: Option<StationDto>,
    rawDistance: Float64,
    createdAt: Option<Timestamp>,
    updatedAt: Option<Timestamp>,
    deletedAt: Option<DeletedAt>)

  datatype StationConfigurationDto = StationConfigurationDto(
    id: nat,
    stationId: nat,
    uwbMode: string,
    uwbChannel: Uint8,
    createdAt: Option<Timestamp>,
    updatedAt: Option<Timestamp>,
    deletedAt: Option<DeletedAt>)
}

=== FILE: core_models.dfy ===
/** The persisted entities of package core/models; pointers become `Option`, and the
    preloaded associations are finite trees rather than a pointer graph. */
module CoreModels {
  import opened Wrappers
  import opened Primitives

  datatype Station = Station(
    model: GormModel,
    macAddress: string,
    name: string,
    clusterId: Option<nat>,
    cluster: Option<Cluster>,
    uptime: Timestamp,
    stationConfig: Option<StationConfiguration>)

  datatype Cluster = Cluster(model: GormModel, name: string, description: string, stations: seq<Station>)

  datatype Ranging = Ranging(
    model: GormModel,
    sourceId: Option<nat>,
    source: Option<Station>,
    destinationId: Option<nat>,
    destination: Option<Station>,
    rawDistance: Float64)

  /** UWBMode is a Go `string` type; these are its named values. */
  const AnchorMode := "ANCHOR"
  const TagMode := "TAG"
  const NoneMode := "NONE"

  datatype StationConfiguration = StationConfiguration(
    model: GormModel,
    stationId: nat,
    station: Option<Station>,
    uwbMode: string,
    uwbChannel: Uint8,
    uwbPreambleCode: Uint8,
    uwbPreambleLen: string)
}

=== FILE: event_stream.dfy ===
/**
 * core/services/event_stream.go: the EventStreamService over the core DTOs. Bookkeeping,
 * frames and delivery are the shared Broadcaster; this module adds the payload shapes Publish
 * inspects for a ranging id.
 */
module EventStream {
  import opened Wrappers
  import opened Broadcaster
  import opened SseFrames
  import CoreDtos

  /** The dynamic type of Publish's `data interface{}`, as far as id extraction looks at it:
      a *dtos.RangingDto, a map[string]interface{}, a string, or anything else. */
  datatype Payload =
    | RangingPayload(dto: CoreDtos.RangingDto)
    | MapPayload(fields: map<string, JsonValue>)
    | TextPayload(text: string)
    | OtherPayload

  /** The ranging id Publish routes by: a RangingDto's positive ID, else a map's "id", else a
      JSON string's numeric "id", else 0. */
  function ExtractId(data: Payload, codec: Codec<Payload>): (id: nat)
    ensures data.RangingPayload? ==> id == data.dto.id
    ensures data.MapPayload? ==> id == IdFromMap(data.fields, codec)
    ensures data.TextPayload? ==> id == IdFromJsonText(data.text, codec)
    ensures data.OtherPayload? ==> id == 0
  {
    match data
    case RangingPayload(dto) => if dto.id > 0 then dto.id else 0
    case MapPayload(fields) => IdFromMap(fields, codec)
    case TextPayload(text) => IdFromJsonText(text, codec)
    case OtherPayload => 0
  }

  /** Publish: serialise, then deliver to T and to "T:id" for a positive extracted id; a
      serialisation failure is returned and delivers nothing. */
  function Publish(s: State, eventType: string, data: Payload, codec: Codec<Payload>): (r: Result<State>)
    ensures r.Err? <==> codec.marshal(data).Err?
    ensures r.Err? ==> r.message == "Error marshalling event data: " + codec.marshal(data).message
    ensures Valid(s) && r.Ok? ==> Valid(r.value)
    ensures r.Ok? ==> r.value == Deliver(s, eventType, ExtractId(data, codec), DataFrame(eventType, codec.marshal(data).value))
  {
    PublishJson(s, eventType, ExtractId(data, codec), codec.marshal(data))
  }

  /** A client subscribed with filter id N > 0 receives a ranging published under T exactly
      when that ranging's ID is N (given room in its buffer). */
  lemma IdSubscriberSeesOnlyItsRanging(
    s: State, eventType: string, n: nat, dto: CoreDtos.RangingDto, codec: Codec<Payload>, ch: ChanId)
    requires Valid(s) && n > 0
    requires Member(s, SubscriptionKey(eventType, [n]), ch) && !Full(s.channels[ch])
    requires codec.marshal(RangingPayload(dto)).Ok?
    ensures var r := Publish(s, eventType, RangingPayload(dto), codec);
      r.Ok? && (r.value.channels[ch].queue == s.channels[ch].queue + [DataFrame(eventType, codec.marshal(RangingPayload(dto)).value)]
                <==> dto.id == n)
  {
    IdSubscriberGetsOnlyItsId(s, eventType, n, dto.id, DataFrame(eventType, codec.marshal(RangingPayload(dto)).value), ch);
  }

  /** A payload of no recognised shape reaches only the subscribers of the bare event type. */
  lemma OtherPayloadGoesToTypeOnly(s: State, eventType: string, codec: Codec<Payload>, ch: ChanId)
    requires Valid(s) && ch in s.channels && Member(s, s.channels[ch].key, ch) && !Full(s.channels[ch])
    requires codec.marshal(OtherPayload).Ok?
    ensures var r := Publish(s, eventType, OtherPayload, codec);
      r.Ok? && (r.value.channels[ch] != s.channels[ch] <==> s.channels[ch].key == eventType)
  {
    var json := codec.marshal(OtherPayload).value;
    PublishJsonEffect(s, eventType, 0, json, ch);
  }
}

=== FILE: go_strings.dfy ===
/**
 * The parts of Go's `strings` and `strconv` packages that the core relies on, over
 * `string = seq<char>`: Split/Join on a one-character separator, prefix and suffix tests,
 * TrimSpace, ToLower (ASCII letters only), `%d` formatting, ParseUint, Atoi and ParseBool.
 */
module GoStrings {
  import opened Wrappers

  /* ---------------------------------------------------------------- Split / Join */

  /** strings.Split(s, string(sep)): the pieces between separators; "" yields [""]. */
  function Split(s: string, sep: char): (r: seq<string>)
    ensures |r| >= 1
    decreases |s|
  {
    if |s| == 0 then [""]
    else if s[0] == sep then [""] + Split(s[1..], sep)
    else
      var rest := Split(s[1..], sep);
      [[s[0]] + rest[0]] + rest[1..]
  }

  /** strings.Join(parts, sep). */
  function Join(parts: seq<string>, sep: string): string
  {
    if |parts| == 0 then ""
    else if |parts| == 1 then parts[0]
    else parts[0] + sep + Join(parts[1..], sep)
  }

  lemma JoinConsHead(x: string, y: string, rest: seq<string>, sep: string)
    ensures Join([x + y] + rest, sep) == x + Join([y] + rest, sep)
  {
    if |rest| > 0 {
      assert ([x + y] + rest)[1..] == rest;
      assert ([y] + rest)[1..] == rest;
    }
  }

  /** Joining the pieces again with the separator gives back the original string. */
  lemma {:induction false} JoinSplit(s: string, sep: char)
    ensures Join(Split(s, sep), [sep]) == s
    decreases |s|
  {
    if |s| == 0 {
    } else if s[0] == sep {
      JoinSplit(s[1..], sep);
      var rest := Split(s[1..], sep);
      assert ([""] + rest)[1..] == rest;
      assert s == [sep] + s[1..];
    } else {
      JoinSplit(s[1..], sep);
      var rest := Split(s[1..], sep);
      JoinConsHead([s[0]], rest[0], rest[1..], [sep]);
      assert [rest[0]] + rest[1..] == rest;
      assert s == [s[0]] + s[1..];
    }
  }

  /** No piece contains the separator. */
  lemma {:induction false} SplitPiecesAvoidSep(s: string, sep: char)
    ensures forall i :: 0 <= i < |Split(s, sep)| ==> sep !in Split(s, sep)[i]
    decreases |s|
  {
    if |s| > 0 {
      SplitPiecesAvoidSep(s[1..], sep);
    }
  }

  /** Split is injective: equal pieces mean equal strings. */
  lemma SplitInjective(a: string, b: string, sep: char)
    requires Split(a, sep) == Split(b, sep)
    ensures a == b
  {
    JoinSplit(a, sep);
    JoinSplit(b, sep);
  }

  /** A string without the separator is a single piece. */
  lemma {:induction false} SplitWithoutSep(s: string, sep: char)
    requires sep !in s
    ensures Split(s, sep) == [s]
    decreases |s|
  {
    if |s| > 0 {
      assert sep !in s[1..];
      SplitWithoutSep(s[1..], sep);
      assert s == [s[0]] + s[1..];
    }
  }

  /** One unfolding of Split at a leading character. */
  lemma SplitHead(c: char, t: string, sep: char)
    ensures Split([c] + t, sep) ==
      if c == sep then [""] + Split(t, sep) else [[c] + Split(t, sep)[0]] + Split(t, sep)[1..]
  {
    assert ([c] + t)[0] == c;
    assert ([c] + t)[1..] == t;
  }

  /** The inductive step of SplitConcat when `a` starts with the separator. */
  lemma SplitConcatSepStep(a: string, b: string, sep: char)
    requires |a| > 0 && a[0] == sep
    requires Split(a[1..] + [sep] + b, sep) == Split(a[1..], sep) + Split(b, sep)
    ensures Split(a + [sep] + b, sep) == Split(a, sep) + Split(b, sep)
  {
    var a1 := a[1..];
    var s := a + [sep] + b;
    assert s[1..] == a1 + [sep] + b;
    SplitLeadingSep(s, a1 + [sep] + b, sep);
    SplitLeadingSep(a, a1, sep);
    SeqAssoc([""], Split(a1, sep), Split(b, sep));
  }

  lemma SeqAssoc<T>(x: seq<T>, y: seq<T>, z: seq<T>)
    ensures x + (y + z) == (x + y) + z
  {
  }

  /** A leading separator contributes one empty piece. */
  lemma SplitLeadingSep(t: string, u: string, sep: char)
    requires |t| > 0 && t[0] == sep && u == t[1..]
    ensures Split(t, sep) == [""] + Split(u, sep)
  {
  }

  /** The inductive step of SplitConcat when `a` starts with another character. */
  lemma SplitConcatCharStep(a: string, b: string, sep: char)
    requires |a| > 0 && a[0] != sep
    requires Split(a[1..] + [sep] + b, sep) == Split(a[1..], sep) + Split(b, sep)
    ensures Split(a + [sep] + b, sep) == Split(a, sep) + Split(b, sep)
  {
    var a1 := a[1..];
    var s := a + [sep] + b;
    var ra, rb := Split(a1, sep), Split(b, sep);
    assert s[0] == a[0] && s[1..] == a1 + [sep] + b;
    SplitLeadingChar(s, a1 + [sep] + b, sep);
    SplitLeadingChar(a, a1, sep);
    ExtendFirstPiece(a[0], ra, rb);
  }

  lemma ExtendFirstPiece(c: char, ra: seq<string>, rb: seq<string>)
    requires |ra| > 0
    ensures [[c] + (ra + rb)[0]] + (ra + rb)[1..] == ([[c] + ra[0]] + ra[1..]) + rb
  {
    assert (ra + rb)[0] == ra[0] && (ra + rb)[1..] == ra[1..] + rb;
  }

  /** Any other leading character extends the first piece. */
  lemma SplitLeadingChar(t: string, u: string, sep: char)
    requires |t| > 0 && t[0] != sep && u == t[1..]
    ensures Split(t, sep) == [[t[0]] + Split(u, sep)[0]] + Split(u, sep)[1..]
  {
  }

  /** Splitting around one separator splits both sides independently. */
  lemma {:induction false} SplitConcat(a: string, b: string, sep: char)
    ensures Split(a + [sep] + b, sep) == Split(a, sep) + Split(b, sep)
    decreases |a|
  {
    if |a| == 0 {
      assert a + [sep] + b == [sep] + b;
      SplitHead(sep, b, sep);
    } else {
      SplitConcat(a[1..], b, sep);
      if a[0] == sep {
        SplitConcatSepStep(a, b, sep);
      } else {
        SplitConcatCharStep(a, b, sep);
      }
    }
  }

  /** Appending a separator and a separator-free part adds that part as the last piece. */
  lemma SplitSnoc(a: string, b: string, sep: char)
    requires sep !in b
    ensures Split(a + [sep] + b, sep) == Split(a, sep) + [b]
  {
    SplitConcat(a, b, sep);
    SplitWithoutSep(b, sep);
  }

  /** Two separator-free parts joined by the separator split back into those two parts. */
  lemma SplitTwo(a: string, b: string, sep: char)
    requires sep !in a && sep !in b
    ensures Split(a + [sep] + b, sep) == [a, b]
  {
    SplitConcat(a, b, sep);
    SplitWithoutSep(a, sep);
    SplitWithoutSep(b, sep);
  }

  /* ---------------------------------------------------------------- prefixes */

  predicate HasPrefix(s: string, prefix: string) {
    |prefix| <= |s| && s[..|prefix|] == prefix
  }

  predicate HasSuffix(s: string, suffix: string) {
    |suffix| <= |s| && s[|s| - |suffix|..] == suffix
  }

  /* ---------------------------------------------------------------- TrimSpace / ToLower */

  /** unicode.IsSpace: the Latin-1 spaces plus the Unicode space separators. */
  predicate IsSpace(c: char) {
    var u := c as int;
    || u == 0x20 || (0x09 <= u <= 0x0D) || u == 0x85 || u == 0xA0
    || u == 0x1680 || (0x2000 <= u <= 0x200A) || u == 0x2028 || u == 0x2029
    || u == 0x202F || u == 0x205F || u == 0x3000
  }

  /** Drops leading white space: the result is the suffix after the longest all-space prefix. */
  function TrimLeft(s: string): (r: string)
    ensures |r| <= |s| && r == s[|s| - |r|..]
    ensures forall k :: 0 <= k < |s| - |r| ==> IsSpace(s[k])
    ensures |r| > 0 ==> !IsSpace(r[0])
  {
    if |s| > 0 && IsSpace(s[0]) then
      var r := TrimLeft(s[1..]);
      assert r == s[|s| - |r|..] by {
        assert s[1..][|s| - 1 - |r|..] == s[|s| - |r|..];
      }
      r
    else s
  }

  /** Drops trailing white space: the result is the prefix before the longest all-space suffix. */
  function TrimRight(s: string): (r: string)
    ensures |r| <= |s| && r == s[..|r|]
    ensures forall k :: |r| <= k < |s| ==> IsSpace(s[k])
    ensures |r| > 0 ==> !IsSpace(r[|r| - 1])
  {
    if |s| > 0 && IsSpace(s[|s| - 1]) then
      var r := TrimRight(s[..|s| - 1]);
      assert r == s[..|r|] by {
        assert s[..|s| - 1][..|r|] == s[..|r|];
      }
      r
    else s
  }

  /** Everything of s outside s[i..j] is white space. */
  predicate SpaceOutside(s: string, i: nat, j: nat)
    requires i <= j <= |s|
  {
    (forall k :: 0 <= k < i ==> IsSpace(s[k])) && (forall k :: j <= k < |s| ==> IsSpace(s[k]))
  }

  /** strings.TrimSpace. */
  function TrimSpace(s: string): (r: string)
    ensures |r| <= |s|
    ensures |r| > 0 ==> !IsSpace(r[0]) && !IsSpace(r[|r| - 1])
    ensures (forall k :: 0 <= k < |s| ==> IsSpace(s[k])) <==> r == ""
    ensures exists i, j :: 0 <= i <= j <= |s| && r == s[i..j] && SpaceOutside(s, i, j)
  {
    var left := TrimLeft(s);
    var r := TrimRight(left);
    assert r == "" ==> forall k :: 0 <= k < |s| ==> IsSpace(s[k]) by {
      if r == "" {
        assert left == "";
      }
    }
    SpaceTrimmedInfix(s, left, r);
    r
  }

  /** Dropping an all-space head and then an all-space tail leaves an infix with only white
      space outside it. */
  lemma SpaceTrimmedInfix(s: string, left: string, r: string)
    requires |left| <= |s| && left == s[|s| - |left|..]
    requires forall k :: 0 <= k < |s| - |left| ==> IsSpace(s[k])
    requires |r| <= |left| && r == left[..|r|]
    requires forall k :: |r| <= k < |left| ==> IsSpace(left[k])
    ensures exists i, j :: 0 <= i <= j <= |s| && r == s[i..j] && SpaceOutside(s, i, j)
  {
    var i := |s| - |left|;
    var j := i + |r|;
    PrefixOfSuffix(s, left, r);
    forall k | j <= k < |s|
      ensures IsSpace(s[k])
    {
      assert s[k] == left[k - i];
    }
    assert SpaceOutside(s, i, j);
  }

  /** A prefix of a suffix is an infix, and lines up character by character. */
  lemma PrefixOfSuffix(s: string, suffix: string, r: string)
    requires |suffix| <= |s| && suffix == s[|s| - |suffix|..]
    requires |r| <= |suffix| && r == suffix[..|r|]
    ensures var i := |s| - |suffix|; r == s[i..i + |r|]
    ensures forall k :: |s| - |suffix| <= k < |s| ==> s[k] == suffix[k - (|s| - |suffix|)]
  {
    var i := |s| - |suffix|;
    forall k | 0 <= k < |r|
      ensures r[k] == s[i..i + |r|][k]
    {
      assert r[k] == suffix[k];
    }
  }

  /** A string without white space at either end is its own trim. */
  lemma TrimSpaceOfTrimmed(s: string)
    requires |s| > 0 ==> !IsSpace(s[0]) && !IsSpace(s[|s| - 1])
    ensures TrimSpace(s) == s
  {
  }

  function ToLowerChar(c: char): char {
    if 'A' <= c <= 'Z' then (c as int + 32) as char else c
  }

  /** strings.ToLower restricted to ASCII letters. */
  function ToLower(s: string): (r: string)
    ensures |r| == |s|
    ensures forall i :: 0 <= i < |s| ==> r[i] == ToLowerChar(s[i])
  {
    if |s| == 0 then "" else [ToLowerChar(s[0])] + ToLower(s[1..])
  }

  /** Lower-casing twice is lower-casing once. */
  lemma ToLowerIdempotent(s: string)
    ensures ToLower(ToLower(s)) == ToLower(s)
  {
  }

  /* ---------------------------------------------------------------- decimal numbers */

  predicate IsDigit(c: char) {
    '0' <= c <= '9'
  }

  predicate AllDigits(s: string) {
    forall i :: 0 <= i < |s| ==> IsDigit(s[i])
  }

  function DigitChar(d: nat): char
    requires d < 10
  {
    ('0' as int + d) as char
  }

  /** The value of a string of decimal digits (leading zeros allowed). */
  function DigitsValue(s: string): nat
    requires AllDigits(s)
  {
    if |s| == 0 then 0
    else DigitsValue(s[..|s| - 1]) * 10 + (s[|s| - 1] as int - '0' as int)
  }

  /** fmt's `%d` of an unsigned value. */
  function DecimalString(n: nat): (r: string)
    ensures |r| >= 1 && AllDigits(r)
    ensures r[0] == '0' ==> n == 0 && r == "0"
  {
    if n < 10 then [DigitChar(n)] else DecimalString(n / 10) + [DigitChar(n % 10)]
  }

  /** Reading back the decimal string gives the number. */
  lemma {:induction false} DecimalStringValue(n: nat)
    ensures DigitsValue(DecimalString(n)) == n
  {
    if n >= 10 {
      DecimalStringValue(n / 10);
      var s := DecimalString(n);
      assert s[..|s| - 1] == DecimalString(n / 10);
    }
  }

  /** Decimal strings contain neither separators nor line breaks. */
  lemma DecimalStringHasNoPunctuation(n: nat)
    ensures ':' !in DecimalString(n) && '/' !in DecimalString(n) && '\n' !in DecimalString(n)
  {
    var s := DecimalString(n);
    assert forall i :: 0 <= i < |s| ==> IsDigit(s[i]);
  }

  const MaxUint64: nat := 0x1_0000_0000_0000_0000 - 1
  const MinInt64: int := -0x8000_0000_0000_0000
  const MaxInt64: int := 0x7FFF_FFFF_FFFF_FFFF

  /** strconv.ParseUint(s, 10, 64): a non-empty run of digits (no sign, no underscore) within 64 bits. */
  function ParseUint64(s: string): (r: Option<nat>)
    ensures r.Some? <==> |s| > 0 && AllDigits(s) && DigitsValue(s) <= MaxUint64
    ensures r.Some? ==> r.value == DigitsValue(s)
  {
    if |s| > 0 && AllDigits(s) && DigitsValue(s) <= MaxUint64 then Some(DigitsValue(s)) else None
  }

  /** `%d` and ParseUint are inverse on 64-bit values. */
  lemma ParseUintOfDecimal(n: nat)
    requires n <= MaxUint64
    ensures ParseUint64(DecimalString(n)) == Some(n)
  {
    DecimalStringValue(n);
  }

  /** strconv.Atoi on a 64-bit platform: an optional sign, then a non-empty run of digits, in int64 range. */
  function Atoi(s: string): (r: Option<int>)
    ensures r.Some? ==> MinInt64 <= r.value <= MaxInt64
    ensures |s| == 0 ==> r.None?
    ensures |s| > 0 && IsDigit(s[0]) ==>
      (r.Some? <==> AllDigits(s) && DigitsValue(s) <= MaxInt64) && (r.Some? ==> r.value == DigitsValue(s))
    ensures |s| > 0 && s[0] == '+' ==>
      (r.Some? <==> |s| > 1 && AllDigits(s[1..]) && DigitsValue(s[1..]) <= MaxInt64)
      && (r.Some? ==> r.value == DigitsValue(s[1..]))
    ensures |s| > 0 && s[0] == '-' ==>
      (r.Some? <==> |s| > 1 && AllDigits(s[1..]) && DigitsValue(s[1..]) <= -MinInt64)
      && (r.Some? ==> r.value == 0 - (DigitsValue(s[1..]) as int))
    ensures |s| > 0 && !IsDigit(s[0]) && s[0] != '+' && s[0] != '-' ==> r.None?
  {
    var negative := |s| > 0 && s[0] == '-';
    var digits := if |s| > 0 && (s[0] == '-' || s[0] == '+') then s[1..] else s;
    if |digits| == 0 || !AllDigits(digits) then None
    else
      var v: int := if negative then 0 - (DigitsValue(digits) as int) else DigitsValue(digits);
      if MinInt64 <= v <= MaxInt64 then Some(v) else None
  }

  /** `%d` and Atoi are inverse on non-negative int64 values. */
  lemma AtoiOfDecimal(n: nat)
    requires n <= MaxInt64
    ensures Atoi(DecimalString(n)) == Some(n)
  {
    DecimalStringValue(n);
    var s := DecimalString(n);
    assert IsDigit(s[0]);
  }

  /** strconv.ParseBool: exactly twelve spellings are accepted. */
  function ParseBool(s: string): (r: Option<bool>)
    ensures r == Some(true) <==> s in {"1", "t", "T", "TRUE", "true", "True"}
    ensures r == Some(false) <==> s in {"0", "f", "F", "FALSE", "false", "False"}
  {
    if s in {"1", "t", "T", "TRUE", "true", "True"} then Some(true)
    else if s in {"0", "f", "F", "FALSE", "false", "False"} then Some(false)
    else None
  }
}

=== FILE: http_dto.dfy ===
/**
 * ParseIncludes of package infrastructure/http/dto: the `include` query parameter, a
 * comma-separated list, becomes a set of flags. Each segment is lower-cased and trimmed;
 * every resulting key maps to true. A nil or empty parameter gives no flags.
 */
module HttpDto {
  import opened Wrappers
  import opened GoStrings

  /** strings.TrimSpace(strings.ToLower(segment)). */
  function Normalize(segment: string): string {
    TrimSpace(ToLower(segment))
  }

  /** The keys the segments contribute. */
  function NormalizedSegments(segments: seq<string>): set<string> {
    set seg | seg in segments :: Normalize(seg)
  }

  /** The loop over the segments: each one sets its normalized key to true. */
  function IncludeMap(segments: seq<string>): (m: map<string, bool>)
    ensures m.Keys == NormalizedSegments(segments)
    ensures forall k :: k in m ==> m[k]
  {
    if |segments| == 0 then map[]
    else
      var m := IncludeMap(segments[..|segments| - 1]);
      NormalizedSegmentsLast(segments);
      m[Normalize(segments[|segments| - 1]) := true]
  }

  lemma NormalizedSegmentsLast(segments: seq<string>)
    requires |segments| > 0
    ensures NormalizedSegments(segments) ==
      NormalizedSegments(segments[..|segments| - 1]) + {Normalize(segments[|segments| - 1])}
  {
    var init, last := segments[..|segments| - 1], segments[|segments| - 1];
    var both := segments;
    assert both == init + [last];
    forall k | k in NormalizedSegments(both)
      ensures k in NormalizedSegments(init) + {Normalize(last)}
    {
      var seg :| seg in both && Normalize(seg) == k;
      if seg != last {
        assert seg in init;
      }
    }
    forall k | k in NormalizedSegments(init)
      ensures k in NormalizedSegments(both)
    {
      var seg :| seg in init && Normalize(seg) == k;
      assert seg in both;
    }
    assert last in both;
  }

  /** Whether a flag is on; a missing key reads as false, as a Go map lookup does. */
  predicate Has(includes: map<string, bool>, flag: string) {
    flag in includes && includes[flag]
  }

  /** ParseIncludes(*string). */
  function ParseIncludes(includesString: Option<string>): (r: map<string, bool>)
    ensures includesString.None? ==> r == map[]
    ensures includesString == Some("") ==> r == map[]
    ensures includesString.Some? && includesString.value != "" ==>
      r.Keys == NormalizedSegments(Split(includesString.value, ','))
    ensures forall k :: k in r ==> r[k]
  {
    if includesString.None? then map[]
    else if includesString.value == "" then map[]
    else IncludeMap(Split(includesString.value, ','))
  }

  /** Two parameters whose segments normalize to the same keys give the same flags, whatever
      the order, repetition, letter case or surrounding white space of the segments. */
  lemma OnlyNormalizedKeysMatter(a: string, b: string)
    requires a != "" && b != ""
    requires NormalizedSegments(Split(a, ',')) == NormalizedSegments(Split(b, ','))
    ensures ParseIncludes(Some(a)) == ParseIncludes(Some(b))
  {
    AllTrueMapsEqual(ParseIncludes(Some(a)), ParseIncludes(Some(b)));
  }

  lemma AllTrueMapsEqual(m1: map<string, bool>, m2: map<string, bool>)
    requires m1.Keys == m2.Keys
    requires forall k :: k in m1 ==> m1[k]
    requires forall k :: k in m2 ==> m2[k]
    ensures m1 == m2
  {
  }

  lemma {:induction false} SplitToLower(s: string)
    ensures |Split(ToLower(s), ',')| == |Split(s, ',')|
    ensures forall i :: 0 <= i < |Split(s, ',')| ==> Split(ToLower(s), ',')[i] == ToLower(Split(s, ',')[i])
    decreases |s|
  {
    if |s| > 0 {
      var t := ToLower(s);
      SplitToLower(s[1..]);
      assert t[1..] == ToLower(s[1..]);
      var rest, rest' := Split(s[1..], ','), Split(t[1..], ',');
      if s[0] == ',' {
        assert t[0] == ',';
        assert Split(s, ',') == [""] + rest;
        assert Split(t, ',') == [""] + rest';
      } else {
        assert t[0] == ToLowerChar(s[0]) != ',';
        assert Split(s, ',') == [[s[0]] + rest[0]] + rest[1..];
        assert Split(t, ',') == [[t[0]] + rest'[0]] + rest'[1..];
        assert ToLower([s[0]] + rest[0]) == [t[0]] + ToLower(rest[0]);
      }
    }
  }

  /** Upper-case letters in the parameter make no difference. */
  lemma CaseInsensitive(s: string)
    ensures ParseIncludes(Some(ToLower(s))) == ParseIncludes(Some(s))
  {
    if s != "" {
      assert ToLower(s) != "" by { assert |ToLower(s)| == |s|; }
      SplitToLower(s);
      var segs := Split(s, ',');
      var lowered := Split(ToLower(s), ',');
      forall seg | seg in lowered ensures Normalize(seg) in NormalizedSegments(segs) {
        var i :| 0 <= i < |lowered| && lowered[i] == seg;
        ToLowerIdempotent(segs[i]);
        assert Normalize(seg) == Normalize(segs[i]);
      }
      forall seg | seg in segs ensures Normalize(seg) in NormalizedSegments(lowered) {
        var i :| 0 <= i < |segs| && segs[i] == seg;
        ToLowerIdempotent(segs[i]);
        assert Normalize(lowered[i]) == Normalize(seg);
      }
      assert NormalizedSegments(lowered) == NormalizedSegments(segs);
      OnlyNormalizedKeysMatter(ToLower(s), s);
    }
  }

  /** An empty segment (as in "a,,b" or a trailing comma) contributes the key "". */
  lemma EmptySegmentGivesEmptyKey(a: string, b: string)
    ensures "" in ParseIncludes(Some(a + ",," + b))
    ensures "" in ParseIncludes(Some(a + ","))
  {
    var s := a + ",," + b;
    assert s == a + [','] + ("" + [','] + b);
    SplitConcat(a, "" + [','] + b, ',');
    SplitConcat("", b, ',');
    assert "" in Split(s, ',');
    assert Normalize("") == "";
    var t := a + ",";
    assert t == a + [','] + "";
    SplitConcat(a, "", ',');
    assert "" in Split(t, ',');
  }

  /** Two comma-free segments give exactly their two normalized keys. */
  lemma TwoSegments(a: string, b: string)
    requires ',' !in a && ',' !in b
    ensures ParseIncludes(Some(a + [','] + b)).Keys == {Normalize(a), Normalize(b)}
  {
    SplitTwo(a, b, ',');
    NormalizedPair(a, b);
  }

  lemma NormalizedPair(a: string, b: string)
    ensures NormalizedSegments([a, b]) == {Normalize(a), Normalize(b)}
  {
  }
}

=== FILE: legacy_event_stream.dfy ===
/**
 * services/event_stream_service.go: the older copy of the EventStreamService. It shares the
 * Broadcaster bookkeeping; its Publish recognises the controllers/dto RangingDto instead.
 */
module LegacyEventStream {
  import opened Wrappers
  import opened Broadcaster
  import opened SseFrames
  import ControllersDto
  import LegacyModels
  import EventStream
  import CoreDtos

  datatype Payload =
    | RangingPayload(dto: ControllersDto.RangingDto)
    | MapPayload(fields: map<string, JsonValue>)
    | TextPayload(text: string)
    | OtherPayload

  /** The ranging id Publish routes by: a controllers RangingDto's positive ID, else a map's
      "id", else a JSON string's numeric "id", else 0. */
  function ExtractId(data: Payload, codec: Codec<Payload>): (id: nat)
    ensures data.RangingPayload? ==> id == data.dto.id
    ensures data.MapPayload? ==> id == IdFromMap(data.fields, codec)
    ensures data.TextPayload? ==> id == IdFromJsonText(data.text, codec)
    ensures data.OtherPayload? ==> id == 0
  {
    match data
    case RangingPayload(dto) => if dto.id > 0 then dto.id else 0
    case MapPayload(fields) => IdFromMap(fields, codec)
    case TextPayload(text) => IdFromJsonText(text, codec)
    case OtherPayload => 0
  }

  /** Publish: as in the core service. */
  function Publish(s: State, eventType: string, data: Payload, codec: Codec<Payload>): (r: Result<State>)
    ensures r.Err? <==> codec.marshal(data).Err?
    ensures r.Err? ==> r.message == "Error marshalling event data: " + codec.marshal(data).message
    ensures Valid(s) && r.Ok? ==> Valid(r.value)
    ensures r.Ok? ==> r.value == Deliver(s, eventType, ExtractId(data, codec), DataFrame(eventType, codec.marshal(data).value))
  {
    PublishJson(s, eventType, ExtractId(data, codec), codec.marshal(data))
  }

  /** controllers/dto FromRanging never sets ID, so a ranging mapped by it is never routed to
      a per-id subscriber: only "T" subscribers can receive it. */
  lemma MappedRangingNeverRoutedById(
    s: State, eventType: string, ranging: LegacyModels.Ranging, includes: Option<map<string, bool>>,
    codec: Codec<Payload>, ch: ChanId)
    requires Valid(s) && ch in s.channels && Member(s, s.channels[ch].key, ch) && !Full(s.channels[ch])
    requires s.channels[ch].key != eventType
    requires codec.marshal(RangingPayload(ControllersDto.FromRanging(ranging, includes))).Ok?
    ensures var r := Publish(s, eventType, RangingPayload(ControllersDto.FromRanging(ranging, includes)), codec);
      r.Ok? && r.value.channels[ch] == s.channels[ch]
  {
    var data := RangingPayload(ControllersDto.FromRanging(ranging, includes));
    assert ExtractId(data, codec) == 0;
    PublishJsonEffect(s, eventType, 0, codec.marshal(data).value, ch);
  }

  /** The older service and the core one pick the same ranging id for every map and every
      JSON string, and for ranging DTOs carrying the same ID, whenever their codecs read JSON
      the same way. */
  lemma SameRoutingAsCore(
    fields: map<string, JsonValue>, text: string, legacy: ControllersDto.RangingDto, core: CoreDtos.RangingDto,
    c1: Codec<EventStream.Payload>, c2: Codec<Payload>)
    requires c1.unmarshal == c2.unmarshal && c1.floatToUint == c2.floatToUint
    requires legacy.id == core.id
    ensures ExtractId(MapPayload(fields), c2) == EventStream.ExtractId(EventStream.MapPayload(fields), c1)
    ensures ExtractId(TextPayload(text), c2) == EventStream.ExtractId(EventStream.TextPayload(text), c1)
    ensures ExtractId(RangingPayload(legacy), c2) == EventStream.ExtractId(EventStream.RangingPayload(core), c1)
    ensures ExtractId(OtherPayload, c2) == EventStream.ExtractId(EventStream.OtherPayload, c1)
  {
  }
}

=== FILE: legacy_models.dfy ===
/** The entities of the older package internal/models, used by the controllers' DTOs; they
    differ from CoreModels in Station (LastSeen instead of Uptime, no configuration). */
module LegacyModels {
  import opened Wrappers
  import opened Primitives

  datatype Station = Station(
    model: GormModel,
    macAddress: string,
    name: string,
    clusterId: Option<nat>,
    cluster: Option<Cluster>,
    lastSeen: Timestamp)

  datatype Cluster = Cluster(model: GormModel, name: string, description: string, stations: seq<Station>)

  datatype Ranging = Ranging(
    model: GormModel,
    sourceId: Option<nat>,
    source: Option<Station>,
    destinationId: Option<nat>,
    destination: Option<Station>,
    rawDistance: Float64)
}

=== FILE: mappers.dfy ===
/**
 * Package core/models/mappers, files station.go, ranging_mapper.go, station_config.go and
 * cluster.go: entity <-> DTO conversion. The `include` parameter is parsed with
 * HttpDto.ParseIncludes; "cluster" and "stations" nest associations, "meta" adds the
 * timestamps. The package's second FromCluster (cluster_mapper.go) is module ClusterMapper.
 */
module Mappers {
  import opened Wrappers
  import opened Primitives
  import opened CoreModels
  import opened CoreDtos
  import opened HttpDto

  /** The include flags a parameter turns on. */
  predicate Includes(includeParam: Option<string>, flag: string) {
    Has(ParseIncludes(includeParam), flag)
  }

  /* ---------------------------------------------------------------- clusters (cluster.go) */

  /** FromCluster (cluster.go): ID, Name, Description; Stations never filled; meta on request. */
  function FromCluster(cluster: Cluster, includeParam: Option<string>): (r: ClusterDto)
    ensures r.id == cluster.model.id && r.name == cluster.name && r.description == cluster.description
    ensures r.stations.None?
    ensures Includes(includeParam, "meta") ==>
      && r.createdAt == Some(cluster.model.createdAt)
      && r.updatedAt == Some(cluster.model.updatedAt)
      && r.deletedAt == Some(cluster.model.deletedAt)
    ensures !Includes(includeParam, "meta") ==> r.createdAt.None? && r.updatedAt.None? && r.deletedAt.None?
  {
    var includes := ParseIncludes(includeParam);
    var response := ClusterDto(cluster.model.id, cluster.name, cluster.description, None, None, None, None);
    if Has(includes, "meta") then
      response.(createdAt := Some(cluster.model.createdAt),
                updatedAt := Some(cluster.model.updatedAt),
                deletedAt := Some(cluster.model.deletedAt))
    else response
  }

  /** ToCluster: only Name and Description; everything else is the zero value. */
  function ToCluster(dto: ClusterDto): (r: Cluster)
    ensures r.name == dto.name && r.description == dto.description
    ensures r.model == ZeroModel && r.stations == []
  {
    Cluster(ZeroModel, dto.name, dto.description, [])
  }

  /** FromClusterList: one DTO per cluster, in order; nil for an empty list. */
  function FromClusterList(clusters: seq<Cluster>, includeParam: Option<string>): (r: Option<seq<ClusterDto>>)
    ensures r.None? <==> |clusters| == 0
    ensures r.Some? ==> |r.value| == |clusters|
    ensures r.Some? ==> forall i :: 0 <= i < |clusters| ==> r.value[i] == FromCluster(clusters[i], includeParam)
  {
    if |clusters| == 0 then None
    else Some(seq(|clusters|, i requires 0 <= i < |clusters| => FromCluster(clusters[i], includeParam)))
  }

  /** A cluster survives FromCluster then ToCluster in its Name and Description. */
  lemma ClusterRoundTrip(cluster: Cluster, includeParam: Option<string>)
    ensures ToCluster(FromCluster(cluster, includeParam)).name == cluster.name
    ensures ToCluster(FromCluster(cluster, includeParam)).description == cluster.description
  {
  }

  /* ---------------------------------------------------------------- stations (station.go) */

  /** FromStation: ID, MacAddress, Name; the nested cluster (mapped without includes) when
      "cluster" is requested and loaded, the ClusterID otherwise; meta with LastSeen = Uptime. */
  function FromStation(station: Station, includeParam: Option<string>): (r: StationDto)
    ensures r.id == station.model.id && r.macAddress == station.macAddress && r.name == station.name
    ensures r.cluster.Some? <==> Includes(includeParam, "cluster") && station.cluster.Some?
    ensures r.cluster.Some? ==> r.cluster.value == FromCluster(station.cluster.value, None) && r.clusterId.None?
    ensures r.cluster.None? ==> r.clusterId == station.clusterId
    ensures Includes(includeParam, "meta") ==>
      && r.createdAt == Some(station.model.createdAt)
      && r.updatedAt == Some(station.model.updatedAt)
      && r.deletedAt == Some(station.model.deletedAt)
      && r.lastSeen == Some(station.uptime)
    ensures !Includes(includeParam, "meta") ==>
      r.createdAt.None? && r.updatedAt.None? && r.deletedAt.None? && r.lastSeen.None?
  {
    var includes := ParseIncludes(includeParam);
    var response := StationDto(station.model.id, station.macAddress, station.name, None, None, None, None, None, None);
    var withCluster :=
      if Has(includes, "cluster") && station.cluster.Some? then
        response.(cluster := Some(FromCluster(station.cluster.value, None)))
      else response.(clusterId := station.clusterId);
    if Has(includes, "meta") then
      withCluster.(createdAt := Some(station.model.createdAt),
                   updatedAt := Some(station.model.updatedAt),
                   deletedAt := Some(station.model.deletedAt),
                   lastSeen := Some(station.uptime))
    else withCluster
  }

  /** ToStation: only MacAddress, Name and ClusterID; ID and timestamps stay zero. */
  function ToStation(dto: StationDto): (r: Station)
    ensures r.macAddress == dto.macAddress && r.name == dto.name && r.clusterId == dto.clusterId
    ensures r.model == ZeroModel && r.cluster.None? && r.uptime == ZeroTime && r.stationConfig.None?
  {
    Station(ZeroModel, dto.macAddress, dto.name, dto.clusterId, None, ZeroTime, None)
  }

  /** FromStationList: one DTO per station, in order; nil for an empty list. */
  function FromStationList(stations: seq<Station>, includeParam: Option<string>): (r: Option<seq<StationDto>>)
    ensures r.None? <==> |stations| == 0
    ensures r.Some? ==> |r.value| == |stations|
    ensures r.Some? ==> forall i :: 0 <= i < |stations| ==> r.value[i] == FromStation(stations[i], includeParam)
  {
    if |stations| == 0 then None
    else Some(seq(|stations|, i requires 0 <= i < |stations| => FromStation(stations[i], includeParam)))
  }

  /** Without includes, FromStation then ToStation keeps MacAddress, Name and ClusterID. */
  lemma StationRoundTrip(station: Station)
    ensures ToStation(FromStation(station, None)).macAddress == station.macAddress
    ensures ToStation(FromStation(station, None)).name == station.name
    ensures ToStation(FromStation(station, None)).clusterId == station.clusterId
  {
  }

  /** With "cluster" requested and loaded, the DTO carries the nested cluster instead of the ID,
      so converting it back loses the membership. */
  lemma NestedClusterDropsClusterId(station: Station, includeParam: Option<string>)
    requires Includes(includeParam, "cluster") && station.cluster.Some?
    ensures ToStation(FromStation(station, includeParam)).clusterId.None?
  {
  }

  /* ---------------------------------------------------------------- rangings (ranging_mapper.go) */

  /** FromRanging: ID and RawDistance; with "stations" the loaded endpoints are nested (mapped
      without includes) and the IDs left out, otherwise the two IDs are copied; meta on request. */
  function FromRanging(ranging: Ranging, includeParam: Option<string>): (r: RangingDto)
    ensures r.id == ranging.model.id && r.rawDistance == ranging.rawDistance
    ensures Includes(includeParam, "stations") ==>
      && r.sourceId.None? && r.destinationId.None?
      && (r.source.Some? <==> ranging.source.Some?)
      && (r.destination.Some? <==> ranging.destination.Some?)
      && (r.source.Some? ==> r.source.value == FromStation(ranging.source.value, None))
      && (r.destination.Some? ==> r.destination.value == FromStation(ranging.destination.value, None))
    ensures !Includes(includeParam, "stations") ==>
      && r.source.None? && r.destination.None?
      && r.sourceId == ranging.sourceId && r.destinationId == ranging.destinationId
    ensures Includes(includeParam, "meta") ==>
      && r.createdAt == Some(ranging.model.createdAt)
      && r.updatedAt == Some(ranging.model.updatedAt)
      && r.deletedAt == Some(ranging.model.deletedAt)
    ensures !Includes(includeParam, "meta") ==> r.createdAt.None? && r.updatedAt.None? && r.deletedAt.None?
  {
    var includes := ParseIncludes(includeParam);
    var response := RangingDto(ranging.model.id, None, None, None, None, ranging.rawDistance, None, None, None);
    var withStations :=
      if Has(includes, "stations") then
        response.(source := if ranging.source.Some? then Some(FromStation(ranging.source.value, None)) else None,
                  destination := if ranging.destination.Some? then Some(FromStation(ranging.destination.value, None)) else None)
      else response.(sourceId := ranging.sourceId, destinationId := ranging.destinationId);
    if Has(includes, "meta") then
      withStations.(createdAt := Some(ranging.model.createdAt),
                    updatedAt := Some(ranging.model.updatedAt),
                    deletedAt := Some(ranging.model.deletedAt))
    else withStations
  }

  /** FromRangingList: one DTO per ranging, in order; nil for an empty list. */
  function FromRangingList(rangings: seq<Ranging>, includeParam: Option<string>): (r: Option<seq<RangingDto>>)
    ensures r.None? <==> |rangings| == 0
    ensures r.Some? ==> |r.value| == |rangings|
    ensures r.Some? ==> forall i :: 0 <= i < |rangings| ==> r.value[i] == FromRanging(rangings[i], includeParam)
  {
    if |rangings| == 0 then None
    else Some(seq(|rangings|, i requires 0 <= i < |rangings| => FromRanging(rangings[i], includeParam)))
  }

  /* ---------------------------------------------------------------- configurations (station_config.go) */

  /** FromStationConfig: ID, StationID, the mode as a string and the channel; meta on request. */
  function FromStationConfig(config: StationConfiguration, includeParam: Option<string>): (r: StationConfigurationDto)
    ensures r.id == config.model.id && r.stationId == config.stationId
    ensures r.uwbMode == config.uwbMode && r.uwbChannel == config.uwbChannel
    ensures Includes(includeParam, "meta") ==>
      && r.createdAt == Some(config.model.createdAt)
      && r.updatedAt == Some(config.model.updatedAt)
      && r.deletedAt == Some(config.model.deletedAt)
    ensures !Includes(includeParam, "meta") ==> r.createdAt.None? && r.updatedAt.None? && r.deletedAt.None?
  {
    var includes := ParseIncludes(includeParam);
    var response := StationConfigurationDto(config.model.id, config.stationId, config.uwbMode, config.uwbChannel, None, None, None);
    if Has(includes, "meta") then
      response.(createdAt := Some(config.model.createdAt),
                updatedAt := Some(config.model.updatedAt),
                deletedAt := Some(config.model.deletedAt))
    else response
  }

  /** ToStationConfig: StationID, mode and channel; ID and the preamble fields stay zero. */
  function ToStationConfig(dto: StationConfigurationDto): (r: StationConfiguration)
    ensures r.stationId == dto.stationId && r.uwbMode == dto.uwbMode && r.uwbChannel == dto.uwbChannel
    ensures r.model == ZeroModel && r.station.None? && r.uwbPreambleCode == 0 && r.uwbPreambleLen == ""
  {
    StationConfiguration(ZeroModel, dto.stationId, None, dto.uwbMode, dto.uwbChannel, 0, "")
  }

  /** FromStationConfigList: allocated with the input's length (so never nil) and index-aligned. */
  function FromStationConfigList(configs: seq<StationConfiguration>, includeParam: Option<string>): (r: seq<StationConfigurationDto>)
    ensures |r| == |configs|
    ensures forall i :: 0 <= i < |configs| ==> r[i] == FromStationConfig(configs[i], includeParam)
  {
    seq(|configs|, i requires 0 <= i < |configs| => FromStationConfig(configs[i], includeParam))
  }

  /** StationID, mode and channel survive the round trip; the ID does not. */
  lemma StationConfigRoundTrip(config: StationConfiguration, includeParam: Option<string>)
    ensures ToStationConfig(FromStationConfig(config, includeParam)).stationId == config.stationId
    ensures ToStationConfig(FromStationConfig(config, includeParam)).uwbMode == config.uwbMode
    ensures ToStationConfig(FromStationConfig(config, includeParam)).uwbChannel == config.uwbChannel
    ensures ToStationConfig(FromStationConfig(config, includeParam)).model.id == 0
  {
  }
}

=== FILE: memory_cache.dfy ===
/**
 * MemoryCache: a generic key/value store where every entry carries an expiry instant and a
 * last-access instant. Get hits up to and including the expiry instant and refreshes the
 * last access; Set evicts one least-recently-accessed entry first whenever the store is at
 * (or above) its item limit; a periodic sweep drops expired entries. The clock is explicit:
 * every instant is a count of nanoseconds, `now` is passed in, and `ttl` is a Go Duration.
 */
module MemoryCache {
  import opened Wrappers
  import opened RWMutex

  datatype Item<V> = Item(value: V, expiration: int, lastAccess: int)

  datatype Cache<K, V> = Cache(data: map<K, Item<V>>, ttl: int, maxItems: int)

  /** NewMemoryCache: an empty store with the given limits. */
  function NewCache<K, V>(ttl: int, maxItems: int): (c: Cache<K, V>)
    ensures c.data == map[] && c.ttl == ttl && c.maxItems == maxItems
  {
    Cache(map[], ttl, maxItems)
  }

  /** time.Now().After(expiration). */
  predicate Expired<V>(item: Item<V>, now: nat) {
    now > item.expiration
  }

  /** Get: a miss when the key is absent or expired; a hit returns the value and moves that
      entry's last access to `now`. */
  function Get<K, V>(c: Cache<K, V>, key: K, now: nat): (r: (Cache<K, V>, Option<V>))
    ensures r.1.Some? <==> key in c.data && now <= c.data[key].expiration
    ensures r.1.Some? ==> r.1.value == c.data[key].value
    ensures r.1.None? ==> r.0 == c
    ensures r.0.ttl == c.ttl && r.0.maxItems == c.maxItems && r.0.data.Keys == c.data.Keys
    ensures r.1.Some? ==>
      && r.0.data[key].value == c.data[key].value
      && r.0.data[key].expiration == c.data[key].expiration
      && r.0.data[key].lastAccess == now
    ensures forall k :: k in c.data && k != key ==> r.0.data[k] == c.data[k]
  {
    if key !in c.data || Expired(c.data[key], now) then (c, None)
    else
      var item := c.data[key];
      (c.(data := c.data[key := item.(lastAccess := now)]), Some(item.value))
  }

  /** Delete removes the key and nothing else. */
  function Delete<K, V>(c: Cache<K, V>, key: K): (r: Cache<K, V>)
    ensures r.data.Keys == c.data.Keys - {key}
    ensures forall k :: k in r.data ==> r.data[k] == c.data[k]
    ensures r.ttl == c.ttl && r.maxItems == c.maxItems
  {
    c.(data := map k | k in c.data && k != key :: c.data[k])
  }

  /** Clear leaves an empty store with the same limits. */
  function Clear<K, V>(c: Cache<K, V>): (r: Cache<K, V>)
    ensures |r.data| == 0
    ensures r.ttl == c.ttl && r.maxItems == c.maxItems
  {
    c.(data := map[])
  }

  /** `k` is an entry whose last access is no later than any other entry's. */
  predicate IsLruVictim<K, V>(data: map<K, Item<V>>, k: K) {
    k in data && forall k' :: k' in data ==> data[k].lastAccess <= data[k'].lastAccess
  }

  /** evictLRU: a linear scan for the oldest last access, in Go's unspecified map order; ties
      go to whichever key the scan met first, so any minimal key may be the one removed. */
  method EvictLRU<K, V>(data: map<K, Item<V>>) returns (data': map<K, Item<V>>, victim: Option<K>)
    ensures |data| == 0 ==> victim.None? && data' == data
    ensures |data| > 0 ==> victim.Some? && IsLruVictim(data, victim.value)
    ensures victim.Some? ==> data' == data - {victim.value} && |data'| == |data| - 1
  {
    var oldestKey: Option<K> := None;
    var oldestTime := 0;
    var unvisited := data.Keys;
    while unvisited != {}
      invariant unvisited <= data.Keys
      invariant oldestKey.None? <==> unvisited == data.Keys
      invariant oldestKey.Some? ==>
        && oldestKey.value in data && oldestKey.value !in unvisited
        && oldestTime == data[oldestKey.value].lastAccess
        && forall k :: k in data && k !in unvisited ==> oldestTime <= data[k].lastAccess
      decreases unvisited
    {
      var k :| k in unvisited;
      if oldestKey.None? || data[k].lastAccess < oldestTime {
        oldestKey := Some(k);
        oldestTime := data[k].lastAccess;
      }
      unvisited := unvisited - {k};
    }
    if oldestKey.Some? {
      data' := data - {oldestKey.value};
      victim := oldestKey;
    } else {
      assert data.Keys == {};
      data' := data;
      victim := None;
    }
  }

  /** Set: at or above the item limit, evict first (even when the key is already present),
      then store the value with expiry now+ttl and last access now. `evicted` reports the
      key the eviction removed. */
  method Set<K, V>(c: Cache<K, V>, key: K, value: V, now: nat) returns (c': Cache<K, V>, evicted: Option<K>)
    ensures c'.ttl == c.ttl && c'.maxItems == c.maxItems
    ensures key in c'.data && c'.data[key] == Item(value, now + c.ttl, now)
    ensures evicted.Some? <==> |c.data| >= c.maxItems && |c.data| > 0
    ensures evicted.Some? ==> IsLruVictim(c.data, evicted.value)
    ensures evicted.Some? ==> c'.data == (c.data - {evicted.value})[key := Item(value, now + c.ttl, now)]
    ensures evicted.None? ==> c'.data == c.data[key := Item(value, now + c.ttl, now)]
    ensures c.maxItems >= 1 && |c.data| <= c.maxItems ==> |c'.data| <= c.maxItems
    ensures c.maxItems <= 0 && |c.data| <= 1 ==> |c'.data| == 1
  {
    var data := c.data;
    evicted := None;
    if |data| >= c.maxItems {
      data, evicted := EvictLRU(data);
    }
    var item := Item(value, now + c.ttl, now);
    c' := c.(data := data[key := item]);
    if evicted.Some? {
      assert |data| == |c.data| - 1;
      assert |data[key := item]| <= |data| + 1;
    } else if |c.data| >= c.maxItems {
      assert |c.data| == 0;
    }
  }

  /** One tick of the cleanup loop: drop exactly the entries whose expiry is before `now`. */
  method Sweep<K, V>(c: Cache<K, V>, now: nat) returns (c': Cache<K, V>)
    ensures c'.ttl == c.ttl && c'.maxItems == c.maxItems
    ensures forall k :: k in c'.data <==> k in c.data && !Expired(c.data[k], now)
    ensures forall k :: k in c'.data ==> c'.data[k] == c.data[k]
  {
    var data := c.data;
    var unvisited := c.data.Keys;
    while unvisited != {}
      invariant unvisited <= c.data.Keys
      invariant forall k :: k in data <==> k in c.data && (k in unvisited || !Expired(c.data[k], now))
      invariant forall k :: k in data ==> data[k] == c.data[k]
      decreases unvisited
    {
      var k :| k in unvisited;
      if Expired(data[k], now) {
        data := data - {k};
      }
      unvisited := unvisited - {k};
    }
    c' := c.(data := data);
  }

  /* ---------------------------------------------------------------- locking */

  /** The lock calls Get makes: RLock, and on a live entry a Lock while that read lock is
      still held (its RUnlock is deferred to the return); deferred calls run last-in first. */
  function GetLockTrace(hit: bool): (ops: seq<LockOp>)
    ensures |ops| >= 2 && ops[0] == RLock && ops[|ops| - 1] == RUnlock
    ensures Lock in ops <==> hit
    ensures forall i :: 0 <= i < |ops| && ops[i] == Lock ==> 0 < i < |ops| - 1
  {
    if hit then [RLock, Lock, Unlock, RUnlock] else [RLock, RUnlock]
  }

  /** As written, every Get of a live entry waits forever for its own read lock. */
  lemma GetHitSelfDeadlocks()
    ensures Run(Free, GetLockTrace(true), 0) == Blocked(1)
    ensures Run(Free, GetLockTrace(false), 0) == Done(Free)
  {
    UpgradeBlocks(Free, [Unlock, RUnlock], 0);
  }

  /** Releasing the read lock before taking the write lock lets the refresh complete; the
      atomic Get above is the behaviour of this order. */
  function GetLockTraceReleasingFirst(hit: bool): (ops: seq<LockOp>)
    ensures Run(Free, ops, 0) == Done(Free)
  {
    ReleaseBeforeUpgradeCompletes(0);
    if hit then [RLock, RUnlock, Lock, Unlock] else [RLock, RUnlock]
  }

  /* ---------------------------------------------------------------- scenarios */

  /** With an item limit of one, `Set(A,1); Set(B,2)` evicts A: Get(A) misses, Get(B) hits. */
  method CapacityOneEvictsOldest() returns (a: Option<int>, b: Option<int>)
    ensures a == None && b == Some(2)
  {
    var c := NewCache<string, int>(1000, 1);
    var ev;
    c, ev := Set(c, "A", 1, 10);
    c, ev := Set(c, "B", 2, 20);
    var r := Get(c, "A", 30);
    a := r.1;
    r := Get(r.0, "B", 30);
    b := r.1;
  }

  /** A Get refreshes the entry, so the next eviction spares it and takes the other one. */
  method ReadEntrySurvivesEviction() returns (a: Option<int>, b: Option<int>, cc: Option<int>)
    ensures a == Some(1) && b == None && cc == Some(3)
  {
    var c := NewCache<string, int>(1000, 2);
    var ev;
    c, ev := Set(c, "A", 1, 10);
    c, ev := Set(c, "B", 2, 20);
    var r := Get(c, "A", 30);
    c := r.0;
    c, ev := Set(c, "C", 3, 40);
    assert ev == Some("B");
    r := Get(c, "A", 50);
    a := r.1;
    r := Get(r.0, "B", 50);
    b := r.1;
    r := Get(r.0, "C", 50);
    cc := r.1;
  }

  /** An entry is still returned at exactly its expiry instant and missed one tick later. */
  lemma ExpiryBoundary<K, V>(c: Cache<K, V>, key: K, now: nat)
    requires key in c.data && c.data[key].expiration == now
    ensures Get(c, key, now).1 == Some(c.data[key].value)
    ensures Get(c, key, now + 1).1 == None
  {
  }
}

=== FILE: mqtt_registry.dfy ===
/**
 * The MQTT subscription registry: an append-only list of subscriptions, each declaring
 * topic patterns, and the topic-filter predicate that decides which subscriptions
 * receive an inbound topic. The `#` branch is modelled as the code has it: it only
 * applies when the pattern starts with "/", and then as a character-level prefix test.
 */
module MqttRegistry {
  import opened GoStrings

  /** A registered handler, identified by `id`, with the patterns its GetTopics returns. */
  datatype Subscription = Subscription(id: nat, patterns: seq<string>)

  datatype Registry = Registry(subscriptions: seq<Subscription>)

  function NewRegistry(): (r: Registry)
    ensures |r.subscriptions| == 0
  {
    Registry([])
  }

  /** Register appends at the end, keeps earlier entries and never deduplicates. */
  function Register(r: Registry, s: Subscription): (r': Registry)
    ensures |r'.subscriptions| == |r.subscriptions| + 1
    ensures r'.subscriptions[..|r.subscriptions|] == r.subscriptions
    ensures r'.subscriptions[|r.subscriptions|] == s
  {
    Registry(r.subscriptions + [s])
  }

  /* ---------------------------------------------------------------- matching */

  /** `+` matches any one segment (also an empty one); every other segment must be equal. */
  predicate SegmentMatches(patternSegment: string, topicSegment: string) {
    patternSegment == "+" || patternSegment == topicSegment
  }

  predicate SegmentsMatch(ps: seq<string>, ts: seq<string>) {
    |ps| == |ts| && forall i :: 0 <= i < |ps| ==> SegmentMatches(ps[i], ts[i])
  }

  /** TopicMatches(pattern, topic), branch for branch. */
  predicate TopicMatches(pattern: string, topic: string)
    ensures pattern == topic ==> TopicMatches(pattern, topic)
    ensures TopicMatches(pattern, topic) && pattern != topic && !HasSuffix(pattern, "#") ==>
      |Split(pattern, '/')| == |Split(topic, '/')|
    ensures TopicMatches(pattern, topic) && pattern != topic && HasSuffix(pattern, "#") ==>
      HasPrefix(pattern, "/")
  {
    if pattern == topic then true
    else if HasSuffix(pattern, "#") then
      var prefix := pattern[..|pattern| - 1];
      if !HasPrefix(prefix, "/") then false
      else HasPrefix(topic, prefix)
    else
      var patternSegments := Split(pattern, '/');
      var topicSegments := Split(topic, '/');
      if |patternSegments| != |topicSegments| then false
      else MatchLoop(patternSegments, topicSegments, 0)
  }

  /** The per-segment loop of TopicMatches, from index i on. */
  predicate MatchLoop(ps: seq<string>, ts: seq<string>, i: nat)
    requires |ps| == |ts| && i <= |ps|
    decreases |ps| - i
  {
    if i == |ps| then true
    else if ps[i] == "+" then MatchLoop(ps, ts, i + 1)
    else if ps[i] != ts[i] && ps[i] != "+" then false
    else MatchLoop(ps, ts, i + 1)
  }

  lemma {:induction false} MatchLoopMeansSegmentsMatch(ps: seq<string>, ts: seq<string>, i: nat)
    requires |ps| == |ts| && i <= |ps|
    ensures MatchLoop(ps, ts, i) <==> forall j :: i <= j < |ps| ==> SegmentMatches(ps[j], ts[j])
    decreases |ps| - i
  {
    if i < |ps| {
      MatchLoopMeansSegmentsMatch(ps, ts, i + 1);
    }
  }

  /** Identical strings always match. */
  lemma MatchesReflexive(s: string)
    ensures TopicMatches(s, s)
  {
  }

  /** A pattern ending in `#` matches a different topic iff the text before the final `#`
      starts with "/" and is a character prefix of the topic. */
  lemma HashPatternMatches(pattern: string, topic: string)
    requires HasSuffix(pattern, "#") && pattern != topic
    ensures TopicMatches(pattern, topic) <==>
      var prefix := pattern[..|pattern| - 1];
      HasPrefix(prefix, "/") && HasPrefix(topic, prefix)
  {
  }

  /** So a relative pattern such as `a/#`, or `#` alone, matches only itself. */
  lemma RelativeHashMatchesOnlyItself(pattern: string, topic: string)
    requires HasSuffix(pattern, "#") && (|pattern| == 1 || pattern[0] != '/')
    ensures TopicMatches(pattern, topic) <==> pattern == topic
  {
  }

  /** Without a trailing `#`, a different topic matches iff it splits on "/" into as many
      segments as the pattern and every segment matches. */
  lemma SegmentPatternMatches(pattern: string, topic: string)
    requires !HasSuffix(pattern, "#") && pattern != topic
    ensures TopicMatches(pattern, topic) <==> SegmentsMatch(Split(pattern, '/'), Split(topic, '/'))
  {
    var ps, ts := Split(pattern, '/'), Split(topic, '/');
    if |ps| == |ts| {
      MatchLoopMeansSegmentsMatch(ps, ts, 0);
    }
  }

  /** A pattern with no `+` segment and no trailing `#` matches only the identical topic. */
  lemma LiteralPatternMatchesOnlyItself(pattern: string, topic: string)
    requires !HasSuffix(pattern, "#") && "+" !in Split(pattern, '/')
    ensures TopicMatches(pattern, topic) <==> pattern == topic
  {
    if pattern != topic && TopicMatches(pattern, topic) {
      SegmentPatternMatches(pattern, topic);
      var ps, ts := Split(pattern, '/'), Split(topic, '/');
      assert ps == ts by {
        forall i | 0 <= i < |ps| ensures ps[i] == ts[i] {
          assert SegmentMatches(ps[i], ts[i]);
          assert ps[i] != "+";
        }
      }
      SplitInjective(pattern, topic, '/');
    }
  }

  /** Splitting a path whose parts carry no "/". */
  lemma SplitPath3(a: string, b: string, c: string)
    requires '/' !in a && '/' !in b && '/' !in c
    ensures Split(a + "/" + b + "/" + c, '/') == [a, b, c]
  {
    SplitWithoutSep(a, '/');
    SplitSnoc(a, b, '/');
    SplitSnoc(a + "/" + b, c, '/');
  }

  lemma SplitPath4(a: string, b: string, c: string, d: string)
    requires '/' !in a && '/' !in b && '/' !in c && '/' !in d
    ensures Split(a + "/" + b + "/" + c + "/" + d, '/') == [a, b, c, d]
  {
    SplitPath3(a, b, c);
    SplitSnoc(a + "/" + b + "/" + c, d, '/');
  }

  /** `a/+/c` matches `a/b/c`: `+` stands for the one middle segment. */
  lemma PlusMatchesOneSegment()
    ensures TopicMatches("a/+/c", "a/b/c")
  {
    SplitPath3("a", "+", "c");
    assert "a" + "/" + "+" + "/" + "c" == "a/+/c";
    SplitPath3("a", "b", "c");
    assert "a" + "/" + "b" + "/" + "c" == "a/b/c";
    assert "a/+/c"[2] == '+';
    PlusMiddleMatches("a/+/c", "a/b/c", "a", "b", "c");
  }

  /** `a/+/c` does not match `a/b/x/c`: `+` stands for exactly one segment. */
  lemma PlusRejectsDeeperTopic()
    ensures !TopicMatches("a/+/c", "a/b/x/c")
  {
    SplitPath3("a", "+", "c");
    assert "a" + "/" + "+" + "/" + "c" == "a/+/c";
    SplitPath4("a", "b", "x", "c");
    assert "a" + "/" + "b" + "/" + "x" + "/" + "c" == "a/b/x/c";
    assert "a/+/c"[4] == 'c';
    SegmentPatternMatches("a/+/c", "a/b/x/c");
  }

  lemma PlusMatchesEmptySegment()
    ensures TopicMatches("dev/+/raw", "dev//raw")
  {
    SplitPath3("dev", "+", "raw");
    assert "dev" + "/" + "+" + "/" + "raw" == "dev/+/raw";
    SplitPath3("dev", "", "raw");
    assert "dev" + "/" + "" + "/" + "raw" == "dev//raw";
    assert "dev/+/raw"[8] == 'w';
    PlusMiddleMatches("dev/+/raw", "dev//raw", "dev", "", "raw");
  }

  /** A three-segment filter with `+` in the middle matches any topic that agrees with it on
      the outer segments. */
  lemma PlusMiddleMatches(pattern: string, topic: string, a: string, b: string, c: string)
    requires Split(pattern, '/') == [a, "+", c] && Split(topic, '/') == [a, b, c]
    requires pattern != topic && !HasSuffix(pattern, "#")
    ensures TopicMatches(pattern, topic)
  {
    SegmentPatternMatches(pattern, topic);
    var ps, ts := Split(pattern, '/'), Split(topic, '/');
    assert SegmentsMatch(ps, ts) by {
      forall i | 0 <= i < |ps| ensures SegmentMatches(ps[i], ts[i]) {
        assert ps[i] == ts[i] || ps[i] == "+";
      }
    }
  }


  /** Literal segments must agree: `dev/+/raw` does not match `other/42/raw`. */
  lemma PlusKeepsLiteralSegments()
    ensures !TopicMatches("dev/+/raw", "other/42/raw")
  {
    DevRawSegments();
    LiteralSegmentMismatch("dev/+/raw", "other/42/raw", 0);
  }

  lemma DevRawSegments()
    ensures Split("dev/+/raw", '/') == ["dev", "+", "raw"] && !HasSuffix("dev/+/raw", "#")
    ensures Split("other/42/raw", '/') == ["other", "42", "raw"] && "dev/+/raw" != "other/42/raw"
  {
    SplitPath3("dev", "+", "raw");
    assert "dev" + "/" + "+" + "/" + "raw" == "dev/+/raw";
    SplitPath3("other", "42", "raw");
    assert "other" + "/" + "42" + "/" + "raw" == "other/42/raw";
    assert "dev/+/raw"[8] == 'w';
    assert "dev/+/raw"[0] != "other/42/raw"[0];
  }

  /** A non-`#` filter fails to match a topic with as many segments when some literal
      segment of the filter differs from the topic's. */
  lemma LiteralSegmentMismatch(pattern: string, topic: string, i: nat)
    requires pattern != topic && !HasSuffix(pattern, "#")
    requires |Split(pattern, '/')| == |Split(topic, '/')| && i < |Split(pattern, '/')|
    requires Split(pattern, '/')[i] != "+" && Split(pattern, '/')[i] != Split(topic, '/')[i]
    ensures !TopicMatches(pattern, topic)
  {
    SegmentPatternMatches(pattern, topic);
    assert !SegmentMatches(Split(pattern, '/')[i], Split(topic, '/')[i]);
  }

  /** Multi-level wildcard as written: the relative `a/#` reaches no deeper topic, while a
      pattern starting with "/" acts as a character prefix. */
  lemma HashExamples()
    ensures !TopicMatches("a/#", "a/b/c")
    ensures !TopicMatches("a/#", "x/y")
    ensures TopicMatches("/a/#", "/a/b/c")
    ensures TopicMatches("/a#", "/ab")
  {
    assert "a/#"[0] == 'a' && "a/#"[2..] == "#";
    RelativeHashMatchesOnlyItself("a/#", "a/b/c");
    RelativeHashMatchesOnlyItself("a/#", "x/y");
    assert "/a/#"[3..] == "#" && "/a/#"[..3] == "/a/" && "/a/b/c"[..3] == "/a/";
    HashPatternMatches("/a/#", "/a/b/c");
    assert "/a#"[2..] == "#" && "/a#"[..2] == "/a" && "/ab"[..2] == "/a";
    HashPatternMatches("/a#", "/ab");
  }

  /* ---------------------------------------------------------------- lookups */

  /** True when at least one of the patterns matches the topic. */
  predicate AnyPatternMatches(patterns: seq<string>, topic: string) {
    exists p :: p in patterns && TopicMatches(p, topic)
  }

  /** Reference definition: the matching subscriptions, in registration order. */
  function Matching(subs: seq<Subscription>, topic: string): seq<Subscription>
  {
    if |subs| == 0 then []
    else
      var head := if AnyPatternMatches(subs[0].patterns, topic) then [subs[0]] else [];
      head + Matching(subs[1..], topic)
  }

  /** Every pattern of every subscription, in registration order. */
  function AllPatterns(subs: seq<Subscription>): seq<string>
  {
    if |subs| == 0 then [] else subs[0].patterns + AllPatterns(subs[1..])
  }

  lemma {:induction false} AllPatternsAppend(subs: seq<Subscription>, s: Subscription)
    ensures AllPatterns(subs + [s]) == AllPatterns(subs) + s.patterns
  {
    if |subs| == 0 {
      assert subs + [s] == [s];
    } else {
      assert (subs + [s])[1..] == subs[1..] + [s];
      AllPatternsAppend(subs[1..], s);
    }
  }

  lemma {:induction false} MatchingAppend(subs: seq<Subscription>, s: Subscription, topic: string)
    ensures Matching(subs + [s], topic) ==
      Matching(subs, topic) + (if AnyPatternMatches(s.patterns, topic) then [s] else [])
  {
    var tail := if AnyPatternMatches(s.patterns, topic) then [s] else [];
    if |subs| == 0 {
      assert subs + [s] == [s];
      assert Matching([s], topic) == tail + Matching([], topic);
    } else {
      var head := if AnyPatternMatches(subs[0].patterns, topic) then [subs[0]] else [];
      assert (subs + [s])[0] == subs[0];
      assert (subs + [s])[1..] == subs[1..] + [s];
      assert Matching(subs + [s], topic) == head + Matching(subs[1..] + [s], topic);
      MatchingAppend(subs[1..], s, topic);
      assert Matching(subs, topic) == head + Matching(subs[1..], topic);
    }
  }

  /** GetAllTopics: the concatenation of every subscription's patterns, duplicates kept. */
  method GetAllTopics(r: Registry) returns (topics: seq<string>)
    ensures topics == AllPatterns(r.subscriptions)
  {
    topics := [];
    var i := 0;
    while i < |r.subscriptions|
      invariant 0 <= i <= |r.subscriptions|
      invariant topics == AllPatterns(r.subscriptions[..i])
    {
      assert r.subscriptions[..i + 1] == r.subscriptions[..i] + [r.subscriptions[i]];
      AllPatternsAppend(r.subscriptions[..i], r.subscriptions[i]);
      topics := topics + r.subscriptions[i].patterns;
      i := i + 1;
    }
    assert r.subscriptions[..i] == r.subscriptions;
  }

  /** GetAllSubscriptions: each subscription is matched pattern by pattern, added on the first
      match and then left (`break`), so it appears once per registration. */
  method GetAllSubscriptions(r: Registry, topic: string) returns (handlers: seq<Subscription>)
    ensures handlers == Matching(r.subscriptions, topic)
  {
    handlers := [];
    var i := 0;
    while i < |r.subscriptions|
      invariant 0 <= i <= |r.subscriptions|
      invariant handlers == Matching(r.subscriptions[..i], topic)
    {
      var subscription := r.subscriptions[i];
      var found := false;
      var j := 0;
      while j < |subscription.patterns| && !found
        invariant 0 <= j <= |subscription.patterns|
        invariant found <==> AnyPatternMatches(subscription.patterns[..j], topic)
      {
        assert subscription.patterns[..j + 1] == subscription.patterns[..j] + [subscription.patterns[j]];
        if TopicMatches(subscription.patterns[j], topic) {
          found := true;
        }
        j := j + 1;
      }
      assert found <==> AnyPatternMatches(subscription.patterns, topic) by {
        if !found {
          assert subscription.patterns[..j] == subscription.patterns;
        } else {
          var p :| p in subscription.patterns[..j] && TopicMatches(p, topic);
          assert p in subscription.patterns;
        }
      }
      assert r.subscriptions[..i + 1] == r.subscriptions[..i] + [subscription];
      MatchingAppend(r.subscriptions[..i], subscription, topic);
      if found {
        handlers := handlers + [subscription];
      }
      i := i + 1;
    }
    assert r.subscriptions[..i] == r.subscriptions;
  }

  /** A topic lists exactly the patterns some registered subscription declares. */
  lemma {:induction false} AllPatternsMembership(subs: seq<Subscription>, t: string)
    ensures t in AllPatterns(subs) <==> exists k :: 0 <= k < |subs| && t in subs[k].patterns
  {
    if |subs| > 0 {
      AllPatternsMembership(subs[1..], t);
      if t in AllPatterns(subs[1..]) {
        var k :| 0 <= k < |subs[1..]| && t in subs[1..][k].patterns;
        assert t in subs[k + 1].patterns;
      }
      if exists k :: 0 <= k < |subs| && t in subs[k].patterns {
        var k :| 0 <= k < |subs| && t in subs[k].patterns;
        if k > 0 {
          assert t in subs[1..][k - 1].patterns;
        }
      }
    }
  }

  /** Registering a subscription adds exactly its patterns at the end of GetAllTopics. */
  lemma RegisterExtendsTopics(r: Registry, s: Subscription)
    ensures AllPatterns(Register(r, s).subscriptions) == AllPatterns(r.subscriptions) + s.patterns
  {
    AllPatternsAppend(r.subscriptions, s);
  }

  /** GetAllSubscriptions returns each subscription as many times as it was registered when one
      of its patterns matches, and never otherwise. */
  lemma {:induction false} MatchingMultiplicity(subs: seq<Subscription>, topic: string, s: Subscription)
    ensures multiset(Matching(subs, topic))[s] ==
      (if AnyPatternMatches(s.patterns, topic) then multiset(subs)[s] else 0)
  {
    if |subs| > 0 {
      MatchingMultiplicity(subs[1..], topic, s);
      assert subs == [subs[0]] + subs[1..];
    }
  }

  /** Registration order is kept: the result is a subsequence of the registrations. */
  lemma {:induction false} MatchingIsSubsequence(subs: seq<Subscription>, topic: string)
    ensures |Matching(subs, topic)| <= |subs|
    ensures forall k :: 0 <= k < |Matching(subs, topic)| ==>
      Matching(subs, topic)[k] in subs && AnyPatternMatches(Matching(subs, topic)[k].patterns, topic)
  {
    if |subs| > 0 {
      MatchingIsSubsequence(subs[1..], topic);
    }
  }

  /** A subscription registered after others does not disturb their results. */
  lemma RegisterExtendsMatches(r: Registry, s: Subscription, topic: string)
    ensures Matching(Register(r, s).subscriptions, topic) ==
      Matching(r.subscriptions, topic) + (if AnyPatternMatches(s.patterns, topic) then [s] else [])
  {
    MatchingAppend(r.subscriptions, s, topic);
  }
}

=== FILE: primitives.dfy ===
/**
 * Values the model treats as opaque: time.Time instants, gorm.DeletedAt, float64 bit patterns,
 * and the embedded gorm.Model (ID plus the three timestamps).
 */
module Primitives {
  import opened Wrappers

  /** A time.Time, kept abstract: only equality of instants matters to the mappers. */
  datatype Timestamp = Timestamp(nanos: int)

  /** gorm.DeletedAt (a nullable time). */
  datatype DeletedAt = DeletedAt(at: Option<Timestamp>)

  /** A float64, kept as its IEEE-754 bit pattern; no arithmetic is modelled. */
  datatype Float64 = Float64(bits: bv64)

  type Uint8 = n: nat | n < 256

  /** gorm.Model: the numeric ID and the three bookkeeping timestamps. */
  datatype GormModel = GormModel(id: nat, createdAt: Timestamp, updatedAt: Timestamp, deletedAt: DeletedAt)

  const ZeroTime := Timestamp(0)

  /** The zero gorm.Model a freshly built entity carries: ID 0 and zero timestamps. */
  const ZeroModel := GormModel(0, ZeroTime, ZeroTime, DeletedAt(None))

  const ZeroFloat := Float64(0)
}

=== FILE: ranging_cache.dfy ===
/**
 * infrastructure/cache (ranging_cache.go, cache_manager.go): a MemoryCache of the latest
 * ranging per (source MAC, destination MAC) pair, keyed by the two MACs joined with ':'.
 */
module RangingCache {
  import opened Wrappers
  import opened GoStrings
  import opened CoreModels
  import MemoryCache

  type Cache = MemoryCache.Cache<string, Ranging>

  /** One minute in nanoseconds and the item limit the cache manager uses. */
  const DefaultTtl: int := 60_000_000_000
  const DefaultMaxItems: int := 5000

  function NewRangingCache(ttl: int, maxItems: int): (c: Cache)
    ensures c.data == map[] && c.ttl == ttl && c.maxItems == maxItems
  {
    MemoryCache.NewCache(ttl, maxItems)
  }

  /** NewCacheManager: the single ranging cache with a one-minute TTL and 5000 items. */
  function NewCacheManager(): (c: Cache)
    ensures c.data == map[] && c.ttl == 60_000_000_000 && c.maxItems == 5000
  {
    NewRangingCache(DefaultTtl, DefaultMaxItems)
  }

  /** getCombinedKey: the two MACs joined with ':'. */
  function CombinedKey(sourceMac: string, destinationMac: string): (k: string)
    ensures k == Join([sourceMac, destinationMac], [':'])
  {
    sourceMac + ":" + destinationMac
  }

  /** A key built from MACs without ':' splits back into exactly those two MACs. */
  lemma CombinedKeySplits(sourceMac: string, destinationMac: string)
    requires ':' !in sourceMac && ':' !in destinationMac
    ensures Split(CombinedKey(sourceMac, destinationMac), ':') == [sourceMac, destinationMac]
  {
    SplitTwo(sourceMac, destinationMac, ':');
  }

  /** MAC addresses are written with ':' themselves, so the key alone does not tell the pair
      apart: two different pairs can share one cache slot. */
  lemma CombinedKeyCollides()
    ensures CombinedKey("a:b", "c") == CombinedKey("a", "b:c")
  {
  }

  /** CombinedKey is injective on MACs without ':'. */
  lemma CombinedKeyInjective(s1: string, d1: string, s2: string, d2: string)
    requires ':' !in s1 && ':' !in d1 && ':' !in s2 && ':' !in d2
    requires CombinedKey(s1, d1) == CombinedKey(s2, d2)
    ensures s1 == s2 && d1 == d2
  {
    CombinedKeySplits(s1, d1);
    CombinedKeySplits(s2, d2);
  }

  /** GetBySourceDestination: the cache's Get under the combined key. */
  function GetBySourceDestination(c: Cache, sourceMac: string, destinationMac: string, now: nat): (r: (Cache, Option<Ranging>))
    ensures r.1.Some? <==>
      CombinedKey(sourceMac, destinationMac) in c.data && now <= c.data[CombinedKey(sourceMac, destinationMac)].expiration
    ensures r.1.Some? ==> r.1.value == c.data[CombinedKey(sourceMac, destinationMac)].value
    ensures r.1.None? ==> r.0 == c
  {
    MemoryCache.Get(c, CombinedKey(sourceMac, destinationMac), now)
  }

  /** The key Set files a ranging under, when it has both endpoints loaded. */
  function RangingKey(ranging: Ranging): (k: Option<string>)
    ensures k.Some? <==> ranging.source.Some? && ranging.destination.Some?
    ensures k.Some? ==> k.value == CombinedKey(ranging.source.value.macAddress, ranging.destination.value.macAddress)
  {
    if ranging.source.None? || ranging.destination.None? then None
    else Some(CombinedKey(ranging.source.value.macAddress, ranging.destination.value.macAddress))
  }

  /** Set: a nil ranging or one without both endpoints is ignored; otherwise a copy is stored
      under the endpoints' combined key. */
  method Set(c: Cache, ranging: Option<Ranging>, now: nat) returns (c': Cache)
    ensures ranging.None? || RangingKey(ranging.value).None? ==> c' == c
    ensures ranging.Some? && RangingKey(ranging.value).Some? ==>
      var key := RangingKey(ranging.value).value;
      key in c'.data && c'.data[key] == MemoryCache.Item(ranging.value, now + c.ttl, now)
    ensures ranging.Some? && RangingKey(ranging.value).Some? ==>
      var key := RangingKey(ranging.value).value;
      var item := MemoryCache.Item(ranging.value, now + c.ttl, now);
      if |c.data| < c.maxItems || |c.data| == 0 then c'.data == c.data[key := item]
      else exists v :: MemoryCache.IsLruVictim(c.data, v) && c'.data == (c.data - {v})[key := item]
    ensures c'.ttl == c.ttl && c'.maxItems == c.maxItems
    ensures c.maxItems >= 1 && |c.data| <= c.maxItems ==> |c'.data| <= c.maxItems
  {
    if ranging.None? || ranging.value.source.None? || ranging.value.destination.None? {
      return c;
    }
    var rangingCopy := ranging.value;
    var key := CombinedKey(rangingCopy.source.value.macAddress, rangingCopy.destination.value.macAddress);
    var evicted;
    c', evicted := MemoryCache.Set(c, key, rangingCopy, now);
  }

  /** Clear: drops every entry. */
  function Clear(c: Cache): (r: Cache)
    ensures |r.data| == 0 && r.ttl == c.ttl && r.maxItems == c.maxItems
  {
    MemoryCache.Clear(c)
  }

  /** ClearAll of the cache manager clears its one cache. */
  function ClearAll(c: Cache): (r: Cache)
    ensures |r.data| == 0 && r.ttl == c.ttl && r.maxItems == c.maxItems
  {
    Clear(c)
  }

  /** Storing a ranging and reading it back by its endpoints' MACs, within the TTL, returns it. */
  method SetThenGet(c: Cache, ranging: Ranging, now: nat, later: nat) returns (found: Option<Ranging>)
    requires ranging.source.Some? && ranging.destination.Some?
    requires now <= later <= now + c.ttl
    ensures found == Some(ranging)
  {
    var c' := Set(c, Some(ranging), now);
    var r := GetBySourceDestination(c', ranging.source.value.macAddress, ranging.destination.value.macAddress, later);
    found := r.1;
  }

  /** Past the TTL the same read misses. */
  method SetThenGetExpired(c: Cache, ranging: Ranging, now: nat, later: nat) returns (found: Option<Ranging>)
    requires ranging.source.Some? && ranging.destination.Some?
    requires later > now + c.ttl
    ensures found.None?
  {
    var c' := Set(c, Some(ranging), now);
    var r := GetBySourceDestination(c', ranging.source.value.macAddress, ranging.destination.value.macAddress, later);
    found := r.1;
  }

  /** After Clear nothing is found. */
  lemma ClearForgets(c: Cache, sourceMac: string, destinationMac: string, now: nat)
    ensures GetBySourceDestination(Clear(c), sourceMac, destinationMac, now).1.None?
  {
  }
}

=== FILE: ranging_event_publisher.dfy ===
/**
 * core/services/ranging_event_publisher.go: a ranging is mapped without includes and
 * published under the fixed event type "update".
 */
module RangingEventPublisher {
  import opened Wrappers
  import opened Broadcaster
  import opened SseFrames
  import CoreModels
  import CoreDtos
  import HttpDto
  import Mappers
  import EventStream

  const RangingEventType: string := "update"

  /** The payload: the ranging mapped with nil includes. */
  function Payload(ranging: CoreModels.Ranging): (p: EventStream.Payload)
    ensures p.RangingPayload?
    ensures p.dto.id == ranging.model.id && p.dto.rawDistance == ranging.rawDistance
    ensures p.dto.sourceId == ranging.sourceId && p.dto.destinationId == ranging.destinationId
    ensures p.dto.source.None? && p.dto.destination.None?
    ensures p.dto.createdAt.None? && p.dto.updatedAt.None? && p.dto.deletedAt.None?
  {
    assert HttpDto.ParseIncludes(None) == map[];
    EventStream.RangingPayload(Mappers.FromRanging(ranging, None))
  }

  /** PublishRangingEvent: Publish's result, unchanged, for the "update" event type. */
  function PublishRangingEvent(s: State, ranging: CoreModels.Ranging, codec: Codec<EventStream.Payload>): (r: Result<State>)
    ensures r == EventStream.Publish(s, "update", Payload(ranging), codec)
    ensures r.Err? <==> codec.marshal(Payload(ranging)).Err?
  {
    EventStream.Publish(s, RangingEventType, Payload(ranging), codec)
  }

  /** Because the payload carries the ranging's ID, a ranging with ID > 0 also reaches the
      subscribers of "update:<ID>", and no other per-id subscriber. */
  lemma RoutedToItsId(s: State, ranging: CoreModels.Ranging, n: nat, codec: Codec<EventStream.Payload>, ch: ChanId)
    requires Valid(s) && n > 0
    requires Member(s, SubscriptionKey(RangingEventType, [n]), ch) && !Full(s.channels[ch])
    requires codec.marshal(Payload(ranging)).Ok?
    ensures var r := PublishRangingEvent(s, ranging, codec);
      r.Ok? && ch in r.value.channels && (|r.value.channels[ch].queue| == |s.channels[ch].queue| + 1 <==> ranging.model.id == n)
  {
    var dto := Payload(ranging).dto;
    var frame := DataFrame(RangingEventType, codec.marshal(Payload(ranging)).value);
    EventStream.IdSubscriberSeesOnlyItsRanging(s, RangingEventType, n, dto, codec, ch);
    IdSubscriberGetsOnlyItsId(s, RangingEventType, n, dto.id, frame, ch);
    DeliverEffect(s, RangingEventType, dto.id, frame);
  }

  /** Every subscriber of plain "update" with room receives every ranging event. */
  lemma TypeSubscriberSeesEveryRanging(s: State, ranging: CoreModels.Ranging, codec: Codec<EventStream.Payload>, ch: ChanId)
    requires Valid(s) && Member(s, RangingEventType, ch) && !Full(s.channels[ch])
    requires codec.marshal(Payload(ranging)).Ok?
    ensures var r := PublishRangingEvent(s, ranging, codec);
      r.Ok? && ch in r.value.channels && r.value.channels[ch].queue == s.channels[ch].queue + [DataFrame("update", codec.marshal(Payload(ranging)).value)]
  {
    TypeSubscriberGetsEveryId(s, RangingEventType, Payload(ranging).dto.id,
      DataFrame(RangingEventType, codec.marshal(Payload(ranging)).value), ch);
  }
}

=== FILE: rw_mutex.dfy ===
/**
 * Go's sync.RWMutex as seen by ONE goroutine running a fixed sequence of lock calls.
 * Lock waits until no reader and no writer holds the mutex; RLock waits while a writer
 * holds it. When the holder that blocks a call is the calling goroutine itself, nobody
 * will ever release it, so the call waits forever: that is what `Blocked` records.
 * Unlocking a mutex that is not held is a fatal runtime error: `Misuse`.
 */
module RWMutex {

  datatype LockState = LockState(readers: nat, writer: bool)

  datatype LockOp = RLock | RUnlock | Lock | Unlock

  datatype Outcome = Done(state: LockState) | Blocked(step: nat) | Misuse(step: nat)

  const Free := LockState(0, false)

  /** Whether `op` can proceed in state `s` without waiting. */
  predicate CanProceed(s: LockState, op: LockOp) {
    match op
    case RLock => !s.writer
    case Lock => s.readers == 0 && !s.writer
    case RUnlock => true
    case Unlock => true
  }

  predicate IsMisuse(s: LockState, op: LockOp) {
    (op == RUnlock && s.readers == 0) || (op == Unlock && !s.writer)
  }

  function Apply(s: LockState, op: LockOp): LockState
    requires CanProceed(s, op) && !IsMisuse(s, op)
  {
    match op
    case RLock => s.(readers := s.readers + 1)
    case RUnlock => s.(readers := s.readers - 1)
    case Lock => s.(writer := true)
    case Unlock => s.(writer := false)
  }

  /** Runs the calls in order from state `s`; `offset` numbers the steps. */
  function Run(s: LockState, ops: seq<LockOp>, offset: nat): (r: Outcome)
    ensures r.Blocked? ==> offset <= r.step < offset + |ops|
    ensures r.Misuse? ==> offset <= r.step < offset + |ops|
    decreases |ops|
  {
    if |ops| == 0 then Done(s)
    else if IsMisuse(s, ops[0]) then Misuse(offset)
    else if !CanProceed(s, ops[0]) then Blocked(offset)
    else Run(Apply(s, ops[0]), ops[1..], offset + 1)
  }

  /** Taking and releasing the read lock, then the write lock, leaves the mutex free. */
  lemma ReleaseBeforeUpgradeCompletes(offset: nat)
    ensures Run(Free, [RLock, RUnlock, Lock, Unlock], offset) == Done(Free)
  {
    var held := LockState(1, false);
    assert Run(held, [RUnlock, Lock, Unlock], offset + 1) == Run(Free, [Lock, Unlock], offset + 2);
    assert Run(Free, [Lock, Unlock], offset + 2) == Run(LockState(0, true), [Unlock], offset + 3);
  }

  /** A goroutine that holds a read lock and then asks for the write lock waits forever. */
  lemma {:induction false} UpgradeBlocks(s: LockState, rest: seq<LockOp>, offset: nat)
    requires s.readers == 0 && !s.writer
    ensures Run(s, [RLock, Lock] + rest, offset) == Blocked(offset + 1)
  {
    var ops := [RLock, Lock] + rest;
    assert ops[1..] == [Lock] + rest;
    var s1 := Apply(s, RLock);
    assert s1.readers == 1;
    assert !CanProceed(s1, Lock);
  }
}

=== FILE: sse_frames.dfy ===
/**
 * The byte frames the event-stream services write, and the reading a client gives them.
 *
 * The reader follows section 9.2.6 of the WHATWG HTML Living Standard ("Interpreting an event
 * stream"): the stream is cut into lines at CRLF, LF or CR; an empty line dispatches the
 * pending event; a line starting with ':' is a comment; otherwise the field name is
 * everything before the first ':' and one leading space of the value is dropped. Only the
 * `event` and `data` fields are tracked here (see README).
 */
module SseFrames {
  import opened Wrappers
  import opened GoStrings

  const LF: char := '\n'
  const CR: char := '\r'

  /** The frame Publish writes for event type T and JSON text J: "event : T\ndata: J\n\n". */
  function DataFrame(eventType: string, json: string): (frame: string)
    ensures HasPrefix(frame, "event : " + eventType + "\n")
    ensures HasSuffix(frame, "\n\n")
  {
    "event : " + eventType + "\n" + "data: " + json + "\n" + "\n"
  }

  /** The frame evidently intended: "event: T\ndata: J\n\n", the header written as the
      ConnectedFrame writes its own. */
  function TypedFrame(eventType: string, json: string): (frame: string)
    ensures HasPrefix(frame, "event: " + eventType + "\n")
    ensures HasSuffix(frame, "\n\n")
    ensures |frame| + 1 == |DataFrame(eventType, json)|
  {
    "event: " + eventType + "\n" + "data: " + json + "\n" + "\n"
  }

  /** The `, "id": N` part of the connected frame, present iff a positive id was asked for. */
  function IdInfo(filterId: seq<nat>): (info: string)
    ensures info != "" <==> |filterId| > 0 && filterId[0] > 0
  {
    if |filterId| > 0 && filterId[0] > 0 then ", \"id\": " + DecimalString(filterId[0]) else ""
  }

  /** The first frame HandleSSERequest writes to a new client. */
  function ConnectedFrame(filterId: seq<nat>): (frame: string)
    ensures HasPrefix(frame, "event: connected\n")
    ensures HasSuffix(frame, "\n\n")
  {
    "event: connected\n" + "data: " + ConnectedData(filterId) + "\n" + "\n"
  }

  function ConnectedData(filterId: seq<nat>): string {
    "{\"status\":\"connected\"" + IdInfo(filterId) + "}"
  }

  /* ---------------------------------------------------------------- reading a stream */

  datatype Event = Event(eventType: string, data: string)

  /** The event type and data buffers, and the events dispatched so far. */
  datatype Reader = Reader(eventType: string, data: string, dispatched: seq<Event>)

  const Fresh := Reader("", "", [])

  predicate NoLineBreak(s: string) {
    LF !in s && CR !in s
  }

  /** The complete lines of `s` (terminators removed), `cur` being the line read so far; an
      unterminated last line is never processed. */
  function LinesFrom(s: string, cur: string): seq<string>
    decreases |s|
  {
    if s == [] then []
    else if s[0] == LF then [cur] + LinesFrom(s[1..], "")
    else if s[0] == CR then
      [cur] + LinesFrom(if |s| > 1 && s[1] == LF then s[2..] else s[1..], "")
    else LinesFrom(s[1..], cur + [s[0]])
  }

  function Lines(s: string): seq<string> {
    LinesFrom(s, "")
  }

  /** A line cut at its first ':', if it has one. */
  function SplitAtColon(line: string): (r: (string, Option<string>))
    ensures ':' !in r.0
    ensures r.1.None? <==> ':' !in line
    ensures r.1.None? ==> r.0 == line
    ensures r.1.Some? ==> line == r.0 + [':'] + r.1.value
  {
    if line == [] then ([], None)
    else if line[0] == ':' then ([], Some(line[1..]))
    else
      var rest := SplitAtColon(line[1..]);
      ([line[0]] + rest.0, rest.1)
  }

  function StripOneSpace(v: string): string {
    if |v| > 0 && v[0] == ' ' then v[1..] else v
  }

  function ProcessField(rd: Reader, field: string, value: string): Reader {
    if field == "event" then rd.(eventType := value)
    else if field == "data" then rd.(data := rd.data + value + [LF])
    else rd
  }

  /** Dispatch at an empty line: nothing when the data buffer is empty; otherwise the data
      without its final LF, typed "message" when no event type was set. Both buffers reset. */
  function Dispatch(rd: Reader): Reader {
    if rd.data == "" then Reader("", "", rd.dispatched)
    else
      var data := if rd.data[|rd.data| - 1] == LF then rd.data[..|rd.data| - 1] else rd.data;
      var eventType := if rd.eventType == "" then "message" else rd.eventType;
      Reader("", "", rd.dispatched + [Event(eventType, data)])
  }

  function ProcessLine(rd: Reader, line: string): Reader {
    if line == "" then Dispatch(rd)
    else if line[0] == ':' then rd
    else
      var parts := SplitAtColon(line);
      if parts.1.Some? then ProcessField(rd, parts.0, StripOneSpace(parts.1.value))
      else ProcessField(rd, parts.0, "")
  }

  function ProcessLines(rd: Reader, lines: seq<string>): Reader
    decreases |lines|
  {
    if lines == [] then rd else ProcessLines(ProcessLine(rd, lines[0]), lines[1..])
  }

  /** The events a client dispatches when it reads `stream` from the start. */
  function Events(stream: string): seq<Event> {
    ProcessLines(Fresh, Lines(stream)).dispatched
  }

  /* ---------------------------------------------------------------- lemmas */

  lemma NoLineBreakConcat(x: string, y: string)
    requires NoLineBreak(x) && NoLineBreak(y)
    ensures NoLineBreak(x + y)
  {
    assert forall c :: c in x + y ==> c in x || c in y;
  }

  /** A line without breaks followed by LF is read as one line. */
  lemma {:induction false} LinesFromLine(x: string, rest: string, cur: string)
    requires NoLineBreak(x)
    ensures LinesFrom(x + [LF] + rest, cur) == [cur + x] + LinesFrom(rest, "")
    decreases |x|
  {
    var s := x + [LF] + rest;
    if x == [] {
      assert s == [LF] + rest;
      assert s[0] == LF && s[1..] == rest;
      assert cur + x == cur;
    } else {
      assert s[0] == x[0] && s[0] != LF && s[0] != CR;
      assert s[1..] == x[1..] + [LF] + rest;
      LinesFromLine(x[1..], rest, cur + [x[0]]);
      assert cur + [x[0]] + x[1..] == cur + x;
    }
  }

  /** A two-line frame ending in a blank line is read as those two lines and an empty one. */
  lemma FrameLines(a: string, b: string)
    requires NoLineBreak(a) && NoLineBreak(b)
    ensures Lines(a + "\n" + b + "\n" + "\n") == [a, b, ""]
  {
    var s := a + "\n" + b + "\n" + "\n";
    assert s == a + [LF] + (b + [LF] + [LF]);
    LinesFromLine(a, b + [LF] + [LF], "");
    LinesFromLine(b, [LF], "");
    assert LinesFrom([LF], "") == [""] + LinesFrom([], "");
    assert "" + a == a && "" + b == b;
  }

  /** Reading such a frame processes the two lines and then dispatches. */
  lemma ReadFrame(a: string, b: string)
    requires NoLineBreak(a) && NoLineBreak(b)
    ensures Events(a + "\n" + b + "\n" + "\n") == Dispatch(ProcessLine(ProcessLine(Fresh, a), b)).dispatched
  {
    FrameLines(a, b);
    var r1 := ProcessLine(Fresh, a);
    var r2 := ProcessLine(r1, b);
    assert ProcessLines(Fresh, [a, b, ""]) == ProcessLines(r1, [b, ""]);
    assert ProcessLines(r1, [b, ""]) == ProcessLines(r2, [""]);
    assert ProcessLines(r2, [""]) == ProcessLines(Dispatch(r2), []);
  }

  /** The first ':' of `p + ":" + v` is the one after `p` when `p` has none. */
  lemma {:induction false} SplitAtColonFirst(p: string, v: string)
    requires ':' !in p
    ensures SplitAtColon(p + [':'] + v) == (p, Some(v))
    decreases |p|
  {
    var line := p + [':'] + v;
    if p == [] {
      assert line == [':'] + v;
      assert line[0] == ':' && line[1..] == v;
    } else {
      assert line[0] == p[0] && p[0] != ':';
      assert line[1..] == p[1..] + [':'] + v;
      SplitAtColonFirst(p[1..], v);
      assert [p[0]] + p[1..] == p;
    }
  }

  /** A line "name: value" with a colon-free name sets field `name` to `value`. */
  lemma FieldLine(rd: Reader, name: string, value: string)
    requires name != "" && ':' !in name
    ensures ProcessLine(rd, name + ": " + value) == ProcessField(rd, name, value)
  {
    var line := name + ": " + value;
    assert line == name + [':'] + (" " + value);
    SplitAtColonFirst(name, " " + value);
    assert line[0] == name[0];
    assert (" " + value)[1..] == value;
  }

  /** Dispatching after one data line yields that line's value as data. */
  lemma DispatchOneDataLine(eventType: string, json: string)
    ensures Dispatch(Reader(eventType, json + [LF], [])).dispatched
      == [Event(if eventType == "" then "message" else eventType, json)]
  {
    var d := json + [LF];
    assert d != "" && d[|d| - 1] == LF;
    assert d[..|d| - 1] == json;
  }

  /** "event : T" names the field "event " (with the space), which a reader ignores. */
  lemma SpacedEventLineIgnored(rd: Reader, eventType: string)
    ensures ProcessLine(rd, "event : " + eventType) == rd
  {
    assert "event : " + eventType == "event " + ": " + eventType;
    FieldLine(rd, "event ", eventType);
  }

  lemma EventLine(rd: Reader, eventType: string)
    ensures ProcessLine(rd, "event: " + eventType) == rd.(eventType := eventType)
  {
    assert "event: " + eventType == "event" + ": " + eventType;
    FieldLine(rd, "event", eventType);
  }

  lemma DataLine(rd: Reader, json: string)
    ensures ProcessLine(rd, "data: " + json) == rd.(data := rd.data + json + [LF])
  {
    assert "data: " + json == "data" + ": " + json;
    FieldLine(rd, "data", json);
  }

  /** The data frame is dispatched as one event of the default type "message" carrying J: the
      event type it was published under is lost. */
  lemma DataFrameReadsAsMessage(eventType: string, json: string)
    requires NoLineBreak(eventType) && NoLineBreak(json)
    ensures Events(DataFrame(eventType, json)) == [Event("message", json)]
  {
    var a := "event : " + eventType;
    var b := "data: " + json;
    assert NoLineBreak(a) by { NoLineBreakConcat("event : ", eventType); }
    assert NoLineBreak(b) by { NoLineBreakConcat("data: ", json); }
    FrameParts("event : ", eventType, "data: ", json);
    ReadFrame(a, b);
    SpacedEventLineIgnored(Fresh, eventType);
    DataLine(Fresh, json);
    assert Fresh.data == [] && [] + json == json;
    DispatchOneDataLine("", json);
  }

  /** The corrected frame, "event: T" with no space before the colon, carries its type. */
  lemma TypedFrameReadsAsType(eventType: string, json: string)
    requires NoLineBreak(eventType) && NoLineBreak(json) && eventType != ""
    ensures Events(TypedFrame(eventType, json)) == [Event(eventType, json)]
  {
    var a := "event: " + eventType;
    var b := "data: " + json;
    assert NoLineBreak(a) by { NoLineBreakConcat("event: ", eventType); }
    assert NoLineBreak(b) by { NoLineBreakConcat("data: ", json); }
    FrameParts("event: ", eventType, "data: ", json);
    ReadFrame(a, b);
    TypedLines(eventType, json);
  }

  /** The event line then the data line, then the blank line: one event of that type. */
  lemma TypedLines(eventType: string, json: string)
    requires eventType != ""
    ensures Dispatch(ProcessLine(ProcessLine(Fresh, "event: " + eventType), "data: " + json)).dispatched
      == [Event(eventType, json)]
  {
    EventLine(Fresh, eventType);
    var r1 := Reader(eventType, "", []);
    assert Fresh.(eventType := eventType) == r1;
    DataLine(r1, json);
    assert r1.(data := r1.data + json + [LF]) == Reader(eventType, json + [LF], []) by {
      assert r1.data + json + [LF] == json + [LF];
    }
    DispatchOneDataLine(eventType, json);
  }

  /** Regrouping a frame's concatenation into its two lines. */
  lemma FrameParts(h: string, t: string, d: string, j: string)
    ensures h + t + "\n" + d + j + "\n" + "\n" == (h + t) + "\n" + (d + j) + "\n" + "\n"
  {
  }

  lemma ConnectedHeader()
    ensures "event: connected\n" == "event: " + "connected" + "\n"
  {
  }

  lemma ConnectedDataHasNoLineBreak(filterId: seq<nat>)
    ensures NoLineBreak(ConnectedData(filterId))
  {
    var info := IdInfo(filterId);
    if info != "" {
      var d := DecimalString(filterId[0]);
      assert forall i :: 0 <= i < |d| ==> IsDigit(d[i]);
      assert NoLineBreak(d);
      NoLineBreakConcat(", \"id\": ", d);
    }
    NoLineBreakConcat("{\"status\":\"connected\"", info);
    NoLineBreakConcat("{\"status\":\"connected\"" + info, "}");
  }

  /** The connected frame is dispatched as one "connected" event whose data is the status
      object, with the id exactly when a positive one was requested. */
  lemma ConnectedFrameReadsAsConnected(filterId: seq<nat>)
    ensures Events(ConnectedFrame(filterId)) == [Event("connected", ConnectedData(filterId))]
  {
    var json := ConnectedData(filterId);
    ConnectedDataHasNoLineBreak(filterId);
    ConnectedHeader();
    assert ConnectedFrame(filterId) == TypedFrame("connected", json);
    TypedFrameReadsAsType("connected", json);
  }
}

=== FILE: station_events.dfy ===
/**
 * events/station_event.go: the station event types and the in-process StationEventBus.
 * Handlers are func values; the model names each registration by a HandlerId, and a
 * Publish returns the handler launches (`go handler(event)`) in registration order.
 */
module StationEvents {
  import opened Primitives

  const StationAddedToCluster: string := "station_added_to_cluster"
  const StationRemovedFromCluster: string := "station_removed_from_cluster"
  const ClusterUpdated: string := "cluster_updated"

  datatype StationEvent = StationEvent(eventType: string, clusterId: nat, stationId: nat, timestamp: Timestamp)

  type HandlerId = nat

  /** One `go handler(eventX)`: the handler and the event value it receives. */
  datatype Launch = Launch(handler: HandlerId, event: StationEvent)

  datatype Bus = Bus(handlers: map<string, seq<HandlerId>>)

  function NewBus(): (b: Bus)
    ensures b.handlers == map[]
  {
    Bus(map[])
  }

  /** The three event types are distinct. */
  lemma EventTypesDistinct()
    ensures StationAddedToCluster != StationRemovedFromCluster
    ensures StationAddedToCluster != ClusterUpdated
    ensures StationRemovedFromCluster != ClusterUpdated
  {
    assert StationAddedToCluster[8] != StationRemovedFromCluster[8];
    assert |StationAddedToCluster| != |ClusterUpdated|;
    assert |StationRemovedFromCluster| != |ClusterUpdated|;
  }

  /** The handlers registered for a type, in registration order. */
  function HandlersOf(bus: Bus, eventType: string): seq<HandlerId> {
    if eventType in bus.handlers then bus.handlers[eventType] else []
  }

  /** Subscribe appends the handler to its type's list (created when absent); other types keep
      their lists. */
  function Subscribe(bus: Bus, eventType: string, handler: HandlerId): (r: Bus)
    ensures HandlersOf(r, eventType) == HandlersOf(bus, eventType) + [handler]
    ensures forall t :: t != eventType ==> HandlersOf(r, t) == HandlersOf(bus, t)
    ensures r.handlers.Keys == bus.handlers.Keys + {eventType}
  {
    Bus(bus.handlers[eventType := HandlersOf(bus, eventType) + [handler]])
  }

  /** Publish launches every handler of the event's type once per registration, in order,
      each with (a copy of) the event; a type nobody subscribed to launches nothing. */
  function Publish(bus: Bus, event: StationEvent): (launches: seq<Launch>)
    ensures |launches| == |HandlersOf(bus, event.eventType)|
    ensures forall i :: 0 <= i < |launches| ==>
      launches[i] == Launch(HandlersOf(bus, event.eventType)[i], event)
    ensures event.eventType !in bus.handlers ==> launches == []
  {
    var hs := HandlersOf(bus, event.eventType);
    seq(|hs|, i requires 0 <= i < |hs| => Launch(hs[i], event))
  }

  /** The handlers a list of launches starts. */
  function Launched(launches: seq<Launch>): seq<HandlerId> {
    seq(|launches|, i requires 0 <= i < |launches| => launches[i].handler)
  }

  /** Subscribing and then publishing an event of that type launches the handlers registered
      before, then the new one; a subscription to another type changes nothing. */
  lemma SubscribeThenPublish(bus: Bus, eventType: string, handler: HandlerId, event: StationEvent)
    ensures event.eventType == eventType ==>
      Launched(Publish(Subscribe(bus, eventType, handler), event)) == Launched(Publish(bus, event)) + [handler]
    ensures event.eventType != eventType ==>
      Publish(Subscribe(bus, eventType, handler), event) == Publish(bus, event)
  {
  }

  /** A handler registered k times for a type is launched k times per event of that type. */
  lemma LaunchMultiplicity(bus: Bus, event: StationEvent, handler: HandlerId)
    ensures multiset(Launched(Publish(bus, event)))[handler] == multiset(HandlersOf(bus, event.eventType))[handler]
  {
    assert Launched(Publish(bus, event)) == HandlersOf(bus, event.eventType);
  }
}

=== FILE: station_service.dfy ===
/**
 * core/services/station_service.go (and the identical decisions of the older
 * services/station_service.go): identifier classification, the cluster-membership events
 * Update emits, and SaveAll. Repository calls are parameters: their results are inputs.
 */
module StationService {
  import opened Wrappers
  import opened GoStrings
  import opened Primitives
  import opened CoreModels
  import opened StationEvents
  import HttpDto

  /* ---------------------------------------------------------------- GetStationByIdentifier */

  /** Which lookup an identifier leads to. */
  datatype Lookup = ByMac(mac: string) | ById(id: nat) | Invalid(message: string)

  const InvalidIdentifierPrefix := "ungültiger Identifier '"
  const InvalidIdentifierSuffix := "': weder MAC-Adresse noch gültige ID"

  /** The German error text, quoting the rejected identifier verbatim. */
  function InvalidIdentifierMessage(identifier: string): (m: string)
    ensures |m| == |InvalidIdentifierPrefix| + |identifier| + |InvalidIdentifierSuffix|
    ensures m[..|InvalidIdentifierPrefix|] == InvalidIdentifierPrefix
    ensures m[|InvalidIdentifierPrefix|..|InvalidIdentifierPrefix| + |identifier|] == identifier
    ensures m[|InvalidIdentifierPrefix| + |identifier|..] == InvalidIdentifierSuffix
  {
    InvalidIdentifierPrefix + identifier + InvalidIdentifierSuffix
  }

  /** Distinct identifiers are reported with distinct messages. */
  lemma InvalidIdentifierMessageInjective(a: string, b: string)
    requires InvalidIdentifierMessage(a) == InvalidIdentifierMessage(b)
    ensures a == b
  {
    var n := |InvalidIdentifierPrefix|;
    assert a == InvalidIdentifierMessage(a)[n..n + |a|];
    assert b == InvalidIdentifierMessage(b)[n..n + |b|];
  }

  /** An identifier with ':' is a MAC, used unchanged; otherwise it must parse as an unsigned
      64-bit decimal id; anything else is an error. */
  function ClassifyIdentifier(identifier: string): (r: Lookup)
    ensures ':' in identifier ==> r == ByMac(identifier)
    ensures ':' !in identifier ==> (r.ById? <==> ParseUint64(identifier).Some?)
    ensures r.ById? ==> r.id <= MaxUint64 && AllDigits(identifier) && r.id == DigitsValue(identifier)
    ensures r.Invalid? <==> ':' !in identifier && ParseUint64(identifier).None?
    ensures r.Invalid? ==> r.message == InvalidIdentifierMessage(identifier)
  {
    if ':' in identifier then ByMac(identifier)
    else match ParseUint64(identifier)
      case Some(id) => ById(id)
      case None => Invalid(InvalidIdentifierMessage(identifier))
  }

  /** The decimal rendering of any 64-bit id is classified as that id. */
  lemma DecimalIdentifierIsId(id: nat)
    requires id <= MaxUint64
    ensures ClassifyIdentifier(DecimalString(id)) == ById(id)
  {
    DecimalStringHasNoPunctuation(id);
    ParseUintOfDecimal(id);
  }

  /** The empty string and an id one past 64 bits are rejected. */
  lemma RejectedIdentifiers()
    ensures ClassifyIdentifier("").Invalid?
    ensures ClassifyIdentifier(DecimalString(MaxUint64 + 1)).Invalid?
  {
    DecimalStringHasNoPunctuation(MaxUint64 + 1);
    DecimalStringValue(MaxUint64 + 1);
  }

  /** GetStationByIdentifier, with the two repository lookups as parameters. */
  function GetStationByIdentifier(
    identifier: string, includeParam: Option<string>,
    findByMac: (string, map<string, bool>) -> Result<Station>,
    findById: (nat, map<string, bool>) -> Result<Station>): (r: Result<Station>)
    ensures ClassifyIdentifier(identifier).ByMac? ==> r == findByMac(identifier, HttpDto.ParseIncludes(includeParam))
    ensures ClassifyIdentifier(identifier).ById? ==>
      r == findById(ClassifyIdentifier(identifier).id, HttpDto.ParseIncludes(includeParam))
    ensures ClassifyIdentifier(identifier).Invalid? ==> r == Err(InvalidIdentifierMessage(identifier))
  {
    var includes := HttpDto.ParseIncludes(includeParam);
    match ClassifyIdentifier(identifier)
    case ByMac(mac) => findByMac(mac, includes)
    case ById(id) => findById(id, includes)
    case Invalid(message) => Err(message)
  }

  /** An invalid identifier performs no lookup: the answer is the same whatever the
      repository would have said. */
  lemma InvalidIdentifierLooksNothingUp(
    identifier: string, includeParam: Option<string>,
    mac1: (string, map<string, bool>) -> Result<Station>, id1: (nat, map<string, bool>) -> Result<Station>,
    mac2: (string, map<string, bool>) -> Result<Station>, id2: (nat, map<string, bool>) -> Result<Station>)
    requires ClassifyIdentifier(identifier).Invalid?
    ensures GetStationByIdentifier(identifier, includeParam, mac1, id1)
         == GetStationByIdentifier(identifier, includeParam, mac2, id2)
  {
  }

  /* ---------------------------------------------------------------- Update */

  /** The membership events for a station whose ClusterID went from `oldClusterId` to
      `updated.clusterId`: added to the new cluster, then removed from the old one. */
  function ClusterEvents(oldClusterId: Option<nat>, updated: Station, now: Timestamp): (events: seq<StationEvent>)
    ensures |events| <= 2
    ensures forall e :: e in events ==> e.stationId == updated.model.id && e.timestamp == now
    ensures (exists e :: e in events && e.eventType == StationAddedToCluster) <==>
      updated.clusterId.Some? && (oldClusterId.None? || oldClusterId.value != updated.clusterId.value)
    ensures (exists e :: e in events && e.eventType == StationRemovedFromCluster) <==>
      oldClusterId.Some? && (updated.clusterId.None? || oldClusterId.value != updated.clusterId.value)
    ensures forall e :: e in events && e.eventType == StationAddedToCluster ==> e.clusterId == updated.clusterId.value
    ensures forall e :: e in events && e.eventType == StationRemovedFromCluster ==> e.clusterId == oldClusterId.value
    ensures |events| == 2 ==> events[0].eventType == StationAddedToCluster && events[1].eventType == StationRemovedFromCluster
  {
    EventTypesDistinct();
    var newId := updated.clusterId;
    var added :=
      if newId.Some? && (oldClusterId.None? || oldClusterId.value != newId.value) then
        [StationEvent(StationAddedToCluster, newId.value, updated.model.id, now)]
      else [];
    var removed :=
      if oldClusterId.Some? && (newId.None? || oldClusterId.value != newId.value) then
        [StationEvent(StationRemovedFromCluster, oldClusterId.value, updated.model.id, now)]
      else [];
    added + removed
  }

  /** Moving from cluster X to cluster Y emits added(Y) then removed(X). */
  lemma MoveEmitsAddedThenRemoved(x: nat, y: nat, updated: Station, now: Timestamp)
    requires updated.clusterId == Some(y) && x != y
    ensures ClusterEvents(Some(x), updated, now) ==
      [StationEvent(StationAddedToCluster, y, updated.model.id, now),
       StationEvent(StationRemovedFromCluster, x, updated.model.id, now)]
  {
  }

  /** Unchanged membership (including none before and after) emits nothing. */
  lemma UnchangedMembershipIsSilent(oldClusterId: Option<nat>, updated: Station, now: Timestamp)
    requires updated.clusterId == oldClusterId
    ensures ClusterEvents(oldClusterId, updated, now) == []
  {
  }

  /** Update: find the stored station, update, then publish the membership events. A failing
      find or update is returned unchanged and publishes nothing. */
  datatype UpdateOutcome = UpdateOutcome(result: Result<Station>, updateCalled: bool, published: seq<StationEvent>)

  function Update(found: Result<Station>, update: () -> Result<Station>, now: Timestamp): (r: UpdateOutcome)
    ensures found.Err? ==> r == UpdateOutcome(Err(found.message), false, [])
    ensures found.Ok? ==> r.updateCalled && r.result == update()
    ensures found.Ok? && update().Err? ==> r.published == []
    ensures found.Ok? && update().Ok? ==> r.published == ClusterEvents(found.value.clusterId, update().value, now)
  {
    if found.Err? then UpdateOutcome(Err(found.message), false, [])
    else
      var oldClusterId := found.value.clusterId;
      var updated := update();
      if updated.Err? then UpdateOutcome(updated, true, [])
      else UpdateOutcome(updated, true, ClusterEvents(oldClusterId, updated.value, now))
  }

  /** The handler launches of one Update on the event bus: each event's handlers, in order. */
  function UpdateLaunches(bus: Bus, published: seq<StationEvent>): (launches: seq<Launch>)
    ensures published == [] ==> launches == []
    ensures |published| == 1 ==> launches == Publish(bus, published[0])
  {
    if published == [] then [] else Publish(bus, published[0]) + UpdateLaunches(bus, published[1..])
  }

  /** A station moved between clusters wakes the added-handlers and then the removed-handlers. */
  lemma MoveLaunchesBothKinds(bus: Bus, x: nat, y: nat, updated: Station, now: Timestamp)
    requires updated.clusterId == Some(y) && x != y
    ensures UpdateLaunches(bus, ClusterEvents(Some(x), updated, now))
      == Publish(bus, StationEvent(StationAddedToCluster, y, updated.model.id, now))
       + Publish(bus, StationEvent(StationRemovedFromCluster, x, updated.model.id, now))
    ensures |UpdateLaunches(bus, ClusterEvents(Some(x), updated, now))|
      == |HandlersOf(bus, StationAddedToCluster)| + |HandlersOf(bus, StationRemovedFromCluster)|
  {
    var events := ClusterEvents(Some(x), updated, now);
    MoveEmitsAddedThenRemoved(x, y, updated, now);
    assert events[1..] == [events[1]];
    assert UpdateLaunches(bus, events[1..]) == Publish(bus, events[1]);
  }

  /* ---------------------------------------------------------------- SaveAll */

  /** SaveAll: nil for an empty list; otherwise the stations saved one by one, stopping at the
      first error, which is returned; on success the input list itself. `attempted` counts the
      Save calls made. */
  method SaveAll(stations: seq<Station>, save: Station -> Result<Station>)
    returns (r: Result<Option<seq<Station>>>, attempted: nat)
    ensures |stations| == 0 ==> r == Ok(None) && attempted == 0
    ensures r.Ok? ==> attempted == |stations| && forall i :: 0 <= i < |stations| ==> save(stations[i]).Ok?
    ensures r.Ok? && |stations| > 0 ==> r.value == Some(stations)
    ensures r.Err? ==> 0 < attempted <= |stations|
    ensures r.Err? ==> save(stations[attempted - 1]) == Err(r.message)
    ensures r.Err? ==> forall i :: 0 <= i < attempted - 1 ==> save(stations[i]).Ok?
  {
    if |stations| == 0 {
      return Ok(None), 0;
    }
    attempted := 0;
    while attempted < |stations|
      invariant attempted <= |stations|
      invariant forall i :: 0 <= i < attempted ==> save(stations[i]).Ok?
    {
      var saved := save(stations[attempted]);
      attempted := attempted + 1;
      if saved.Err? {
        return Err(saved.message), attempted;
      }
    }
    r := Ok(Some(stations));
  }
}

=== FILE: validation.dfy ===
/**
 * core/validation (validator.go, cluster_validator.go): validation errors, their rendering,
 * and the cluster-create validator with the repository's FindAll result as an input.
 */
module Validation {
  import opened Wrappers
  import opened GoStrings
  import opened CoreModels

  datatype ValidationError = ValidationError(field: string, message: string)

  /* ---------------------------------------------------------------- rendering */

  /** ValidationError.Error as written formats `v.Error()` itself into its result, so it never
      returns. `fuel` bounds the nesting depth: with any finite budget there is no answer. */
  function ErrorAsWritten(v: ValidationError, fuel: nat): (r: Option<string>)
    ensures r.None?
    decreases fuel
  {
    if fuel == 0 then None
    else match ErrorAsWritten(v, fuel - 1)
      case None => None
      case Some(inner) => Some(v.field + ": " + inner)
  }

  /** The rendering evidently intended: "field: message". */
  function Error(v: ValidationError): (text: string)
    ensures |text| == |v.field| + 2 + |v.message|
  {
    v.field + ": " + v.message
  }

  /** The field and message can be read back from the rendering. */
  lemma ErrorReadsBack(v: ValidationError)
    ensures Error(v)[..|v.field|] == v.field
    ensures Error(v)[|v.field|..|v.field| + 2] == ": "
    ensures Error(v)[|v.field| + 2..] == v.message
  {
  }

  /** ValidationErrors.Error over an element rendering that may fail to return: "" when
      empty, otherwise every element's text joined with "; ", or no result once any element
      has none. */
  function ErrorsTextWith(errs: seq<ValidationError>, render: ValidationError -> Option<string>): (r: Option<string>)
    ensures |errs| == 0 ==> r == Some("")
    ensures r.Some? <==> forall i :: 0 <= i < |errs| ==> render(errs[i]).Some?
    ensures r.Some? ==> r.value == Join(seq(|errs|, i requires 0 <= i < |errs| && render(errs[i]).Some? => render(errs[i]).value), "; ")
  {
    if forall i :: 0 <= i < |errs| ==> render(errs[i]).Some? then
      Some(Join(seq(|errs|, i requires 0 <= i < |errs| && render(errs[i]).Some? => render(errs[i]).value), "; "))
    else None
  }

  /** ValidationErrors.Error as written: its elements' Error never returns, so any non-empty
      list never renders; the empty one renders as "". */
  function ErrorsTextAsWritten(errs: seq<ValidationError>, fuel: nat): (r: Option<string>)
    ensures |errs| == 0 ==> r == Some("")
    ensures |errs| > 0 ==> r.None?
  {
    ErrorsTextWith(errs, v => ErrorAsWritten(v, fuel))
  }

  /** ValidationErrors.Error with the intended element rendering. */
  function ErrorsText(errs: seq<ValidationError>): (text: string)
    ensures text == "" <==> |errs| == 0
    ensures |errs| == 1 ==> text == Error(errs[0])
  {
    Join(seq(|errs|, i requires 0 <= i < |errs| => Error(errs[i])), "; ")
  }

  /** With the intended element rendering, which always returns, the list rendering is
      exactly ErrorsText. */
  lemma CorrectedRenderingIsErrorsText(errs: seq<ValidationError>)
    ensures ErrorsTextWith(errs, v => Some(Error(v))) == Some(ErrorsText(errs))
  {
    var render := (v: ValidationError) => Some(Error(v));
    assert seq(|errs|, i requires 0 <= i < |errs| && render(errs[i]).Some? => render(errs[i]).value)
        == seq(|errs|, i requires 0 <= i < |errs| => Error(errs[i]));
  }

  lemma {:induction false} JoinSnoc(parts: seq<string>, x: string, sep: string)
    requires |parts| > 0
    ensures Join(parts + [x], sep) == Join(parts, sep) + sep + x
    decreases |parts|
  {
    if |parts| == 1 {
      assert parts + [x] == [parts[0], x];
    } else {
      assert (parts + [x])[1..] == parts[1..] + [x];
      JoinSnoc(parts[1..], x, sep);
    }
  }

  /** The rendering is "" for no errors, the one message for one, and each further error adds
      "; " and its message, so n errors carry n - 1 separators, in order. */
  lemma ErrorsTextShape(errs: seq<ValidationError>, e: ValidationError)
    ensures ErrorsText([]) == ""
    ensures ErrorsText([e]) == Error(e)
    ensures |errs| > 0 ==> ErrorsText(errs + [e]) == ErrorsText(errs) + "; " + Error(e)
  {
    if |errs| > 0 {
      var parts := seq(|errs|, i requires 0 <= i < |errs| => Error(errs[i]));
      assert seq(|errs + [e]|, i requires 0 <= i < |errs + [e]| => Error((errs + [e])[i])) == parts + [Error(e)];
      JoinSnoc(parts, Error(e), "; ");
    }
  }

  /* ---------------------------------------------------------------- cluster validator */

  const NameEmpty := ValidationError("name", "Name cannot be empty")
  const NameTaken := ValidationError("name", "A cluster with this name already exists")

  /** validateCluster: an empty name is one error and no repository query; a non-empty new
      name is checked against FindAll's clusters, the first clash adding one error; a failed
      FindAll skips the check. The result is nil (None) without errors. */
  method ValidateCluster(cluster: Cluster, isNew: bool, existing: Result<seq<Cluster>>)
    returns (errors: Option<seq<ValidationError>>, queried: bool)
    ensures queried <==> cluster.name != "" && isNew
    ensures cluster.name == "" ==> errors == Some([NameEmpty])
    ensures cluster.name != "" && (!isNew || existing.Err?) ==> errors.None?
    ensures cluster.name != "" && isNew && existing.Ok? ==>
      (errors == Some([NameTaken]) <==> exists c :: c in existing.value && c.name == cluster.name)
    ensures cluster.name != "" && isNew && existing.Ok? ==>
      (errors.None? <==> forall c :: c in existing.value ==> c.name != cluster.name)
    ensures errors.Some? ==> |errors.value| == 1
  {
    var errs: seq<ValidationError> := [];
    if cluster.name == "" {
      errs := errs + [NameEmpty];
      assert errs == [NameEmpty];
    }
    queried := false;
    if cluster.name != "" && isNew {
      queried := true;
      if existing.Ok? {
        var clusters := existing.value;
        var i := 0;
        while i < |clusters|
          invariant 0 <= i <= |clusters|
          invariant errs == []
          invariant forall j :: 0 <= j < i ==> clusters[j].name != cluster.name
        {
          // the id comparison only matters for updates, which this branch never sees
          var otherId := clusters[i].model.id != cluster.model.id;
          if clusters[i].name == cluster.name && (isNew || otherId) {
            errs := errs + [NameTaken];
            assert errs == [NameTaken] && clusters[i] in existing.value;
            break;
          }
          i := i + 1;
        }
      }
    }
    if |errs| > 0 {
      errors := Some(errs);
    } else {
      errors := None;
    }
  }

  /** ValidateCreate validates as a new cluster. */
  method ValidateCreate(cluster: Cluster, existing: Result<seq<Cluster>>)
    returns (errors: Option<seq<ValidationError>>, queried: bool)
    ensures cluster.name == "" ==> errors == Some([NameEmpty]) && !queried
    ensures cluster.name != "" ==> queried
    ensures cluster.name != "" && existing.Err? ==> errors.None?
    ensures cluster.name != "" && existing.Ok? ==>
      (errors == Some([NameTaken]) <==> exists c :: c in existing.value && c.name == cluster.name)
    ensures cluster.name != "" && existing.Ok? ==>
      (errors.None? <==> forall c :: c in existing.value ==> c.name != cluster.name)
    ensures errors.Some? ==> |errors.value| == 1
  {
    errors, queried := ValidateCluster(cluster, true, existing);
  }
}

=== FILE: wrappers.dfy ===
/** Failure-carrying datatypes shared by the model: Go's `(T, error)` pairs and nil pointers. */
module Wrappers {

  /** A Go pointer or an optional value: `None` stands for nil. */
  datatype Option<+T> = None | Some(value: T) {

    function GetOr(default: T): T {
      match this
      case Some(v) => v
      case None => default
    }
  }

  /** A Go `(T, error)` result: `Err` carries the error's message. */
  datatype Result<+T> = Ok(value: T) | Err(message: string) {

    predicate IsFailure() {
      Err?
    }
  }
}
